=== FILE: README.md ===
# idlearn text core, in Dafny

idlearn turns a PDF (an article or a book) into study material. Before any
language model is involved, it reduces the document to sections of plain
text. This project models that pure, sequential layer and proves what it
promises. The document layer is reduced to nested sequences: pages of
blocks, blocks of lines, lines of spans.

- **Outline arithmetic** (`Outline`). Covers `get_toc`, which gives each
  outline row the end page of its section, with the title clean-up of the
  class version. Covers `toc2dtoc`, which builds the nested outline with a
  level stack and then collapses childless nodes to their pages. Covers
  `get_children` and `get_next_section`. Also covers the fuzzy comparison
  of a heading with a section title.
- **Dominant typography** (`Typography`). Covers `Counter.most_common(2)`
  with first-seen tie breaking, and the runner-up rule of `get_main_size`
  and both `get_main_font`s. Python's half-to-even `round` is written out.
- **Span normaliser** (`Spans`). `get_span` merges the spans of one line
  from left to right, then tidies each merged text.
- **Heuristic heading detector** (`Headings`). Covers the built-in outline
  and the font-size statistics. Covers the scored `_is_potential_heading`
  and the level rules of `_determine_heading_level`. Covers
  `_clean_and_sort_toc`: de-duplication that keeps order, then a stable
  sort.
- **Section text scan** (`Segmenter`). This is `text_extract` of
  app/utils.py. It drops header and footer blocks, and a section title
  opens a key. A caption ends the block. Body-size spans are joined by the
  hyphen and ligature rule. At every block end the text is cleaned and
  stored under its key.
- **Question helpers** (`Qa`). These are `is_quantitative_question` and
  `answer_contains_number`.

Shared pieces:
- `Base` holds the result type, which stands in for Python's
  `IndexError` and `ValueError`, and an insertion-ordered dictionary.
- `Chars` holds ASCII character classes and `strip`.
- `Subst` holds the specific regular-expression substitutions the code
  uses, each as a leftmost, non-overlapping rewrite.
- `Layout` holds the page, block, line and span records.

Where the documentation of the program and its code differ, the model
follows the code:
- The title side of the fuzzy comparison is not stripped.
- The hyphen stays in a joined word.
- `get_children` skips shallower rows instead of stopping at them.
- `get_main_size` and `get_main_font` compare the runner-up's count with
  half the leading size.
- A size below every large size gets level 4, even when there are fewer
  than three large sizes.
- The comment on `get_span` says each run differs in font or size from the
  others. After an abbreviation the merged run takes the next span's style,
  so a later span back in the earlier style can start a run of the same
  style as the one before (`Spans.StylesMayRepeat`: "hello", "B." and
  "world" give "hello" and "B.world", both in the first font).

## Model

| member | source | states |
|---|---|---|
| Base.Put | app/utils.py:193 | `main_text[key] = value`: a new key is appended, an existing key keeps its place and takes the new value, keys stay distinct |
| Base.GetPut | app/utils.py:193 | after storing, the key reads back the value stored and every other key reads as before |
| Outline.EndPage | app/text_extractor.py:19-27 | the end page is the start page of the first later row at the same or a shallower level, or the page count when there is none |
| Outline.Sections | app/utils.py:21-42 | one row per outline entry, in order, level, title and start page unchanged, each with its end page |
| Outline.CleanTitle | app/text_extractor.py:28-29 | a cleaned title holds no carriage return and only characters of the title or spaces; a title without the three patterns is unchanged |
| Outline.CleanSections | app/text_extractor.py:15-37 | as `Sections`, with every title cleaned and free of carriage returns |
| Outline.Parent | app/text_extractor.py:101-103 | a row's parent is the nearest earlier row of a strictly smaller level, or the root |
| Outline.StackLevelsIncrease | app/text_extractor.py:97-104 | the level stack's levels strictly increase from the sentinel up |
| Outline.PopToParent | app/text_extractor.py:101-104 | popping every entry at or above the row's level leaves the row's parent on top, and pushing the row keeps the stack exact |
| Outline.Toc2Dtoc | app/text_extractor.py:95-112 | the stack loop fails exactly when some level is at most 0 (the sentinel is popped) and otherwise returns the outline tree |
| Outline.Cleanup | app/text_extractor.py:106-110 | `cleanup` keeps every key of the dictionary it cleans, in order |
| Outline.LeafIffChildless | app/text_extractor.py:106-110 | a node becomes its page pair exactly when no row has it as parent |
| Outline.TreePlacement | app/text_extractor.py:99-112 | in the tree every row sits in the dictionary of its parent, and is a page pair exactly when it has no children |
| Outline.Children | app/text_extractor.py:131-139 | `ValueError` exactly when the section is not a row; otherwise the scan runs from the row after the section up to the first later row of exactly the same level (or the end), and the result is every row in that stretch deeper than the section, in order, and nothing else |
| Outline.ChildrenAfter | app/text_extractor.py:134-138 | the stretch the children scan covers, counted in positions of the whole outline: no row in it has the section's level, the row ending it does, and each deeper row in it is a child |
| Outline.ScanChildren | app/text_extractor.py:134-138 | the children are the deeper rows before the first row of exactly the same level |
| Outline.ChildrenSkipShallower | app/text_extractor.py:135-138 | a shallower row does not end the scan: the deeper row after it is still a child |
| Outline.ScanNext | app/text_extractor.py:145-148 | the first later row at the same or a shallower level, or none when every later row is deeper |
| Outline.NextSection | app/text_extractor.py:143-148 | `ValueError` exactly when the section is not a row; none exactly when every later row is deeper; otherwise the first later row at the same or a shallower level, every row between being deeper |
| Outline.ScanNextAfter | app/text_extractor.py:145-148 | the next-section scan, counted in positions of the whole outline: none exactly when every later row is deeper, else the first later row not deeper than the level |
| Outline.ShiftFirst | app/text_extractor.py:145-148 | the first row not deeper than a level among the rows after a row is, in the whole outline, the first later row not deeper than it |
| Outline.NextSectionStartsAtEnd | app/text_extractor.py:21-27 | for distinct rows the next section starts on the end page `get_toc` gave, and with no next section the end page is the page count |
| Outline.EmptyHeadingMatches | app/text_extractor.py:271-274 | a heading that normalises to nothing matches every title |
| Outline.TitlesMatchSymmetric | app/text_extractor.py:271-274 | between stripped texts the comparison is symmetric |
| Outline.SameTextMatches | app/text_extractor.py:271-274 | a heading matches the title it repeats |
| Outline.TitleCaseIgnored | app/text_extractor.py:271-274 | the comparison ignores case on the title side |
| Typography.RoundHalfEven | app/utils.py:81-83 | Python's `round`: within one half of the value, and even on a tie |
| Typography.FirstIndexIsFirst | app/text_extractor.py:66 | no occurrence of a value comes before the position the counter records as its first |
| Typography.Distinct | app/text_extractor.py:66 | the counter's keys: every value once, in order of first occurrence |
| Typography.MostCommon2 | app/text_extractor.py:67 | `most_common(2)`: `IndexError` with fewer than two distinct values; otherwise the most frequent value, then the most frequent other one, ties to the earlier |
| Typography.RankedUnique | app/text_extractor.py:67 | the `most_common(2)` ranking of a list is unique: two rankings of the same list are equal |
| Typography.MainSizeOf | app/text_extractor.py:66-73 | `IndexError` exactly with fewer than two distinct sizes; otherwise the size chosen from the `most_common(2)` ranking: the runner-up when it is larger than the leader and twice its count exceeds the leader's size, else the leader |
| Typography.MainSize | app/text_extractor.py:57-73 | `IndexError` exactly when fewer than two distinct rounded sizes occur among spans not starting with whitespace; otherwise the rounded size of such a span, chosen by the runner-up rule from the ranking of those sizes |
| Typography.MostCommonFont | app/text_extractor.py:86-89 | fails exactly on an empty list; otherwise a font that no other font outnumbers, the earliest among equals |
| Typography.MainFont | app/text_extractor.py:77-91 | fails exactly when every span starts with whitespace; otherwise the leading font of the counted spans |
| Typography.MainFontSizeOf | app/utils.py:78-83 | `IndexError` exactly with fewer than two distinct sizes; otherwise the rounding of the runner-up when it is larger and its count exceeds half the leader's size, else of the leader |
| Typography.FontSizeRuleCounted | app/utils.py:80-83 | the size the rule picks is one of the counted sizes |
| Typography.UtilsMainFont | app/utils.py:69-85 | every span counts with its raw size; `IndexError` exactly with fewer than two distinct sizes; otherwise the rounding of a span's size, chosen by the count-against-half-size rule from the ranking of all sizes |
| Typography.MostCommonTwo | app/text_extractor.py:67 | `n` copies of `a` then `m` of `b`, `n >= m`, rank as `a` then `b` |
| Typography.MainSizeOfTwo | app/text_extractor.py:68-71 | with two sizes the runner-up `b` wins exactly when `b > a` and `2m > a` |
| Typography.RunnerUpCountAgainstSize | app/text_extractor.py:68 | 100 body spans at 12 against 7 at 14 give 14: the count is compared with a size |
| Typography.FewHeadingsKeepBodySize | app/text_extractor.py:68 | 100 body spans at 12 against 5 at 14 keep 12 |
| Spans.Prepare | app/text_extractor.py:155-158 | no `+` is left in the font, and a one-line font is exactly its part before the first `+`; a text without the two escapes is kept as it is; the size is kept |
| Spans.Merge | app/text_extractor.py:164-193 | a merge step appends the next text directly or after one space and keeps one of the two styles; a new run starts only at a change of style; `IndexError` only on an empty text |
| Spans.FoldText | app/text_extractor.py:155-194 | ignoring spaces, the merged texts spell the running text followed by the non-blank prepared span texts, in reading order |
| Spans.FoldFonts | app/text_extractor.py:156 | no merged run has a `+` in its font |
| Spans.FoldEmpty | app/text_extractor.py:159-194 | no run comes out exactly when there is no running span and every span is blank |
| Spans.FoldSkipsBlank | app/text_extractor.py:157 | whitespace-only spans make no difference |
| Spans.FoldSucceeds | app/text_extractor.py:179-186 | with non-empty texts the merge never raises |
| Spans.SameStyleOneRun | app/text_extractor.py:169-191 | spans that share the running style end up in one run of that style |
| Spans.AbbreviationJoins | app/text_extractor.py:164-167 | after a capital-letter abbreviation the next span is appended with no space and its font and size are taken |
| Spans.Tidy | app/text_extractor.py:195-208 | a tidied text has no ligature glyph and no whitespace but single spaces; a text the substitutions have nothing to remove only has its ligatures spelt out, and one without ligatures comes back unchanged |
| Spans.TidySpacing | app/text_extractor.py:196-205 | the spacing clean-up leaves single spaces only, and leaves a settled text as it is |
| Subst.LigaturesSpelt | app/text_extractor.py:207-208 | the two ligature substitutions, one after the other, replace each `ﬁ` by "fi" and each `ﬂ` by "fl" and keep every other character |
| Subst.ExpandNoLigatures | app/text_extractor.py:207-208 | a text without ligature glyphs is unchanged by the spelling |
| Subst.CollapseSingleSpaced | app/text_extractor.py:205 | `re.sub(r'\s+', ' ', t)` leaves a single-spaced text as it is |
| Spans.GetSpan | app/text_extractor.py:152-209 | one run per merged run, none exactly when every span is blank; each run keeps the merged run's font and size, its text is tidy, a settled text only has its ligatures spelt out, and no font has a `+` |
| Spans.StylesMayRepeat | app/text_extractor.py:151-193 | a plain span, an abbreviation in a second font and a plain span back in the first font give two runs in the same font and size: adjacent runs need not differ in style |
| Spans.StylesMayRepeatAbbreviation | app/text_extractor.py:164 | "B." counts as a capital-letter abbreviation once its punctuation is stripped |
| Spans.StylesMayRepeatBreak | app/text_extractor.py:164-176 | "hello" is not an abbreviation and "B." is not all capitals, so a change of font after "hello" starts a new run |
| Spans.PlainTidy | app/text_extractor.py:195-208 | a text with no whitespace, backslash, bracket, parenthesis or ligature is not changed by the clean-up |
| Spans.PlainSpan | app/text_extractor.py:156-158 | a span without backslashes and with a font free of `+` is read as it is |
| Spans.RunCount | app/text_extractor.py:159-194 | the merge yields at most one run per non-blank span, plus the running one |
| Headings.ExtractBuiltin | app/toc_extractor.py:104-115 | one entry per outline row, in order, each with a page and no position |
| Headings.BuiltinRoundTrip | app/toc_extractor.py:110-113 | the entries give back the outline rows exactly |
| Headings.SortDesc | app/toc_extractor.py:146 | the sizes in descending order, the same multiset |
| Headings.Unique | app/toc_extractor.py:147 | strictly descending, with exactly the sizes present |
| Headings.Median | app/toc_extractor.py:151 | `statistics.median` of the sorted sizes: the middle value for an odd count, the mean of the two middle values for an even one; at most the top half and at least the bottom half |
| Headings.AnalyzeFonts | app/toc_extractor.py:117-156 | the sizes are exactly the distinct sampled sizes, strictly descending; the large sizes are the first `min(3, n)` and exceed the rest; with no span the median is 12 and there are no sizes; otherwise the median is the middle value of the sample sorted in descending order |
| Headings.IsPotentialHeading | app/toc_extractor.py:158-213 | texts under 3 or over 200 characters are rejected; at or below the median exactly the pattern matches pass; above it, exactly those with some other signal |
| Headings.RankCountsLarger | app/toc_extractor.py:221-229 | the size level is one more than the number of larger large sizes, or 4 below all of them |
| Headings.DetermineLevel | app/toc_extractor.py:215-243 | a chapter or part prefix gives 1; otherwise `1.2.3` gives the larger of 3 and the size level, `1.2` the larger of 2 and the size level, and anything else the size level; always 1 to 4 |
| Headings.FirstWithKey | app/toc_extractor.py:350-353 | the first entry with a given (lower-cased title, level) key |
| Headings.Dedup | app/toc_extractor.py:347-354 | keys are distinct and the same as the input's; each kept entry is the first with its key; entries keep the order of first occurrence |
| Headings.InsertByStable | app/toc_extractor.py:358-360 | inserting keeps the relative order of entries with equal keys |
| Headings.SortBy | app/toc_extractor.py:358-360 | the sorted entries are ordered by key and are a permutation of the input |
| Headings.SortByStable | app/toc_extractor.py:358-360 | for every key, the entries with that key keep their input order |
| Headings.SortByStableAll | app/toc_extractor.py:358-360 | the same, for all keys at once |
| Headings.CleanAndSort | app/toc_extractor.py:342-362 | empty gives empty; the result is a permutation of the de-duplicated entries, sorted by page and position when some page is non-zero, else by position when some position is non-zero, else in de-duplicated order; entries with equal sort keys keep their de-duplicated order (the sort is stable); no two entries share a (title, level) key |
| Headings.DistinctKeysPermuted | app/toc_extractor.py:347-360 | reordering entries with distinct (title, level) keys keeps the keys distinct, so sorting after de-duplication keeps the entries unique |
| Headings.PagedSorted | app/toc_extractor.py:356-360 | entries that all carry a page of at least 1 come out of the clean-up in (page, position) order |
| Headings.CleanKeepsFirstOfEachKey | app/toc_extractor.py:348-354 | every key of the input is in the output, and the first entry with it is kept |
| Headings.SpanCandidates | app/toc_extractor.py:67-76 | an entry is a candidate exactly when some span of the page passes the heading test and gives that entry; every candidate carries the page, a level 1 to 4 and a stripped title of 3 to 200 characters |
| Headings.Candidates | app/toc_extractor.py:60-76 | an entry is collected from the pages from a given one on exactly when some span of one of those pages is detected and gives it |
| Headings.DetectedBounds | app/toc_extractor.py:67-76 | every detected entry has a page within the document, a level 1 to 4 and a title of 3 to 200 characters |
| Headings.DetectedKept | app/toc_extractor.py:60-79 | the clean-up after detection keeps the (title, level) key of every detected heading |
| Headings.ExtractFromPdf | app/toc_extractor.py:43-79 | a built-in outline gives back exactly its `[level, title, page]` rows, each entry with a page and without a position; otherwise every entry was detected on some page and has a level 1 to 4, a page within the document and a title of 3 to 200 characters, and every detected heading's (title, level) key is kept; the entries are in (page, position) order and no two share a (title, level) key |
| Segmenter.Join | app/utils.py:162-166 | the text so far, then the span text, with exactly one space between unless after a hyphen or ligature or for a lone ligature |
| Segmenter.JoinAddsText | app/utils.py:162-166 | every character a join adds is the joining space or comes from the span text |
| Segmenter.Gather | app/utils.py:156-176 | the text only grows; with no key or no span of the taken size nothing is added; every added character is a space or comes from a taken span |
| Segmenter.GatherText | app/utils.py:156-176 | ignoring spaces, the gathered text is the old text followed by the texts of the taken spans, in order |
| Segmenter.GatherFromEmpty | app/utils.py:156-176 | starting from nothing, some text is gathered exactly when some span of the line is taken |
| Segmenter.JoinSqueeze | app/utils.py:162-166 | ignoring spaces, a join is the old text followed by the span text |
| Segmenter.LineStep | app/utils.py:139-176 | `IndexError` exactly for a line without spans; a title line opens its key with an empty text; a caption stops the block exactly when the line is not a title; any other line keeps the key and, ignoring spaces, appends the texts of the taken spans in order |
| Segmenter.LinesStep | app/utils.py:139-176 | a first line without spans raises `IndexError`; the key after a block's lines is the old key, a section title or "references"; when no line is a title or a caption, the key is kept and, spaces aside, the value grows by exactly the texts the key takes from each line in turn |
| Segmenter.CleanValue | app/utils.py:178-191 | a cleaned text has no whitespace at its ends, no whitespace but single spaces and no ligature glyph; a text the substitutions have nothing to remove only has its ligatures spelt out, and an already clean one comes back unchanged |
| Segmenter.CleanSpacing | app/utils.py:180-188 | the first seven substitutions leave no whitespace at the ends and single spaces only, and leave a settled text as it is |
| Segmenter.Store | app/utils.py:178-193 | with a key and a text, the cleaned text is stored under the key and reads back; otherwise nothing is stored |
| Segmenter.BlockStep | app/utils.py:136-193 | errors only in a block inside the frame, and always when its first line has no spans; after a block with a key and text, the text is clean and stored under the key; otherwise the dictionary is unchanged; a framed block of body lines keeps the key and ends in the store step of a value that, spaces aside, is the old value followed by the texts taken from its lines |
| Segmenter.SectionStored | app/utils.py:136-193 | a block of a title line and one body line stores, under the title, the cleaned text of the line's taken spans, and stores nothing when no span is taken |
| Segmenter.BlockStepOf | app/utils.py:136-193 | a block inside the frame stores exactly what its lines gathered |
| Segmenter.StoreSound | app/utils.py:193 | storing a clean text under a title keeps the dictionary's keys distinct, all titles, all texts clean |
| Segmenter.BlockStepSound | app/utils.py:136-193 | every block keeps the scan sound |
| Segmenter.ScanBlocksSound | app/utils.py:135-193 | the scan stays sound through every page and block |
| Segmenter.TextExtract | app/utils.py:125-197 | keys of the result are section titles or "references", each once, and every stored text is clean; `IndexError` for an empty document, for fewer than two distinct span sizes, and for a first block in the frame whose first line has no spans |
| Segmenter.SingleSectionDocument | app/utils.py:125-197 | a one-page document whose one framed block is a section title line and a body line with spans of the main size yields exactly one entry: the title mapped to the cleaned text of those spans (their texts in order, spaces aside) |
| Segmenter.EmptySectionDocument | app/utils.py:125-197 | the same document with no span of the main size on the body line yields an empty dictionary |
| Segmenter.OneBlockScan | app/utils.py:135-193 | from the empty start, the scan of such a block ends with the title as key and, when spans are taken, their cleaned text as the only entry |
| Segmenter.OutOfFrameIgnored | app/utils.py:138 | the lines of a block outside the frame make no difference |
| Segmenter.CaptionEndsBlock | app/utils.py:152-154 | after a caption line nothing more of the block is read |
| Segmenter.TitleStartsSection | app/utils.py:141-144 | a section title line starts its section afresh and adds no text |
| Segmenter.ReferencesNeedsNoSuchSection | app/utils.py:146-150 | "references" opens a key only when no section is called that; otherwise the line is body text |
| Qa.IsQuantitativeQuestion | app/utils.py:201-204 | true exactly when one of the ten keywords occurs in the lower-cased question |
| Qa.QuestionCaseIgnored | app/utils.py:203 | the answer does not depend on the question's case |
| Qa.QuestionGrows | app/utils.py:204 | a quantitative question stays one whatever text surrounds it |
| Qa.AnswerContainsNumber | app/utils.py:208-209 | true exactly when the answer holds a digit |
| Qa.AnswerConcat | app/utils.py:209 | two texts together hold a digit exactly when one of them does |

## Left out

- Reading the PDF is not modelled: `fitz`/`pymupdf` opening, `get_text("dict")`, `get_toc`, `page_count`, and the page's `rect.height`. Their results are inputs: a `Document` of pages, the outline rows and the page count.
- Logging, `write_markdown` (file output), `IdlearnCache` (JSON on disk), the GUI, the pipeline and the language-model calls are left out. They are I/O around the core.
- The EPUB, NCX and HTML readers of app/toc_extractor.py (`extract_toc_from_epub`, `_extract_epub_nav_toc`, `_parse_ncx_file`, `_parse_nav_html`, `_extract_list_items`, `_extract_headings_from_html`) and its `main` are left out. They are ZIP, XML and HTML scraping.
- `text_extract` in app/text_extractor.py is left out. It sits after `return spans` inside `get_span`, so it never runs. Only its title comparison is modelled.
- `info_extract` in app/text_extractor.py is left out. It refers to an undefined global `doc`. The utils version is folded into `Segmenter.TextExtract`: the frame of 50 and the height of the first page.
- `get_parent` in app/text_extractor.py, `tocL2tocD` and `find_parent` in app/utils.py are left out. Each fails on every non-trivial call, and only the trivial inputs below succeed:
  - `get_parent` returns `None` for an empty outline and returns its `parent` argument when the section is the first top-level key. Any other input reaches the unqualified call `get_parent(...)` at line 124, an unbound name, and raises `NameError`.
  - `tocL2tocD` returns `{}` for an empty list. Any non-empty list raises `NameError` on the undefined `page` at line 96.
  - `find_parent` returns `None` for an empty dictionary, and a result when the depth-first search reaches the section before any recursive call comes back empty-handed. Once a recursive call returns `None`, unpacking it at line 118 raises `TypeError`. A search into a leaf's `{"_page": ...}` dictionary, which holds no section, always returns `None`.
- Headings.AnalyzeFonts: `font_info`, the per-size list of font, flags and text, is not built. Nothing downstream reads it.
- Headings.AnalyzeFonts and Headings.Median: floats are exact reals, so the median of an even sample is an exact mean.
- Typography.RoundHalfEven: rounding is exact on the real value. Binary floating-point representation error is not modelled.
- `lower()`, `isupper()`, `\d`, `\w` and `[A-Z]` are modelled on ASCII letters and digits. `\s` and `strip()` use the whitespace set of `str.isspace`. Non-ASCII cased letters and digits are not modelled.
- Regular expressions are hand-coded, one recognizer or rewrite per pattern the code uses. There is no general regex engine.
- Headings.IsPotentialHeading: the case-insensitive roman-numeral start is modelled as written, so words such as "Mix " count.
- Segmenter.TextExtract: `sections` is taken as the list of first components as strings. The GUI passes `get_toc` rows, whose first component is an integer level, so titles never match there, and `.lower()` on that integer would raise.
- Spans.Prepare and Spans.GetSpan: `get_span` overwrites `s["font"]` and `s["text"]` in the caller's span dictionaries (text_extractor.py:155 and 157); the model returns new values and leaves the input line unchanged. No reachable code reads the line again: the only later reader, at line 255, sits after `return spans`.
- Spans.GetSpan and Spans.Tidy: for a text the substitutions do change (escapes, citation brackets, spaces inside parentheses, whitespace runs) only the shape of the result is stated, not its exact characters.
- Segmenter.CleanValue: likewise, for a text the substitutions change only the shape of the result is stated.
- Segmenter.TextExtract: the `IndexError` for a line without spans is stated for the first block in the frame; for later blocks it is stated by Segmenter.BlockStep.
- Headings.Candidates: the page, level and title bounds of the collected entries are stated separately, by Headings.DetectedBounds.
- The `.ipynb_checkpoints` copies are the same code as the app/ files. app/test.py does not parse.

=== FILE: base.dfy ===
/** Failure-carrying wrappers shared by every module of the model.

    The Python code signals its failures by raising: an `IndexError` when it
    indexes past the end of a list or string, a `ValueError` when
    `list.index` does not find its argument.  The model returns those as
    values, so that every operation is total and its error cases can be
    stated and proved.
 */
module Base {

  /** The exceptions the modelled Python code can raise. */
  datatype Error =
    | IndexError   // `xs[i]` with `i` out of range, `xs[0]` of an empty list
    | ValueError   // `list.index(x)` with `x` not in the list

  /** Python's `None` or a present value. */
  datatype Option<+T> = None | Some(value: T) {
    function GetOr(default: T): T {
      match this
      case Some(v) => v
      case None => default
    }
  }

  /** The value of a call that either returns or raises. */
  datatype Result<+T> = Ok(value: T) | Fail(error: Error) {
    predicate IsFailure() {
      Fail?
    }

    function PropagateFailure<U>(): Result<U>
      requires Fail?
    {
      Fail(error)
    }

    function Extract(): T
      requires Ok?
    {
      value
    }
  }

  /** `xs.index(x)`: the position of the first occurrence of `x`, or a
      `ValueError` when there is none. */
  function IndexOf<T(==)>(xs: seq<T>, x: T): (r: Result<nat>)
    ensures r.Ok? ==> r.value < |xs| && xs[r.value] == x
    ensures r.Ok? ==> forall k :: 0 <= k < r.value ==> xs[k] != x
    ensures r.Fail? <==> x !in xs
    ensures r.Fail? ==> r.error == ValueError
  {
    if xs == [] then Fail(ValueError)
    else if xs[0] == x then Ok(0)
    else
      match IndexOf(xs[1..], x)
      case Ok(k) => Ok(k + 1)
      case Fail(e) => Fail(e)
  }

  /** Python's insertion-ordered `dict`, as a list of (key, value) pairs. */
  type Dict<K, V> = seq<(K, V)>

  function Keys<K, V>(d: Dict<K, V>): (ks: seq<K>)
    ensures |ks| == |d|
    ensures forall i :: 0 <= i < |d| ==> ks[i] == d[i].0
  {
    seq(|d|, i requires 0 <= i < |d| => d[i].0)
  }

  /** No key occurs twice: what a Python dict always satisfies. */
  ghost predicate DistinctKeys<K, V>(d: Dict<K, V>) {
    forall i, j :: 0 <= i < j < |d| ==> d[i].0 != d[j].0
  }

  /** `d[k] = v`: an existing key keeps its position and takes the new
      value; a new key is appended at the end. */
  function Put<K(==), V>(d: Dict<K, V>, k: K, v: V): (r: Dict<K, V>)
    ensures k !in Keys(d) ==> r == d + [(k, v)]
    ensures k in Keys(d) && DistinctKeys(d) ==>
      |r| == |d| && forall i :: 0 <= i < |d| ==> r[i] == (if d[i].0 == k then (k, v) else d[i])
    ensures DistinctKeys(d) ==> DistinctKeys(r)
  {
    if d == [] then [(k, v)]
    else if d[0].0 == k then [(k, v)] + d[1..]
    else
      assert Keys(d) == [d[0].0] + Keys(d[1..]);
      [d[0]] + Put(d[1..], k, v)
  }

  lemma Associative<T>(a: seq<T>, b: seq<T>, c: seq<T>)
    ensures (a + b) + c == a + (b + c)
  {
  }

  /** Storing under a new key appends one entry, and one key. */
  lemma PutNew<K, V>(d: Dict<K, V>, k: K, v: V)
    requires k !in Keys(d)
    ensures Put(d, k, v) == d + [(k, v)]
    ensures Keys(Put(d, k, v)) == Keys(d) + [k]
  {
  }

  /** `d.get(k)`: the value stored under `k`, if any. */
  function Get<K(==), V>(d: Dict<K, V>, k: K): (r: Option<V>)
    ensures r.Some? <==> k in Keys(d)
  {
    if d == [] then None
    else
      assert Keys(d) == [d[0].0] + Keys(d[1..]);
      if d[0].0 == k then Some(d[0].1) else Get(d[1..], k)
  }

  /** Reading after writing: the key written reads back the value written,
      every other key reads as before. */
  lemma {:induction false} GetPut<K, V>(d: Dict<K, V>, k: K, v: V, k2: K)
    ensures Get(Put(d, k, v), k2) == if k2 == k then Some(v) else Get(d, k2)
  {
    if d != [] {
      if d[0].0 == k {
        assert Put(d, k, v)[1..] == d[1..];
      } else {
        assert Put(d, k, v)[1..] == Put(d[1..], k, v);
        GetPut(d[1..], k, v, k2);
      }
    }
  }
}

=== FILE: chars.dfy ===
/** Character classes and the `str` methods the Python code calls.

    Whitespace is Python's: `str.isspace()`, `str.strip()` and the regular
    expression class `\s` all use the same set of code points, listed in
    `IsSpace`.  Case mapping and the classes `\d`, `\w` are restricted to
    ASCII (see README).
 */
module Chars {

  /** Python's `c.isspace()`, the members of `\s`. */
  predicate IsSpace(c: char) {
    || c == ' '
    || '\t' <= c <= '\r'              // \t \n \v \f \r
    || '\U{1C}' <= c <= '\U{1F}'      // file, group, record and unit separators
    || c == '\U{85}' || c == '\U{A0}' || c == '\U{1680}'
    || '\U{2000}' <= c <= '\U{200A}'  // en quad .. hair space
    || c == '\U{2028}' || c == '\U{2029}' || c == '\U{202F}' || c == '\U{205F}' || c == '\U{3000}'
  }

  /** `\d`, ASCII digits. */
  predicate IsDigit(c: char) {
    '0' <= c <= '9'
  }

  /** `[A-Z]`. */
  predicate IsUpper(c: char) {
    'A' <= c <= 'Z'
  }

  predicate IsLower(c: char) {
    'a' <= c <= 'z'
  }

  /** `\w`: letters, digits and the underscore. */
  predicate IsWordChar(c: char) {
    IsUpper(c) || IsLower(c) || IsDigit(c) || c == '_'
  }

  /** The characters `[ ,.:?!]` that the code strips or deletes around
      headings. */
  const Punctuation: string := " ,.:?!"

  /** The two ligature glyphs that the code repairs. */
  const LigatureFi: char := '\U{FB01}'
  const LigatureFl: char := '\U{FB02}'

  predicate IsLigature(c: char) {
    c == LigatureFi || c == LigatureFl
  }

  function LowerChar(c: char): (d: char)
    ensures IsUpper(c) ==> IsLower(d)
    ensures !IsUpper(c) ==> d == c
  {
    if IsUpper(c) then (c as int + 32) as char else c
  }

  /** `s.lower()`. */
  function Lower(s: string): (r: string)
    ensures |r| == |s|
    ensures forall i :: 0 <= i < |s| ==> r[i] == LowerChar(s[i])
  {
    seq(|s|, i requires 0 <= i < |s| => LowerChar(s[i]))
  }

  /** `s.isupper()`: some cased character and no lower-case one. */
  predicate IsUpperText(s: string) {
    (exists i :: 0 <= i < |s| && IsUpper(s[i])) && (forall i :: 0 <= i < |s| ==> !IsLower(s[i]))
  }

  /** Number of leading characters that `drop` removes. */
  function LeadLen(s: string, drop: char -> bool): (n: nat)
    ensures n <= |s|
    ensures forall i :: 0 <= i < n ==> drop(s[i])
    ensures n < |s| ==> !drop(s[n])
  {
    if s == [] || !drop(s[0]) then 0 else 1 + LeadLen(s[1..], drop)
  }

  /** Number of trailing characters that `drop` removes. */
  function TrailLen(s: string, drop: char -> bool): (n: nat)
    ensures n <= |s|
    ensures forall i :: |s| - n <= i < |s| ==> drop(s[i])
    ensures n < |s| ==> !drop(s[|s| - n - 1])
  {
    if s == [] || !drop(s[|s| - 1]) then 0 else 1 + TrailLen(s[..|s| - 1], drop)
  }

  /** `s.strip(chars)` for the characters `drop` accepts. */
  function TrimBy(s: string, drop: char -> bool): (r: string)
    ensures r == [] || (!drop(r[0]) && !drop(r[|r| - 1]))
    ensures r == [] <==> forall i :: 0 <= i < |s| ==> drop(s[i])
    ensures r != [] ==> r == s[LeadLen(s, drop)..|s| - TrailLen(s, drop)]
    ensures |s| > 0 && !drop(s[0]) && !drop(s[|s| - 1]) ==> r == s
  {
    var a := LeadLen(s, drop);
    if a == |s| then []
    else
      var b := |s| - TrailLen(s, drop);
      assert !drop(s[a]) && a < b;
      s[a..b]
  }

  /** `s.strip()`. */
  function Strip(s: string): (r: string)
    ensures r == [] || (!IsSpace(r[0]) && !IsSpace(r[|r| - 1]))
    ensures r == [] <==> forall i :: 0 <= i < |s| ==> IsSpace(s[i])
  {
    TrimBy(s, IsSpace)
  }

  /** `s.strip(chars)` with an explicit character list. */
  function StripChars(s: string, chars: string): (r: string)
    ensures r == [] || (r[0] !in chars && r[|r| - 1] !in chars)
  {
    TrimBy(s, c => c in chars)
  }

  /** No whitespace at either end: what `Strip` returns. */
  predicate Stripped(s: string) {
    s == [] || (!IsSpace(s[0]) && !IsSpace(s[|s| - 1]))
  }

  lemma StripOfStripped(s: string)
    requires Stripped(s)
    ensures Strip(s) == s
  {
  }

  /** `p in s` for strings, and equally `re.search(re.escape(p), s)`. */
  predicate IsSubstring(p: string, s: string) {
    exists i :: 0 <= i <= |s| - |p| && OccursAt(p, s, i)
  }

  predicate OccursAt(p: string, s: string, i: int) {
    0 <= i && i + |p| <= |s| && s[i..i + |p|] == p
  }

  lemma EmptyIsSubstring(s: string)
    ensures IsSubstring([], s)
  {
    assert OccursAt([], s, 0);
  }

  /** `re.sub('[...]', '', s)`: every character of `chars` deleted. */
  function DeleteChars(s: string, chars: string): (r: string)
    ensures forall c :: c in r ==> c in s && c !in chars
    ensures |r| <= |s|
  {
    if s == [] then []
    else (if s[0] in chars then [] else [s[0]]) + DeleteChars(s[1..], chars)
  }

  /** The text with every plain space removed. */
  function Squeeze(t: string): (r: string)
    ensures ' ' !in r
  {
    if t == [] then [] else (if t[0] == ' ' then [] else [t[0]]) + Squeeze(t[1..])
  }

  lemma {:induction false} SqueezeConcat(a: string, b: string)
    ensures Squeeze(a + b) == Squeeze(a) + Squeeze(b)
    decreases |a|
  {
    if a == [] {
      assert a + b == b;
    } else {
      var ab := a + b;
      var h := if a[0] == ' ' then [] else [a[0]];
      assert ab[0] == a[0] && ab[1..] == a[1..] + b;
      assert Squeeze(ab) == h + Squeeze(a[1..] + b);
      assert Squeeze(a) == h + Squeeze(a[1..]);
      SqueezeConcat(a[1..], b);
      assert h + (Squeeze(a[1..]) + Squeeze(b)) == (h + Squeeze(a[1..])) + Squeeze(b);
    }
  }
  lemma SqueezeSpace(a: string)
    ensures Squeeze(a + " ") == Squeeze(a)
  {
    var sp := " ";
    assert Squeeze(sp) == [] by {
      assert sp[0] == ' ' && sp[1..] == [];
    }
    SqueezeConcat(a, sp);
  }


  /** Index of the first `c` at or after `from`, or `|s|`. */
  function FindFrom(s: string, c: char, from: nat): (k: nat)
    requires from <= |s|
    ensures from <= k <= |s|
    ensures k < |s| ==> s[k] == c
    ensures forall i :: from <= i < k ==> s[i] != c
    decreases |s| - from
  {
    if from == |s| || s[from] == c then from else FindFrom(s, c, from + 1)
  }

  /** End of the run of characters satisfying `p` that starts at `i`. */
  function RunEnd(s: string, i: nat, p: char -> bool): (e: nat)
    requires i <= |s|
    ensures i <= e <= |s|
    ensures forall j :: i <= j < e ==> p(s[j])
    ensures e < |s| ==> !p(s[e])
    decreases |s| - i
  {
    if i < |s| && p(s[i]) then RunEnd(s, i + 1, p) else i
  }

  /** End of the run of `[A-Z]` that starts at `i`. */
  function UpperEnd(s: string, i: nat): (e: nat)
    requires i <= |s|
    ensures i <= e <= |s|
    ensures forall j :: i <= j < e ==> IsUpper(s[j])
    ensures e < |s| ==> !IsUpper(s[e])
  {
    RunEnd(s, i, IsUpper)
  }

  /** End of the run of digits that starts at `i`. */
  function DigitsEnd(s: string, i: nat): (e: nat)
    requires i <= |s|
    ensures i <= e <= |s|
    ensures forall j :: i <= j < e ==> IsDigit(s[j])
    ensures e < |s| ==> !IsDigit(s[e])
  {
    RunEnd(s, i, IsDigit)
  }

  /** Every character of `s[lo..hi]` satisfies `p`. */
  predicate AllIn(s: string, lo: nat, hi: nat, p: char -> bool)
    requires lo <= hi <= |s|
  {
    forall j :: lo <= j < hi ==> p(s[j])
  }

  /** `s.startswith(w)` */
  predicate HasPrefix(s: string, w: string) {
    |w| <= |s| && s[..|w|] == w
  }

  /** `$` in Python: the match may end at the end of the text or just
      before a final newline. */
  predicate AtEnd(s: string, i: nat) {
    i == |s| || (i + 1 == |s| && s[i] == '\n')
  }
}

=== FILE: headings.dfy ===
/** The heuristic heading detector of app/toc_extractor.py: the document's
    own outline when it has one; otherwise spans scored on size, style and
    wording, each given a level, then de-duplicated and sorted.
 */
module Headings {
  import opened Base
  import opened Chars
  import opened Layout
  import Typography

  /** `TOCEntry`: a title and its level, and optionally the page and the
      vertical position of the span it was read from. */
  datatype TocEntry = TocEntry(title: string, level: int, page: Option<int>, position: Option<real>)

  function Min(a: int, b: int): int {
    if a <= b then a else b
  }

  function Max(a: int, b: int): int {
    if a >= b then a else b
  }

  // ---------------------------------------------------------------------
  // The built-in outline

  /** `_extract_builtin_toc`: one entry per `[level, title, page]` row of
      the document's outline, in order, with no position. */
  function ExtractBuiltin(toc: seq<(int, string, int)>): (r: seq<TocEntry>)
    ensures |r| == |toc|
    ensures forall i :: 0 <= i < |r| ==> r[i].position.None? && r[i].page.Some?
  {
    seq(|toc|, i requires 0 <= i < |toc| => TocEntry(toc[i].1, toc[i].0, Some(toc[i].2), None))
  }

  /** The outline rows an entry list describes. */
  function Rows(entries: seq<TocEntry>): seq<(int, string, int)> {
    seq(|entries|, i requires 0 <= i < |entries| =>
      (entries[i].level, entries[i].title, entries[i].page.GetOr(0)))
  }

  /** Reading the outline loses nothing: the entries give back the rows. */
  lemma BuiltinRoundTrip(toc: seq<(int, string, int)>)
    ensures Rows(ExtractBuiltin(toc)) == toc
  {
  }

  // ---------------------------------------------------------------------
  // Font statistics

  /** The parts of `_analyze_font_characteristics`' result the scoring
      reads: the distinct sizes in descending order, the median size and
      the (up to) three largest sizes. */
  datatype FontStats = FontStats(sizes: seq<real>, median: real, large: seq<real>)

  predicate NonIncreasing(s: seq<real>) {
    forall i, j :: 0 <= i < j < |s| ==> s[i] >= s[j]
  }

  predicate Decreasing(s: seq<real>) {
    forall i, j :: 0 <= i < j < |s| ==> s[i] > s[j]
  }

  lemma NonIncreasingCons(h: real, t: seq<real>)
    requires NonIncreasing(t)
    requires forall y :: y in t ==> h >= y
    ensures NonIncreasing([h] + t)
  {
    forall i, j | 0 <= i < j < |[h] + t|
      ensures ([h] + t)[i] >= ([h] + t)[j]
    {
      assert ([h] + t)[j] == t[j - 1] && t[j - 1] in t;
      if i > 0 {
        assert ([h] + t)[i] == t[i - 1];
      }
    }
  }

  function InsertDesc(x: real, s: seq<real>): (r: seq<real>)
    requires NonIncreasing(s)
    ensures NonIncreasing(r)
    ensures multiset(r) == multiset(s) + multiset{x}
    ensures forall y :: y in r ==> y in s || y == x
  {
    if s == [] || x >= s[0] then
      NonIncreasingCons(x, s);
      [x] + s
    else
      var rest := InsertDesc(x, s[1..]);
      assert s == [s[0]] + s[1..];
      assert forall y :: y in s[1..] ==> s[0] >= y;
      NonIncreasingCons(s[0], rest);
      [s[0]] + rest
  }

  lemma DecreasingCons(h: real, t: seq<real>)
    requires Decreasing(t)
    requires forall y :: y in t ==> h > y
    ensures Decreasing([h] + t)
  {
    forall i, j | 0 <= i < j < |[h] + t|
      ensures ([h] + t)[i] > ([h] + t)[j]
    {
      assert ([h] + t)[j] == t[j - 1] && t[j - 1] in t;
      if i > 0 {
        assert ([h] + t)[i] == t[i - 1];
      }
    }
  }

  /** `font_sizes.sort(reverse=True)`. */
  function SortDesc(xs: seq<real>): (r: seq<real>)
    ensures NonIncreasing(r)
    ensures multiset(r) == multiset(xs)
  {
    if xs == [] then []
    else
      assert xs == [xs[0]] + xs[1..];
      InsertDesc(xs[0], SortDesc(xs[1..]))
  }

  /** `sorted(set(...), reverse=True)` of an already sorted list: each
      value once, largest first. */
  function Unique(s: seq<real>): (r: seq<real>)
    requires NonIncreasing(s)
    ensures Decreasing(r)
    ensures forall x :: x in r <==> x in s
  {
    if |s| <= 1 then s
    else
      var rest := Unique(s[1..]);
      assert s == [s[0]] + s[1..] && s[1..][0] == s[1];
      if s[0] == s[1] then rest
      else
        assert forall y :: y in rest ==> y in s[1..] && y <= s[1];
        DecreasingCons(s[0], rest);
        [s[0]] + rest
  }

  /** `m` is the middle value of `t`, or for an even length the mean of
      the two middle values. */
  predicate MiddleValue(t: seq<real>, m: real) {
    |t| >= 1 &&
    if |t| % 2 == 1 then m == t[|t| / 2] else 2.0 * m == t[|t| / 2 - 1] + t[|t| / 2]
  }

  /** `statistics.median`, read off the sizes in descending order: the
      middle value, or the mean of the two middle values (the same values
      as in ascending order). */
  function Median(s: seq<real>): (m: real)
    requires |s| >= 1 && NonIncreasing(s)
    ensures MiddleValue(s, m)
    ensures forall i :: 0 <= i < (|s| + 1) / 2 ==> s[i] >= m
    ensures forall i :: |s| / 2 <= i < |s| ==> s[i] <= m
  {
    var n := |s|;
    if n % 2 == 1 then s[n / 2] else (s[n / 2 - 1] + s[n / 2]) / 2.0
  }

  /** Only the first twenty pages are sampled. */
  const SamplePages: nat := 20

  /** The sizes of every span on the sampled pages, in reading order. */
  function SampleSizes(doc: Document): seq<real> {
    Typography.Sizes(DocSpans(doc[..Min(SamplePages, |doc|)]))
  }

  /** `_analyze_font_characteristics`, size bookkeeping only; with no span
      at all the defaults are a median of 12 and no sizes. */
  function AnalyzeFonts(doc: Document): (r: FontStats)
    ensures Decreasing(r.sizes)
    ensures forall x :: x in r.sizes <==> x in SampleSizes(doc)
    ensures |r.large| == Min(3, |r.sizes|)
    ensures forall i :: 0 <= i < |r.large| ==> r.large[i] == r.sizes[i]
    ensures forall i, j :: 0 <= i < |r.large| <= j < |r.sizes| ==> r.large[i] > r.sizes[j]
    ensures SampleSizes(doc) == [] ==> r.median == 12.0 && r.large == []
    ensures SampleSizes(doc) != [] ==>
      (exists i :: 0 <= i < |SampleSizes(doc)| && SampleSizes(doc)[i] <= r.median) &&
      (exists j :: 0 <= j < |SampleSizes(doc)| && r.median <= SampleSizes(doc)[j])
    ensures SampleSizes(doc) != [] ==>
      exists t :: NonIncreasing(t) && multiset(t) == multiset(SampleSizes(doc)) && MiddleValue(t, r.median)
  {
    var sample := SampleSizes(doc);
    if sample == [] then FontStats([], 12.0, [])
    else
      var sorted := SortDesc(sample);
      var unique := Unique(sorted);
      var m := Median(sorted);
      assert NonIncreasing(sorted) && multiset(sorted) == multiset(sample) && MiddleValue(sorted, m);
      MedianWithin(sample, sorted, m);
      SameMembers(sorted, sample);
      LargestPrefix(unique, Min(3, |unique|));
      FontStats(unique, m, unique[..Min(3, |unique|)])
  }

  /** The median of a sorted copy lies between two of the sampled sizes. */
  lemma MedianWithin(sample: seq<real>, sorted: seq<real>, m: real)
    requires |sorted| >= 1 && NonIncreasing(sorted) && multiset(sorted) == multiset(sample)
    requires m == Median(sorted)
    ensures exists i :: 0 <= i < |sample| && sample[i] <= m
    ensures exists j :: 0 <= j < |sample| && m <= sample[j]
  {
    var lo, hi := sorted[|sorted| - 1], sorted[0];
    assert lo <= m <= hi;
    assert lo in multiset(sample) && hi in multiset(sample);
    assert lo in sample && hi in sample;
    var i :| 0 <= i < |sample| && sample[i] == lo;
    var j :| 0 <= j < |sample| && sample[j] == hi;
  }

  lemma SameMembers(a: seq<real>, b: seq<real>)
    requires multiset(a) == multiset(b)
    ensures forall x :: x in a <==> x in b
  {
    forall x
      ensures x in a <==> x in b
    {
      assert x in a <==> x in multiset(a);
      assert x in b <==> x in multiset(b);
    }
  }

  /** A prefix of a descending list holds its largest values. */
  lemma LargestPrefix(s: seq<real>, n: nat)
    requires Decreasing(s) && n <= |s|
    ensures forall i, j :: 0 <= i < n <= j < |s| ==> s[..n][i] > s[j]
  {
  }

  // ---------------------------------------------------------------------
  // The patterns (matched from the start of the text; those of
  // `heading_patterns` and the roman-numeral test ignore case)

  predicate IsRoman(c: char) {
    c in "IVXLCDMivxlcdm"
  }

  /** `[\.\)]` */
  predicate IsDotParen(c: char) {
    c == '.' || c == ')'
  }

  /** `[\.\)\s]` */
  predicate IsDelim(c: char) {
    IsDotParen(c) || IsSpace(c)
  }

  /** `[\s\.\-:]` */
  predicate IsSep(c: char) {
    IsSpace(c) || c == '.' || c == '-' || c == ':'
  }

  predicate NotNewline(c: char) {
    c != '\n'
  }

  /** `(.*)$` (`least` 0) or `(.+)$` (`least` 1) from `k`: `.` matches
      anything but a newline, `$` the end or just before a final newline. */
  predicate RestOfLine(t: string, k: nat, least: nat)
    requires k <= |t|
  {
    (|t| - k >= least && AllIn(t, k, |t|, NotNewline)) ||
    (|t| - 1 - k >= least && t[|t| - 1] == '\n' && AllIn(t, k, |t| - 1, NotNewline))
  }

  /** The text starts with the word `w`, in any case. */
  predicate StartsWithWord(t: string, w: string) {
    |w| <= |t| && Lower(t[..|w|]) == w
  }

  /** `\s+(\d+|[IVXLCDM]+)[\s\.\-:]*(.*)$` from `k` with the number ending
      at `b` and the separators at `c`.  The `\s+` run is the whole
      whitespace run, since a number cannot start with whitespace. */
  predicate NumberedTitleAt(t: string, k: nat, roman: bool, b: nat, c: nat)
    requires k <= |t|
  {
    var a := RunEnd(t, k, IsSpace);
    k < a < b <= c <= |t| &&
    (AllIn(t, a, b, IsDigit) || (roman && AllIn(t, a, b, IsRoman))) &&
    AllIn(t, b, c, IsSep) && RestOfLine(t, c, 0)
  }

  predicate NumberedTitle(t: string, k: nat, roman: bool)
    requires k <= |t|
  {
    exists b, c | 0 <= b <= c <= |t| :: NumberedTitleAt(t, k, roman, b, c)
  }

  /** `\s+(.+)$` from `k`. */
  predicate SpaceThenText(t: string, k: nat)
    requires k <= |t|
  {
    exists j | k < j <= |t| :: AllIn(t, k, j, IsSpace) && RestOfLine(t, j, 1)
  }

  /** `^(Chapter|CHAPTER)\s+(\d+|[IVXLCDM]+)[\s\.\-:]*(.*)$` */
  predicate ChapterPattern(t: string) {
    StartsWithWord(t, "chapter") && NumberedTitle(t, 7, true)
  }

  /** `^(\d+)[\.\)]\s+(.+)$`; the digits run to the first non-digit. */
  predicate NumberedPattern(t: string) {
    var e := DigitsEnd(t, 0);
    1 <= e < |t| && IsDotParen(t[e]) && SpaceThenText(t, e + 1)
  }

  /** `^(\d+\.\d+)[\.\)]\s+(.+)$` */
  predicate SubNumberedPattern(t: string) {
    var e := DigitsEnd(t, 0);
    1 <= e < |t| && t[e] == '.' &&
    var f := DigitsEnd(t, e + 1);
    e + 1 < f < |t| && IsDotParen(t[f]) && SpaceThenText(t, f + 1)
  }

  /** `^([IVXLCDM]+)[\.\)\s]+(.+)$` */
  predicate RomanPattern(t: string) {
    var e := RunEnd(t, 0, IsRoman);
    e >= 1 && exists j | e < j <= |t| :: AllIn(t, e, j, IsDelim) && RestOfLine(t, j, 1)
  }

  /** `^(PART|Part)\s+(\d+|[IVXLCDM]+)[\s\.\-:]*(.*)$` */
  predicate PartPattern(t: string) {
    StartsWithWord(t, "part") && NumberedTitle(t, 4, true)
  }

  /** `^(Section|SECTION)\s+(\d+)[\s\.\-:]*(.*)$` */
  predicate SectionPattern(t: string) {
    StartsWithWord(t, "section") && NumberedTitle(t, 7, false)
  }

  /** Some entry of `heading_patterns` matches, ignoring case. */
  predicate PatternMatch(t: string) {
    ChapterPattern(t) || NumberedPattern(t) || SubNumberedPattern(t) ||
    RomanPattern(t) || PartPattern(t) || SectionPattern(t)
  }

  const HeadingKeywords: seq<string> := [
    "chapter", "section", "part", "introduction", "conclusion",
    "appendix", "bibliography", "references", "index", "abstract",
    "summary", "overview", "background", "methodology", "results",
    "discussion", "acknowledgments", "preface", "foreword"]

  /** Some keyword occurs in the lower-cased text. */
  predicate KeywordMatch(t: string) {
    exists i :: 0 <= i < |HeadingKeywords| && IsSubstring(HeadingKeywords[i], Lower(t))
  }

  /** `^\d+(\.\d+)*[\.\)\s]`.  The optional `(\.\d+)*` groups never change
      the outcome: a '.' after the first digits already ends the match. */
  predicate NumericStart(t: string) {
    var e := DigitsEnd(t, 0);
    1 <= e < |t| && IsDelim(t[e])
  }

  /** `^[IVXLCDM]+[\.\)\s]`, ignoring case (so "Mix " counts as well). */
  predicate RomanStart(t: string) {
    var e := RunEnd(t, 0, IsRoman);
    1 <= e < |t| && IsDelim(t[e])
  }

  /** `text.isupper() and len(text) < 50` */
  predicate Caps(t: string) {
    IsUpperText(t) && |t| < 50
  }

  /** `flags & 2**4` */
  predicate Bold(s: Span) {
    HasBit(s.flags, 4)
  }

  /** `flags & 2**1` */
  predicate Italic(s: Span) {
    HasBit(s.flags, 1)
  }

  // ---------------------------------------------------------------------
  // Scoring

  /** The score of lines 195-211: 2 for a size above the median, 2 bold,
      1 italic, 3 pattern, 2 keyword, 2 numeric start, 2 roman start,
      1 capitals. */
  function Score(text: string, span: Span, median: real): int {
    (if span.size > median then 2 else 0) +
    (if Bold(span) then 2 else 0) +
    (if Italic(span) then 1 else 0) +
    (if PatternMatch(text) then 3 else 0) +
    (if KeywordMatch(text) then 2 else 0) +
    (if NumericStart(text) then 2 else 0) +
    (if RomanStart(text) then 2 else 0) +
    (if Caps(text) then 1 else 0)
  }

  /** `_is_potential_heading` on a stripped text.  Too short or too long
      texts are rejected; at or below the median size only a pattern lets
      a text through, and then its weight alone reaches the threshold;
      above the median any single other signal suffices. */
  function IsPotentialHeading(text: string, span: Span, stats: FontStats): (r: bool)
    ensures |text| < 3 || |text| > 200 ==> !r
    ensures 3 <= |text| <= 200 && span.size <= stats.median ==> (r <==> PatternMatch(text))
    ensures 3 <= |text| <= 200 && span.size > stats.median ==>
      (r <==> Bold(span) || Italic(span) || PatternMatch(text) || KeywordMatch(text) ||
              NumericStart(text) || RomanStart(text) || Caps(text))
  {
    if |text| < 3 then false
    else if |text| > 200 then false
    else if span.size <= stats.median && !PatternMatch(text) then false
    else Score(text, span, stats.median) >= 3
  }

  // ---------------------------------------------------------------------
  // Levels

  /** The level by size (lines 221-231): 1, 2 or 3 for a size reaching the
      first, second or third large size, 4 below all of them, 2 when
      there are none. */
  function RankLevel(size: real, large: seq<real>): (r: int)
    ensures 1 <= r <= 4
  {
    if large == [] then 2
    else if size >= large[0] then 1
    else if |large| > 1 && size >= large[1] then 2
    else if |large| > 2 && size >= large[2] then 3
    else 4
  }

  /** How many of `xs` are larger than `x`. */
  function CountAbove(xs: seq<real>, x: real): nat {
    if xs == [] then 0 else (if xs[0] > x then 1 else 0) + CountAbove(xs[1..], x)
  }

  /** Against descending large sizes the size level is one more than the
      number of large sizes above the size; a size below all of them gets
      level 4, whether there are one, two or three of them. */
  lemma RankCountsLarger(size: real, large: seq<real>)
    requires Decreasing(large) && 1 <= |large| <= 3
    ensures size >= large[|large| - 1] ==> RankLevel(size, large) == CountAbove(large, size) + 1
    ensures size < large[|large| - 1] ==> RankLevel(size, large) == 4
  {
    var tail := large[1..];
    if |large| >= 2 {
      assert tail[1..] == large[2..];
      if |large| == 3 {
        assert large[2..][1..] == [];
      }
    }
  }

  /** `^(Chapter|CHAPTER|Part|PART)`, case as written. */
  predicate ChapterPrefix(t: string) {
    HasPrefix(t, "Chapter") || HasPrefix(t, "CHAPTER") || HasPrefix(t, "Part") || HasPrefix(t, "PART")
  }

  /** `\d+(\.\d+)*` with `groups` groups of digits, from `i`. */
  predicate DottedPrefix(t: string, i: nat, groups: nat)
    requires i <= |t|
    decreases groups
  {
    var e := DigitsEnd(t, i);
    e > i && (groups <= 1 || (e < |t| && t[e] == '.' && DottedPrefix(t, e + 1, groups - 1)))
  }

  /** `^\d+[\.\)]` */
  predicate NumberDelimPrefix(t: string) {
    var e := DigitsEnd(t, 0);
    1 <= e < |t| && IsDotParen(t[e])
  }

  /** `_determine_heading_level`: the size level, then the first matching
      override, clamped to 1..6.  The level stays within 1..4; "Chapter"
      and "Part" headings are level 1; "1.2.3" headings take the larger of
      the size level and 3, "1.2" headings the larger of it and 2; no
      other override changes the level. */
  function DetermineLevel(text: string, span: Span, stats: FontStats): (r: int)
    ensures 1 <= r <= 4
    ensures ChapterPrefix(text) ==> r == 1
    ensures !ChapterPrefix(text) ==> r >= RankLevel(span.size, stats.large)
    ensures !ChapterPrefix(text) && DottedPrefix(text, 0, 3) ==> r == Max(RankLevel(span.size, stats.large), 3)
    ensures !ChapterPrefix(text) && !DottedPrefix(text, 0, 3) && DottedPrefix(text, 0, 2) ==>
      r == Max(RankLevel(span.size, stats.large), 2)
    ensures !ChapterPrefix(text) && DottedPrefix(text, 0, 2) ==> r >= 2
    ensures !ChapterPrefix(text) && !DottedPrefix(text, 0, 2) ==> r == RankLevel(span.size, stats.large)
  {
    var base := RankLevel(span.size, stats.large);
    var level :=
      if ChapterPrefix(text) then Min(base, 1)
      else if DottedPrefix(text, 0, 3) then Max(base, 3)
      else if DottedPrefix(text, 0, 2) then Max(base, 2)
      else if NumberDelimPrefix(text) then Max(base, 1)
      else base;
    assert DottedPrefix(text, 0, 3) ==> DottedPrefix(text, 0, 2) by {
      if DottedPrefix(text, 0, 3) {
        var e := DigitsEnd(text, 0);
        assert DottedPrefix(text, e + 1, 2);
      }
    }
    Max(1, Min(level, 6))
  }

  // ---------------------------------------------------------------------
  // De-duplication

  /** Entries count as the same heading when their lower-cased titles and
      their levels agree. */
  function DedupKey(e: TocEntry): (string, int) {
    (Lower(e.title), e.level)
  }

  predicate HasKey(es: seq<TocEntry>, k: (string, int)) {
    exists i :: 0 <= i < |es| && DedupKey(es[i]) == k
  }

  lemma {:induction false} HasKeyAppend(es: seq<TocEntry>, x: TocEntry, k: (string, int))
    ensures HasKey(es + [x], k) <==> HasKey(es, k) || DedupKey(x) == k
  {
    if HasKey(es, k) {
      var i :| 0 <= i < |es| && DedupKey(es[i]) == k;
      assert (es + [x])[i] == es[i];
    }
    if DedupKey(x) == k {
      assert (es + [x])[|es|] == x;
    }
    if HasKey(es + [x], k) {
      var i :| 0 <= i < |es + [x]| && DedupKey((es + [x])[i]) == k;
      if i < |es| {
        assert (es + [x])[i] == es[i];
      }
    }
  }

  /** Where the key first occurs. */
  function FirstWithKey(es: seq<TocEntry>, k: (string, int)): (i: nat)
    requires HasKey(es, k)
    ensures i < |es| && DedupKey(es[i]) == k
    ensures forall j :: 0 <= j < i ==> DedupKey(es[j]) != k
  {
    if DedupKey(es[0]) == k then 0
    else
      assert HasKey(es[1..], k) by {
        var j :| 0 <= j < |es| && DedupKey(es[j]) == k;
        assert DedupKey(es[1..][j - 1]) == k;
      }
      1 + FirstWithKey(es[1..], k)
  }

  /** An entry added at the end does not move an earlier first occurrence. */
  lemma {:induction false} FirstWithKeyPrefix(es: seq<TocEntry>, x: TocEntry, k: (string, int))
    requires HasKey(es, k)
    ensures HasKey(es + [x], k)
    ensures FirstWithKey(es + [x], k) == FirstWithKey(es, k)
  {
    HasKeyAppend(es, x, k);
    assert (es + [x])[0] == es[0];
    if DedupKey(es[0]) != k {
      assert (es + [x])[1..] == es[1..] + [x];
      assert HasKey(es[1..], k) by {
        var j :| 0 <= j < |es| && DedupKey(es[j]) == k;
        assert DedupKey(es[1..][j - 1]) == k;
      }
      FirstWithKeyPrefix(es[1..], x, k);
    }
  }

  /** A key new at the end first occurs at the end. */
  lemma {:induction false} FirstWithKeyLast(es: seq<TocEntry>, x: TocEntry)
    requires !HasKey(es, DedupKey(x))
    ensures HasKey(es + [x], DedupKey(x))
    ensures FirstWithKey(es + [x], DedupKey(x)) == |es|
  {
    HasKeyAppend(es, x, DedupKey(x));
    if es != [] {
      assert (es + [x])[0] == es[0];
      assert DedupKey(es[0]) != DedupKey(x);
      assert (es + [x])[1..] == es[1..] + [x];
      forall j | 0 <= j < |es[1..]|
        ensures DedupKey(es[1..][j]) != DedupKey(x)
      {
        assert es[1..][j] == es[j + 1];
      }
      FirstWithKeyLast(es[1..], x);
    }
  }

  /** What `Dedup` promises about its result `r` for the input `es`. */
  ghost predicate DedupOf(es: seq<TocEntry>, r: seq<TocEntry>) {
    && (forall i, j :: 0 <= i < j < |r| ==> DedupKey(r[i]) != DedupKey(r[j]))
    && (forall k :: HasKey(r, k) <==> HasKey(es, k))
    && (forall j :: 0 <= j < |r| ==> HasKey(es, DedupKey(r[j])) && r[j] == es[FirstWithKey(es, DedupKey(r[j]))])
    && FirstOccurrenceOrder(es, r)
  }

  /** The entries of `r` come in the order in which their keys first occur
      in `es`. */
  ghost predicate FirstOccurrenceOrder(es: seq<TocEntry>, r: seq<TocEntry>) {
    forall i, j :: 0 <= i < j < |r| ==> KeysInOrder(es, r[i], r[j])
  }

  /** The key of `a` first occurs in `es` before the key of `b`. */
  ghost predicate KeysInOrder(es: seq<TocEntry>, a: TocEntry, b: TocEntry) {
    HasKey(es, DedupKey(a)) && HasKey(es, DedupKey(b)) &&
    FirstWithKey(es, DedupKey(a)) < FirstWithKey(es, DedupKey(b))
  }

  /** The de-duplication loop (lines 348-354): an entry is kept when no
      earlier entry has its key.  The result has each key of the input
      exactly once, held by the entry where the key first occurs, in the
      order of those first occurrences. */
  function Dedup(es: seq<TocEntry>): (r: seq<TocEntry>)
    ensures |r| <= |es|
    ensures forall i, j :: 0 <= i < j < |r| ==> DedupKey(r[i]) != DedupKey(r[j])
    ensures forall k :: HasKey(r, k) <==> HasKey(es, k)
    ensures forall j :: 0 <= j < |r| ==> HasKey(es, DedupKey(r[j])) && r[j] == es[FirstWithKey(es, DedupKey(r[j]))]
    ensures FirstOccurrenceOrder(es, r)
  {
    if es == [] then []
    else
      var init, x := es[..|es| - 1], es[|es| - 1];
      assert es == init + [x];
      var d := Dedup(init);
      assert DedupOf(init, d);
      if HasKey(init, DedupKey(x)) then
        DedupSkip(init, x, d);
        d
      else
        DedupKeep(init, x, d);
        d + [x]
  }

  /** An entry whose key was seen is dropped. */
  lemma DedupSkip(init: seq<TocEntry>, x: TocEntry, d: seq<TocEntry>)
    requires DedupOf(init, d) && HasKey(init, DedupKey(x))
    ensures DedupOf(init + [x], d)
  {
    var es := init + [x];
    forall k | HasKey(init, k)
      ensures HasKey(es, k) && FirstWithKey(es, k) == FirstWithKey(init, k)
    {
      FirstWithKeyPrefix(init, x, k);
    }
    forall k
      ensures HasKey(es, k) <==> HasKey(init, k)
    {
      HasKeyAppend(init, x, k);
    }
    forall j | 0 <= j < |init|
      ensures es[j] == init[j]
    {
    }
  }

  /** An entry with a new key is kept, at the end. */
  lemma DedupKeep(init: seq<TocEntry>, x: TocEntry, d: seq<TocEntry>)
    requires DedupOf(init, d) && !HasKey(init, DedupKey(x))
    ensures DedupOf(init + [x], d + [x])
  {
    DedupKeepDistinct(init, x, d);
    DedupKeepKeys(init, x, d);
    DedupKeepFirst(init, x, d);
    DedupKeepOrder(init, x, d);
  }

  lemma DedupKeepDistinct(init: seq<TocEntry>, x: TocEntry, d: seq<TocEntry>)
    requires DedupOf(init, d) && !HasKey(init, DedupKey(x))
    ensures forall i, j :: 0 <= i < j < |d + [x]| ==> DedupKey((d + [x])[i]) != DedupKey((d + [x])[j])
  {
    var r := d + [x];
    forall i, j | 0 <= i < j < |r|
      ensures DedupKey(r[i]) != DedupKey(r[j])
    {
      assert r[i] == d[i] && HasKey(init, DedupKey(d[i]));
      if j < |d| {
        assert r[j] == d[j];
      } else {
        assert r[j] == x;
      }
    }
  }

  lemma DedupKeepKeys(init: seq<TocEntry>, x: TocEntry, d: seq<TocEntry>)
    requires DedupOf(init, d)
    ensures forall k :: HasKey(d + [x], k) <==> HasKey(init + [x], k)
  {
    forall k
      ensures HasKey(d + [x], k) <==> HasKey(init + [x], k)
    {
      HasKeyAppend(init, x, k);
      HasKeyAppend(d, x, k);
    }
  }

  lemma DedupKeepFirst(init: seq<TocEntry>, x: TocEntry, d: seq<TocEntry>)
    requires DedupOf(init, d) && !HasKey(init, DedupKey(x))
    ensures forall j :: 0 <= j < |d + [x]| ==>
      HasKey(init + [x], DedupKey((d + [x])[j])) &&
      (d + [x])[j] == (init + [x])[FirstWithKey(init + [x], DedupKey((d + [x])[j]))]
  {
    var es, r := init + [x], d + [x];
    forall j | 0 <= j < |r|
      ensures HasKey(es, DedupKey(r[j])) && r[j] == es[FirstWithKey(es, DedupKey(r[j]))]
    {
      if j < |d| {
        var k := DedupKey(d[j]);
        assert r[j] == d[j] && HasKey(init, k);
        FirstWithKeyPrefix(init, x, k);
        assert es[FirstWithKey(init, k)] == init[FirstWithKey(init, k)];
      } else {
        assert r[j] == x;
        FirstWithKeyLast(init, x);
        assert es[|init|] == x;
      }
    }
  }

  lemma DedupKeepOrder(init: seq<TocEntry>, x: TocEntry, d: seq<TocEntry>)
    requires DedupOf(init, d) && !HasKey(init, DedupKey(x))
    ensures FirstOccurrenceOrder(init + [x], d + [x])
  {
    var es, r := init + [x], d + [x];
    forall i, j | 0 <= i < j < |r|
      ensures KeysInOrder(es, r[i], r[j])
    {
      KeepPair(init, x, d, i, j);
    }
  }

  lemma KeepPair(init: seq<TocEntry>, x: TocEntry, d: seq<TocEntry>, i: nat, j: nat)
    requires DedupOf(init, d) && !HasKey(init, DedupKey(x))
    requires i < j < |d| + 1
    ensures KeysInOrder(init + [x], (d + [x])[i], (d + [x])[j])
  {
    var es, r := init + [x], d + [x];
    assert r[i] == d[i];
    var ki := DedupKey(d[i]);
    assert HasKey(init, ki);
    FirstWithKeyPrefix(init, x, ki);
    assert FirstWithKey(es, ki) < |init|;
    if j < |d| {
      assert r[j] == d[j];
      FirstWithKeyPrefix(init, x, DedupKey(d[j]));
    } else {
      assert r[j] == x;
      FirstWithKeyLast(init, x);
    }
  }

  // ---------------------------------------------------------------------
  // Sorting

  /** `x.page or 0`: a missing page and page 0 both count as 0. */
  function PageOr0(e: TocEntry): int {
    if e.page.Some? then e.page.value else 0
  }

  /** `x.position or 0` */
  function PositionOr0(e: TocEntry): real {
    if e.position.Some? then e.position.value else 0.0
  }

  /** Which sort line 357-360 picks. */
  datatype SortMode = ByPage | ByPosition

  /** The sort key: `(page or 0, position or 0)`, or `position or 0` (with
      a constant first component). */
  function SortKey(e: TocEntry, mode: SortMode): (int, real) {
    match mode
    case ByPage => (PageOr0(e), PositionOr0(e))
    case ByPosition => (0, PositionOr0(e))
  }

  /** Python's tuple order. */
  predicate KeyLe(a: (int, real), b: (int, real)) {
    a.0 < b.0 || (a.0 == b.0 && a.1 <= b.1)
  }

  predicate SortedBy(s: seq<TocEntry>, mode: SortMode) {
    forall i, j :: 0 <= i < j < |s| ==> KeyLe(SortKey(s[i], mode), SortKey(s[j], mode))
  }

  /** The entries with sort key `k`, in order. */
  function WithKey(s: seq<TocEntry>, mode: SortMode, k: (int, real)): seq<TocEntry> {
    if s == [] then []
    else (if SortKey(s[0], mode) == k then [s[0]] else []) + WithKey(s[1..], mode, k)
  }

  lemma WithKeyCons(y: TocEntry, s: seq<TocEntry>, mode: SortMode, k: (int, real))
    ensures WithKey([y] + s, mode, k) == (if SortKey(y, mode) == k then [y] else []) + WithKey(s, mode, k)
  {
    assert ([y] + s)[1..] == s;
  }

  lemma SortedCons(y: TocEntry, s: seq<TocEntry>, mode: SortMode)
    requires SortedBy(s, mode)
    requires forall z :: z in s ==> KeyLe(SortKey(y, mode), SortKey(z, mode))
    ensures SortedBy([y] + s, mode)
  {
    forall i, j | 0 <= i < j < |[y] + s|
      ensures KeyLe(SortKey(([y] + s)[i], mode), SortKey(([y] + s)[j], mode))
    {
      assert ([y] + s)[j] == s[j - 1];
      if i > 0 {
        assert ([y] + s)[i] == s[i - 1];
      }
    }
  }

  /** Every entry of a sorted list has a key at least its head's. */
  lemma HeadIsLeast(s: seq<TocEntry>, mode: SortMode)
    requires SortedBy(s, mode) && s != []
    ensures forall z :: z in s ==> KeyLe(SortKey(s[0], mode), SortKey(z, mode))
  {
    forall z | z in s
      ensures KeyLe(SortKey(s[0], mode), SortKey(z, mode))
    {
      var i :| 0 <= i < |s| && s[i] == z;
      if i > 0 {
        assert KeyLe(SortKey(s[0], mode), SortKey(s[i], mode));
      }
    }
  }

  /** Insertion in front of the first entry whose key is not smaller, so
      ahead of every entry with an equal key. */
  function InsertBy(x: TocEntry, s: seq<TocEntry>, mode: SortMode): (r: seq<TocEntry>)
    requires SortedBy(s, mode)
    ensures SortedBy(r, mode)
    ensures multiset(r) == multiset(s) + multiset{x}
    ensures forall y :: y in r ==> y in s || y == x
  {
    if s == [] then [x]
    else if KeyLe(SortKey(x, mode), SortKey(s[0], mode)) then
      HeadIsLeast(s, mode);
      SortedCons(x, s, mode);
      [x] + s
    else
      var rest := InsertBy(x, s[1..], mode);
      assert s == [s[0]] + s[1..];
      HeadIsLeast(s, mode);
      SortedCons(s[0], rest, mode);
      [s[0]] + rest
  }

  /** The inserted entry goes in front of those sharing its key; the
      entries of any other key are untouched. */
  lemma {:induction false} InsertByStable(x: TocEntry, s: seq<TocEntry>, mode: SortMode, k: (int, real))
    requires SortedBy(s, mode)
    ensures WithKey(InsertBy(x, s, mode), mode, k) == (if SortKey(x, mode) == k then [x] else []) + WithKey(s, mode, k)
  {
    if s == [] {
      assert InsertBy(x, s, mode) == [x] + [];
      WithKeyCons(x, [], mode, k);
    } else if KeyLe(SortKey(x, mode), SortKey(s[0], mode)) {
      assert InsertBy(x, s, mode) == [x] + s;
      WithKeyCons(x, s, mode, k);
    } else {
      var rest := InsertBy(x, s[1..], mode);
      assert InsertBy(x, s, mode) == [s[0]] + rest;
      InsertByStable(x, s[1..], mode, k);
      InsertBehind(x, s[0], s[1..], rest, mode, k);
      assert s == [s[0]] + s[1..];
    }
  }

  /** An entry inserted behind the head `y`, whose key is smaller, shares
      no key with it. */
  lemma InsertBehind(x: TocEntry, y: TocEntry, s: seq<TocEntry>, rest: seq<TocEntry>, mode: SortMode, k: (int, real))
    requires !KeyLe(SortKey(x, mode), SortKey(y, mode))
    requires WithKey(rest, mode, k) == (if SortKey(x, mode) == k then [x] else []) + WithKey(s, mode, k)
    ensures WithKey([y] + rest, mode, k) == (if SortKey(x, mode) == k then [x] else []) + WithKey([y] + s, mode, k)
  {
    WithKeyCons(y, rest, mode, k);
    WithKeyCons(y, s, mode, k);
    if SortKey(x, mode) == k {
      assert SortKey(y, mode) != k;
      assert [] + ([x] + WithKey(s, mode, k)) == [x] + ([] + WithKey(s, mode, k));
    } else {
      assert [] + WithKey(s, mode, k) == WithKey(s, mode, k);
    }
  }

  /** `list.sort(key=...)`: sorted and a permutation. */
  function SortBy(es: seq<TocEntry>, mode: SortMode): (r: seq<TocEntry>)
    ensures SortedBy(r, mode)
    ensures multiset(r) == multiset(es)
  {
    if es == [] then []
    else
      assert es == [es[0]] + es[1..];
      InsertBy(es[0], SortBy(es[1..], mode), mode)
  }

  /** The sort is stable: the entries sharing any one key keep their
      relative order. */
  lemma {:induction false} SortByStable(es: seq<TocEntry>, mode: SortMode, k: (int, real))
    ensures WithKey(SortBy(es, mode), mode, k) == WithKey(es, mode, k)
  {
    if es != [] {
      SortByStable(es[1..], mode, k);
      InsertByStable(es[0], SortBy(es[1..], mode), mode, k);
      WithKeyCons(es[0], es[1..], mode, k);
      assert es == [es[0]] + es[1..];
    }
  }

  /** Stability for every key at once. */
  lemma SortByStableAll(es: seq<TocEntry>, mode: SortMode)
    ensures forall k :: WithKey(SortBy(es, mode), mode, k) == WithKey(es, mode, k)
  {
    forall k
      ensures WithKey(SortBy(es, mode), mode, k) == WithKey(es, mode, k)
    {
      SortByStable(es, mode, k);
    }
  }

  /** Some entry has a page that Python counts as true (neither None nor 0). */
  predicate AnyPage(es: seq<TocEntry>) {
    exists i :: 0 <= i < |es| && es[i].page.Some? && es[i].page.value != 0
  }

  /** Some entry has a position that Python counts as true. */
  predicate AnyPosition(es: seq<TocEntry>) {
    exists i :: 0 <= i < |es| && es[i].position.Some? && es[i].position.value != 0.0
  }

  /** `_clean_and_sort_toc`: de-duplicate, then sort by page and position
      if some page is set, else by position if some position is set, else
      keep the de-duplicated order. */
  function CleanAndSort(es: seq<TocEntry>): (r: seq<TocEntry>)
    ensures es == [] ==> r == []
    ensures forall x :: x in r ==> x in es
    ensures multiset(r) == multiset(Dedup(es))
    ensures AnyPage(Dedup(es)) ==> SortedBy(r, ByPage)
    ensures !AnyPage(Dedup(es)) && AnyPosition(Dedup(es)) ==> SortedBy(r, ByPosition)
    ensures !AnyPage(Dedup(es)) && !AnyPosition(Dedup(es)) ==> r == Dedup(es)
    ensures AnyPage(Dedup(es)) ==> forall k :: WithKey(r, ByPage, k) == WithKey(Dedup(es), ByPage, k)
    ensures !AnyPage(Dedup(es)) && AnyPosition(Dedup(es)) ==>
      forall k :: WithKey(r, ByPosition, k) == WithKey(Dedup(es), ByPosition, k)
    ensures forall i, j :: 0 <= i < j < |r| ==> DedupKey(r[i]) != DedupKey(r[j])
  {
    if es == [] then []
    else
      var d := Dedup(es);
      DistinctKeysPermuted(d, SortBy(d, ByPage));
      DistinctKeysPermuted(d, SortBy(d, ByPosition));
      assert forall x :: x in multiset(d) ==> x in es by {
        forall x | x in multiset(d)
          ensures x in es
        {
          assert x in d;
          var j :| 0 <= j < |d| && d[j] == x;
        }
      }
      if AnyPage(d) then
        SortByStableAll(d, ByPage);
        SortBy(d, ByPage)
      else if AnyPosition(d) then
        SortByStableAll(d, ByPosition);
        SortBy(d, ByPosition)
      else d
  }

  /** No two entries share a (title, level) key. */
  predicate UniqueKeys(s: seq<TocEntry>) {
    forall i, j :: 0 <= i < j < |s| ==> DedupKey(s[i]) != DedupKey(s[j])
  }

  /** Reordering entries whose keys are distinct keeps them distinct. */
  lemma {:induction false} DistinctKeysPermuted(a: seq<TocEntry>, b: seq<TocEntry>)
    requires UniqueKeys(a) && multiset(a) == multiset(b)
    ensures UniqueKeys(b)
    decreases |b|
  {
    if b != [] {
      var x, tail := b[0], b[1..];
      assert b == [x] + tail;
      assert multiset(b) == multiset{x} + multiset(tail);
      assert x in multiset(a);
      var p :| 0 <= p < |a| && a[p] == x;
      var rest := a[..p] + a[p + 1..];
      DropAt(a, p);
      DistinctKeysPermuted(rest, tail);
      HeadKeyFresh(a, p, tail);
      ConsUnique(x, tail);
    }
  }

  /** Taking out entry `p` leaves one copy fewer of it, and distinct keys
      stay distinct. */
  lemma DropAt(a: seq<TocEntry>, p: nat)
    requires p < |a|
    ensures multiset(a[..p] + a[p + 1..]) == multiset(a) - multiset{a[p]}
    ensures UniqueKeys(a) ==> UniqueKeys(a[..p] + a[p + 1..])
  {
    assert a == a[..p] + [a[p]] + a[p + 1..];
    if UniqueKeys(a) {
      UniqueDrop(a, p);
    }
  }

  /** The distinct-keys half of `DropAt`. */
  lemma UniqueDrop(a: seq<TocEntry>, p: nat)
    requires p < |a| && UniqueKeys(a)
    ensures UniqueKeys(a[..p] + a[p + 1..])
  {
    var left, right := a[..p], a[p + 1..];
    var rest := left + right;
    forall i, j | 0 <= i < j < |rest|
      ensures DedupKey(rest[i]) != DedupKey(rest[j])
    {
      var i' := if i < p then i else i + 1;
      var j' := if j < p then j else j + 1;
      assert rest[i] == a[i'] by {
        if i < p { assert rest[i] == left[i]; } else { assert rest[i] == right[i - p]; }
      }
      assert rest[j] == a[j'] by {
        if j < p { assert rest[j] == left[j]; } else { assert rest[j] == right[j - p]; }
      }
    }
  }

  /** What is left after taking out entry `p` holds no other entry with
      its key. */
  lemma HeadKeyFresh(a: seq<TocEntry>, p: nat, tail: seq<TocEntry>)
    requires p < |a| && UniqueKeys(a)
    requires multiset(a[..p] + a[p + 1..]) == multiset(tail)
    ensures forall y :: y in tail ==> DedupKey(y) != DedupKey(a[p])
  {
    var left, right := a[..p], a[p + 1..];
    forall y | y in tail
      ensures DedupKey(y) != DedupKey(a[p])
    {
      assert y in multiset(left + right);
      if y in left {
        var q :| 0 <= q < |left| && left[q] == y;
        assert y == a[q];
      } else {
        assert y in right;
        var q :| 0 <= q < |right| && right[q] == y;
        assert y == a[p + 1 + q];
      }
    }
  }

  /** An entry whose key the rest does not hold keeps the keys distinct. */
  lemma ConsUnique(x: TocEntry, tail: seq<TocEntry>)
    requires UniqueKeys(tail)
    requires forall y :: y in tail ==> DedupKey(y) != DedupKey(x)
    ensures UniqueKeys([x] + tail)
  {
    var b := [x] + tail;
    forall i, j | 0 <= i < j < |b|
      ensures DedupKey(b[i]) != DedupKey(b[j])
    {
      assert b[j] == tail[j - 1];
      if i > 0 {
        assert b[i] == tail[i - 1];
      }
    }
  }

  /** After the clean-up every key of the input is held by exactly one
      entry, the one where the key first occurs. */
  lemma CleanKeepsFirstOfEachKey(es: seq<TocEntry>, k: (string, int))
    ensures HasKey(es, k) <==> HasKey(CleanAndSort(es), k)
    ensures HasKey(es, k) ==> multiset(CleanAndSort(es))[es[FirstWithKey(es, k)]] >= 1
  {
    var d := Dedup(es);
    var r := CleanAndSort(es);
    SameElementsSameKeys(d, r, k);
    if HasKey(es, k) {
      DedupKeepsFirst(es, k);
    }
  }

  /** Lists with the same elements have the same keys. */
  lemma SameElementsSameKeys(d: seq<TocEntry>, r: seq<TocEntry>, k: (string, int))
    requires multiset(r) == multiset(d)
    ensures HasKey(d, k) <==> HasKey(r, k)
  {
    if HasKey(d, k) {
      var j :| 0 <= j < |d| && DedupKey(d[j]) == k;
      assert d[j] in multiset(r);
      var i :| 0 <= i < |r| && r[i] == d[j] by {
        assert d[j] in r;
      }
    }
    if HasKey(r, k) {
      var i :| 0 <= i < |r| && DedupKey(r[i]) == k;
      assert r[i] in multiset(d);
      var j :| 0 <= j < |d| && d[j] == r[i] by {
        assert r[i] in d;
      }
    }
  }

  /** The entry where a key first occurs survives the de-duplication. */
  lemma DedupKeepsFirst(es: seq<TocEntry>, k: (string, int))
    requires HasKey(es, k)
    ensures es[FirstWithKey(es, k)] in multiset(Dedup(es))
  {
    var d := Dedup(es);
    assert HasKey(d, k);
    var j :| 0 <= j < |d| && DedupKey(d[j]) == k;
    assert d[j] == es[FirstWithKey(es, k)];
    assert d[j] in multiset(d);
  }

  /** The span's stripped text passes `_is_potential_heading`. */
  predicate Detected(s: Span, stats: FontStats) {
    IsPotentialHeading(Strip(s.text), s, stats)
  }

  /** The entry appended for a detected span (lines 70-75): the stripped
      text, its level, the 1-based page number and the top of the span's
      box. */
  function EntryOf(s: Span, pageNo: int, stats: FontStats): TocEntry {
    var t := Strip(s.text);
    TocEntry(t, DetermineLevel(t, s, stats), Some(pageNo), Some(s.bbox.y0))
  }

  /** Span `i` of `spans` is detected and `e` is its entry. */
  predicate DetectedIn(spans: seq<Span>, pageNo: int, stats: FontStats, e: TocEntry, i: int) {
    0 <= i < |spans| && Detected(spans[i], stats) && e == EntryOf(spans[i], pageNo, stats)
  }

  /** The candidate headings of one page's spans (lines 64-76): one entry
      for every span that passes the test, and no other. */
  function SpanCandidates(spans: seq<Span>, pageNo: int, stats: FontStats): (r: seq<TocEntry>)
    ensures forall e :: e in r <==> exists i :: DetectedIn(spans, pageNo, stats, e, i)
    ensures forall e :: e in r ==>
      && e.page == Some(pageNo) && 1 <= e.level <= 4
      && 3 <= |e.title| <= 200 && Stripped(e.title)
  {
    if spans == [] then []
    else
      var s := spans[0];
      var here := if Detected(s, stats) then [EntryOf(s, pageNo, stats)] else [];
      var rest := SpanCandidates(spans[1..], pageNo, stats);
      SpanCandidatesSplit(spans, spans[1..], pageNo, stats, here, rest);
      here + rest
  }

  lemma SpanCandidatesSplit(spans: seq<Span>, tail: seq<Span>, pageNo: int, stats: FontStats,
                            here: seq<TocEntry>, rest: seq<TocEntry>)
    requires spans != [] && tail == spans[1..]
    requires here == if Detected(spans[0], stats) then [EntryOf(spans[0], pageNo, stats)] else []
    requires forall e :: e in rest <==> exists i :: DetectedIn(tail, pageNo, stats, e, i)
    ensures forall e :: e in here + rest <==> exists i :: DetectedIn(spans, pageNo, stats, e, i)
  {
    forall e
      ensures e in here + rest <==> exists i :: DetectedIn(spans, pageNo, stats, e, i)
    {
      if e in here {
        assert DetectedIn(spans, pageNo, stats, e, 0);
      }
      if e in rest {
        var i :| DetectedIn(tail, pageNo, stats, e, i);
        assert tail[i] == spans[i + 1];
        assert DetectedIn(spans, pageNo, stats, e, i + 1);
      }
      if exists i :: DetectedIn(spans, pageNo, stats, e, i) {
        var i :| DetectedIn(spans, pageNo, stats, e, i);
        if i == 0 {
          assert e in here;
        } else {
          assert tail[i - 1] == spans[i];
          assert DetectedIn(tail, pageNo, stats, e, i - 1);
        }
      }
    }
  }

  /** The detected span `i` of page `p` of `doc` (page number `p + 1`). */
  ghost predicate DetectedAt(doc: Document, stats: FontStats, e: TocEntry, p: int, i: int) {
    0 <= p < |doc| && DetectedIn(BlocksSpans(doc[p].blocks), p + 1, stats, e, i)
  }

  /** Candidates of the pages from index `from` on (lines 61-76): one entry
      for every detected span of every such page, and no other. */
  function Candidates(doc: Document, from: nat, stats: FontStats): (r: seq<TocEntry>)
    requires from <= |doc|
    ensures forall e :: e in r <==> exists p, i :: from <= p && DetectedAt(doc, stats, e, p, i)
    decreases |doc| - from, 1
  {
    if from == |doc| then []
    else
      var here := SpanCandidates(BlocksSpans(doc[from].blocks), from + 1, stats);
      var rest := Candidates(doc, from + 1, stats);
      CandidatesSplit(doc, from, from + 1, stats);
      here + rest
  }

  lemma CandidatesSplit(doc: Document, from: nat, next: nat, stats: FontStats)
    requires from < |doc| && next == from + 1
    ensures forall e ::
      e in SpanCandidates(BlocksSpans(doc[from].blocks), next, stats) + Candidates(doc, next, stats)
      <==> exists p, i :: from <= p && DetectedAt(doc, stats, e, p, i)
    decreases |doc| - from, 0
  {
    var spans := BlocksSpans(doc[from].blocks);
    var here := SpanCandidates(spans, next, stats);
    var rest := Candidates(doc, next, stats);
    forall e
      ensures e in here + rest <==> exists p, i :: from <= p && DetectedAt(doc, stats, e, p, i)
    {
      if e in here {
        var i :| DetectedIn(spans, next, stats, e, i);
        assert DetectedAt(doc, stats, e, from, i);
      }
      if exists p, i :: from <= p && DetectedAt(doc, stats, e, p, i) {
        var p, i :| from <= p && DetectedAt(doc, stats, e, p, i);
        if p == from {
          assert DetectedIn(spans, next, stats, e, i);
        } else {
          assert next <= p;
        }
      }
    }
  }

  /** A detected heading's entry is well formed and on a page of `doc`. */
  lemma DetectedBounds(doc: Document, from: nat, stats: FontStats, r: seq<TocEntry>)
    requires forall e :: e in r ==> exists p, i :: from <= p && DetectedAt(doc, stats, e, p, i)
    ensures forall e :: e in r ==>
      && e.page.Some? && from + 1 <= e.page.value <= |doc|
      && 1 <= e.level <= 4 && 3 <= |e.title| <= 200
  {
    forall e | e in r
      ensures e.page.Some? && from + 1 <= e.page.value <= |doc|
      ensures 1 <= e.level <= 4 && 3 <= |e.title| <= 200
    {
      var p, i :| from <= p && DetectedAt(doc, stats, e, p, i);
      var s := BlocksSpans(doc[p].blocks)[i];
      assert Detected(s, stats) && e == EntryOf(s, p + 1, stats);
    }
  }

  /** `extract_toc_from_pdf`, given the document's own outline: that
      outline when it is not empty, the detected headings otherwise.
      Without an outline every detected heading's key (lower-cased title
      and level) survives the clean-up, and every entry returned is a
      detected heading. */
  function ExtractFromPdf(builtin: seq<(int, string, int)>, doc: Document): (r: seq<TocEntry>)
    ensures builtin != [] ==> |r| == |builtin|
    ensures builtin != [] ==> Rows(r) == builtin && forall i :: 0 <= i < |r| ==> r[i].position.None? && r[i].page.Some?
    ensures builtin == [] ==> forall e :: e in r ==>
      && 1 <= e.level <= 4 && e.page.Some? && 1 <= e.page.value <= |doc|
      && 3 <= |e.title| <= 200
    ensures builtin == [] ==> forall e :: e in r ==> exists p, i :: DetectedAt(doc, AnalyzeFonts(doc), e, p, i)
    ensures builtin == [] ==> forall e, p, i :: DetectedAt(doc, AnalyzeFonts(doc), e, p, i) ==> HasKey(r, DedupKey(e))
    ensures builtin == [] ==> SortedBy(r, ByPage)
    ensures builtin == [] ==> forall i, j :: 0 <= i < j < |r| ==> DedupKey(r[i]) != DedupKey(r[j])
  {
    if builtin != [] then
      BuiltinRoundTrip(builtin);
      ExtractBuiltin(builtin)
    else
      var stats := AnalyzeFonts(doc);
      var es := Candidates(doc, 0, stats);
      DetectedBounds(doc, 0, stats, es);
      DetectedKept(es, doc, stats);
      PagedSorted(es);
      CleanAndSort(es)
  }

  /** Entries that all have a page of at least 1 come out of the clean-up
      in (page, position) order. */
  lemma PagedSorted(es: seq<TocEntry>)
    requires forall e :: e in es ==> e.page.Some? && 1 <= e.page.value
    ensures SortedBy(CleanAndSort(es), ByPage)
  {
    if es != [] {
      var d := Dedup(es);
      assert HasKey(es, DedupKey(es[0]));
      assert HasKey(d, DedupKey(es[0]));
      var j :| 0 <= j < |d| && DedupKey(d[j]) == DedupKey(es[0]);
      assert d[j] == es[FirstWithKey(es, DedupKey(d[j]))];
      assert AnyPage(d);
    }
  }

  /** Every detected heading's key is kept by the clean-up. */
  lemma DetectedKept(es: seq<TocEntry>, doc: Document, stats: FontStats)
    requires es == Candidates(doc, 0, stats)
    ensures forall e, p, i :: DetectedAt(doc, stats, e, p, i) ==> HasKey(CleanAndSort(es), DedupKey(e))
  {
    forall e, p, i | DetectedAt(doc, stats, e, p, i)
      ensures HasKey(CleanAndSort(es), DedupKey(e))
    {
      assert e in es;
      var j :| 0 <= j < |es| && es[j] == e;
      assert HasKey(es, DedupKey(e));
      CleanKeepsFirstOfEachKey(es, DedupKey(e));
    }
  }
}

=== FILE: layout.dfy ===
/** The document as the layout library hands it over: pages of blocks,
    blocks of lines, lines of styled spans (the dictionaries of
    `page.get_text("dict")`).
 */
module Layout {

  /** A bounding box `(x0, y0, x1, y1)`; y grows downwards. */
  datatype Rect = Rect(x0: real, y0: real, x1: real, y1: real)

  /** A run of text in one font and size.  `flags` is the style bit set
      (bit 4 bold, bit 1 italic). */
  datatype Span = Span(text: string, font: string, size: real, flags: int, bbox: Rect)

  datatype Line = Line(spans: seq<Span>)

  /** A layout block.  An image block has no "lines" entry; reading it with
      `block.get("lines", [])` gives no lines, which is how it appears here. */
  datatype Block = Block(bbox: Rect, lines: seq<Line>)

  /** A page: its height (`page.rect.height`) and its blocks. */
  datatype Page = Page(height: real, blocks: seq<Block>)

  type Document = seq<Page>

  /** All spans of some lines, in reading order. */
  function LinesSpans(lines: seq<Line>): seq<Span> {
    if lines == [] then [] else lines[0].spans + LinesSpans(lines[1..])
  }

  function BlocksSpans(blocks: seq<Block>): seq<Span> {
    if blocks == [] then [] else LinesSpans(blocks[0].lines) + BlocksSpans(blocks[1..])
  }

  /** Every span of the document, page by page, in reading order: the
      order of the nested `for page / for block / for line / for span`
      loops. */
  function DocSpans(doc: Document): seq<Span> {
    if doc == [] then [] else BlocksSpans(doc[0].blocks) + DocSpans(doc[1..])
  }

  /** Bit `k` of a Python integer, as `flags & 2**k` tests it (also right
      for negative integers, because Dafny's `/` and `%` with a positive
      divisor round towards minus infinity like Python's). */
  function Pow2(k: nat): (r: nat)
    ensures r >= 1
  {
    if k == 0 then 1 else 2 * Pow2(k - 1)
  }

  predicate HasBit(flags: int, k: nat) {
    (flags / Pow2(k)) % 2 == 1
  }
}

=== FILE: outline.dfy ===
/** The document outline: end pages derived from the flat outline, the
    nested outline tree, the forward scans over the flat list, and the
    fuzzy comparison of a heading with a section title
    (app/text_extractor.py and app/utils.py).
 */
module Outline {
  import opened Base
  import opened Chars
  import opened Subst

  /** One row `[level, title, page]` of the document's own outline. */
  datatype TocItem = TocItem(level: int, title: string, page: int)

  /** One row `(level, title, start_page, end_page)` of `get_toc`. */
  datatype Section = Section(level: int, title: string, start: int, end: int)

  // ---------------------------------------------------------------------
  // End pages

  /** Index of the first row at or after `j` whose level is at most
      `level`, or `|toc|` when there is none: the look-ahead loop. */
  function NextAtOrAbove(toc: seq<TocItem>, level: int, j: nat): (k: nat)
    requires j <= |toc|
    ensures j <= k <= |toc|
    ensures forall m :: j <= m < k ==> toc[m].level > level
    ensures k < |toc| ==> toc[k].level <= level
    decreases |toc| - j
  {
    if j == |toc| || toc[j].level <= level then j else NextAtOrAbove(toc, level, j + 1)
  }

  /** What the end page of row `i` is meant to be: the start page of the
      first later row at the same or a shallower level, or the page count
      when no such row follows. */
  ghost predicate IsEndPage(toc: seq<TocItem>, pageCount: int, i: nat, e: int)
    requires i < |toc|
  {
    || (e == pageCount && forall m :: i < m < |toc| ==> toc[m].level > toc[i].level)
    || (exists k :: i < k < |toc| && toc[k].level <= toc[i].level && e == toc[k].page &&
                    forall m :: i < m < k ==> toc[m].level > toc[i].level)
  }

  function EndPage(toc: seq<TocItem>, pageCount: int, i: nat): (e: int)
    requires i < |toc|
    ensures IsEndPage(toc, pageCount, i, e)
  {
    var k := NextAtOrAbove(toc, toc[i].level, i + 1);
    if k < |toc| then
      assert i < k < |toc| && toc[k].level <= toc[i].level && forall m :: i < m < k ==> toc[m].level > toc[i].level;
      toc[k].page
    else pageCount
  }

  /** `get_toc` in app/utils.py: every outline row with its end page, the
      title untouched. */
  function Sections(toc: seq<TocItem>, pageCount: int): (r: seq<Section>)
    ensures |r| == |toc|
    ensures forall i :: 0 <= i < |toc| ==>
      && r[i].level == toc[i].level
      && r[i].title == toc[i].title
      && r[i].start == toc[i].page
      && IsEndPage(toc, pageCount, i, r[i].end)
  {
    seq(|toc|, i requires 0 <= i < |toc| => Section(toc[i].level, toc[i].title, toc[i].page, EndPage(toc, pageCount, i)))
  }

  /** The literal `\xad\xa0]` (soft hyphen, no-break space, bracket). */
  const SoftBreak: seq<Cls> := [Is('\U{AD}'), Is('\U{A0}'), Is(']')]

  /** The literal run of the eleven typographic spaces U+2000 .. U+200A. */
  const SpaceRow: seq<Cls> :=
    [Is('\U{2000}'), Is('\U{2001}'), Is('\U{2002}'), Is('\U{2003}'), Is('\U{2004}'), Is('\U{2005}'),
     Is('\U{2006}'), Is('\U{2007}'), Is('\U{2008}'), Is('\U{2009}'), Is('\U{200A}')]

  /** The title clean-up of `get_toc` in app/text_extractor.py: carriage
      returns deleted, runs of `SoftBreak` deleted, runs of `SpaceRow`
      replaced by one space. */
  function CleanTitle(t: string): (r: string)
    ensures '\r' !in r
    ensures forall c :: c in r ==> c in t || c == ' '
    ensures !Contains(t, [Is('\r')]) && !Contains(t, SoftBreak) && !Contains(t, SpaceRow) ==> r == t
  {
    var noCr := SubAll(t, [Is('\r')], "");
    SubAllRemoves(t, '\r', "");
    SubRuns(SubRuns(noCr, SoftBreak, ""), SpaceRow, " ")
  }

  /** `get_toc` in app/text_extractor.py: as `Sections`, with cleaned
      titles. */
  function CleanSections(toc: seq<TocItem>, pageCount: int): (r: seq<Section>)
    ensures |r| == |toc|
    ensures forall i :: 0 <= i < |toc| ==>
      && r[i].level == toc[i].level
      && r[i].title == CleanTitle(toc[i].title)
      && '\r' !in r[i].title
      && r[i].start == toc[i].page
      && IsEndPage(toc, pageCount, i, r[i].end)
  {
    var s := Sections(toc, pageCount);
    seq(|s|, i requires 0 <= i < |s| => s[i].(title := CleanTitle(s[i].title)))
  }

  // ---------------------------------------------------------------------
  // The nested outline (`toc2dtoc`)

  /** Level of a stack entry; `-1` stands for the root sentinel of level 0. */
  function LevelAt(toc: seq<Section>, j: int): int
    requires -1 <= j < |toc|
  {
    if j == -1 then 0 else toc[j].level
  }

  /** Nearest row before `j` (counting down from `j - 1`) whose level is
      strictly smaller than that of row `i`, or -1. */
  function ParentBelow(toc: seq<Section>, i: nat, j: nat): (p: int)
    requires i < |toc| && j <= i
    requires forall m :: j <= m < i ==> toc[m].level >= toc[i].level
    ensures -1 <= p < j
    ensures p >= 0 ==> toc[p].level < toc[i].level
    ensures forall m :: p < m < i ==> toc[m].level >= toc[i].level
  {
    if j == 0 then -1
    else if toc[j - 1].level < toc[i].level then j - 1
    else ParentBelow(toc, i, j - 1)
  }

  /** The row under which row `i` belongs: the most recent preceding row
      with a strictly smaller level, or -1 (top level) when there is none. */
  function Parent(toc: seq<Section>, i: nat): (p: int)
    requires i < |toc|
    ensures -1 <= p < i
    ensures p >= 0 ==> toc[p].level < toc[i].level
    ensures forall m :: p < m < i ==> toc[m].level >= toc[i].level
  {
    ParentBelow(toc, i, i)
  }

  function Parents(toc: seq<Section>): (ps: seq<int>)
    ensures |ps| == |toc|
    ensures forall i :: 0 <= i < |toc| ==> ps[i] == Parent(toc, i)
  {
    seq(|toc|, i requires 0 <= i < |toc| => Parent(toc, i))
  }

  /** Every row names an earlier row, or the root, as its parent. */
  predicate WellParented(toc: seq<Section>, parents: seq<int>) {
    |parents| == |toc| && forall c :: 0 <= c < |parents| ==> -1 <= parents[c] < c
  }

  /** A node of the outline before `cleanup`: `{"_page": pages, "_sub": sub}`. */
  datatype RawNode = RawNode(pages: (int, int), sub: Dict<Section, RawNode>)

  /** A node after `cleanup`: `{"_page": (start, end)}` for a leaf, the
      cleaned sub-dictionary otherwise. */
  datatype Node = Pages(start: int, end: int) | Sub(children: Dict<Section, Node>)

  /** The dictionary that collects the rows whose parent is `p` (-1: the
      root dictionary). */
  function SubDict(toc: seq<Section>, parents: seq<int>, p: int): Dict<Section, RawNode>
    requires WellParented(toc, parents) && -1 <= p < |toc|
    decreases |toc| - p, |toc| + 1
  {
    Fill(toc, parents, p, 0, [])
  }

  /** The raw node stored for row `c`. */
  function RawAt(toc: seq<Section>, parents: seq<int>, c: nat): RawNode
    requires WellParented(toc, parents) && c < |toc|
    decreases |toc| - c, |toc| + 2
  {
    RawNode((toc[c].start, toc[c].end), SubDict(toc, parents, c))
  }

  /** The assignments `parent_dict[row] = {...}` of rows `c..` whose parent
      is `p`, in row order, applied to `acc`. */
  function Fill(toc: seq<Section>, parents: seq<int>, p: int, c: nat, acc: Dict<Section, RawNode>): Dict<Section, RawNode>
    requires WellParented(toc, parents) && -1 <= p < |toc| && c <= |toc|
    decreases |toc| - p, |toc| - c
  {
    if c == |toc| then acc
    else if parents[c] == p then Fill(toc, parents, p, c + 1, Put(acc, toc[c], RawAt(toc, parents, c)))
    else Fill(toc, parents, p, c + 1, acc)
  }

  /** `cleanup` of one node: a node without children becomes its page
      range, any other node the cleaned dictionary of its children. */
  function CleanNode(n: RawNode): Node
    decreases n
  {
    if n.sub == [] then Pages(n.pages.0, n.pages.1)
    else Sub(seq(|n.sub|, i requires 0 <= i < |n.sub| => (n.sub[i].0, CleanNode(n.sub[i].1))))
  }

  /** `cleanup` of a dictionary: the same keys, each value cleaned. */
  function Cleanup(d: Dict<Section, RawNode>): (r: Dict<Section, Node>)
    ensures Keys(r) == Keys(d)
  {
    seq(|d|, i requires 0 <= i < |d| => (d[i].0, CleanNode(d[i].1)))
  }

  /** The outline tree `toc2dtoc` is meant to build: every row placed under
      its `Parent`. */
  function Tree(toc: seq<Section>): Dict<Section, Node> {
    Cleanup(SubDict(toc, Parents(toc), -1))
  }

  /** Row `j` is still open after the first `n` rows: every row after it
      so far is strictly deeper. */
  ghost predicate Open(toc: seq<Section>, n: nat, j: int) {
    0 <= j < n <= |toc| && forall m :: j < m < n ==> toc[m].level > toc[j].level
  }

  /** The level stack of `toc2dtoc` after the first `n` rows: the root
      sentinel followed by the open rows, in row order. */
  ghost predicate StackOk(toc: seq<Section>, n: nat, stack: seq<int>) {
    && n <= |toc|
    && (forall m :: 0 <= m < n ==> toc[m].level >= 1)
    && |stack| >= 1 && stack[0] == -1
    && (forall a :: 1 <= a < |stack| ==> Open(toc, n, stack[a]))
    && (forall a, b :: 0 <= a < b < |stack| ==> stack[a] < stack[b])
    && (forall j :: Open(toc, n, j) ==> j in stack)
  }

  /** The stack's levels strictly increase from the sentinel upwards. */
  lemma StackLevelsIncrease(toc: seq<Section>, n: nat, stack: seq<int>)
    requires StackOk(toc, n, stack)
    ensures forall a :: 0 <= a < |stack| ==> -1 <= stack[a] < |toc|
    ensures forall a, b :: 0 <= a < b < |stack| ==> LevelAt(toc, stack[a]) < LevelAt(toc, stack[b])
  {
    forall a, b | 0 <= a < b < |stack|
      ensures LevelAt(toc, stack[a]) < LevelAt(toc, stack[b])
    {
      assert Open(toc, n, stack[b]);
      if a > 0 {
        assert Open(toc, n, stack[a]);
      }
    }
  }

  /** One step of the loop: after popping every entry whose level is at
      least that of row `n`, the top of the stack is `Parent(toc, n)`, and
      pushing `n` gives the stack for `n + 1` rows. */
  lemma PopToParent(toc: seq<Section>, n: nat, stack: seq<int>, k: nat)
    requires StackOk(toc, n, stack) && n < |toc| && toc[n].level >= 1
    requires 1 <= k <= |stack|
    requires forall a :: 0 <= a < |stack| ==> -1 <= stack[a] < |toc|
    requires forall a :: 0 <= a < k ==> LevelAt(toc, stack[a]) < toc[n].level
    requires forall a :: k <= a < |stack| ==> LevelAt(toc, stack[a]) >= toc[n].level
    ensures stack[k - 1] == Parent(toc, n)
    ensures StackOk(toc, n + 1, stack[..k] + [n])
  {
    var p := Parent(toc, n);
    if p >= 0 {
      assert Open(toc, n, p);
      var a :| 0 <= a < |stack| && stack[a] == p;
      assert 1 <= a < k;
      assert stack[k - 1] <= p;
    } else {
      assert stack[k - 1] == -1;
    }
    PushKeepsStack(toc, n, stack, k);
  }

  /** Pushing row `n` onto the stack left after popping gives the stack for
      `n + 1` rows. */
  lemma PushKeepsStack(toc: seq<Section>, n: nat, stack: seq<int>, k: nat)
    requires StackOk(toc, n, stack) && n < |toc| && toc[n].level >= 1
    requires 1 <= k <= |stack|
    requires forall a :: 0 <= a < |stack| ==> -1 <= stack[a] < |toc|
    requires forall a :: 0 <= a < k ==> LevelAt(toc, stack[a]) < toc[n].level
    requires forall a :: k <= a < |stack| ==> LevelAt(toc, stack[a]) >= toc[n].level
    ensures StackOk(toc, n + 1, stack[..k] + [n])
  {
    var st := stack[..k] + [n];
    forall j | Open(toc, n + 1, j)
      ensures j in st
    {
      if j < n {
        assert Open(toc, n, j);
        var a :| 0 <= a < |stack| && stack[a] == j;
        assert a < k;
        assert st[a] == j;
      } else {
        assert st[k] == j;
      }
    }
    forall a | 1 <= a < |st|
      ensures Open(toc, n + 1, st[a])
    {
      if a < k {
        assert Open(toc, n, stack[a]);
      }
    }
  }

  /** The `while stack and level <= stack[-1][0]: stack.pop()` loop: the
      number of entries left, all below `level`, every popped one at or
      above it. */
  method PopLevel(toc: seq<Section>, stack: seq<int>, level: int) returns (k: nat)
    requires forall a :: 0 <= a < |stack| ==> -1 <= stack[a] < |toc|
    requires forall a, b :: 0 <= a < b < |stack| ==> LevelAt(toc, stack[a]) < LevelAt(toc, stack[b])
    ensures k <= |stack|
    ensures forall a :: 0 <= a < k ==> LevelAt(toc, stack[a]) < level
    ensures forall a :: k <= a < |stack| ==> LevelAt(toc, stack[a]) >= level
  {
    k := |stack|;
    while k > 0 && level <= LevelAt(toc, stack[k - 1])
      invariant 0 <= k <= |stack|
      invariant forall a :: k <= a < |stack| ==> LevelAt(toc, stack[a]) >= level
    {
      k := k - 1;
    }
  }

  /** `toc2dtoc`: the loop over the rows with the level stack, then
      `cleanup`.  The stack loop decides, for each row, the dictionary it
      is stored in; the dictionaries themselves are assembled by
      `SubDict`.  A row of level 0 or less pops the sentinel and the next
      `stack[-1]` raises `IndexError`. */
  method Toc2Dtoc(toc: seq<Section>) returns (r: Result<Dict<Section, Node>>)
    ensures r.Fail? <==> exists i :: 0 <= i < |toc| && toc[i].level <= 0
    ensures r.Fail? ==> r.error == IndexError
    ensures r.Ok? ==> r.value == Tree(toc)
  {
    var stack: seq<int> := [-1];
    var parents: seq<int> := [];
    var i := 0;
    while i < |toc|
      invariant 0 <= i <= |toc|
      invariant StackOk(toc, i, stack)
      invariant forall a :: 0 <= a < |stack| ==> -1 <= stack[a] < |toc|
      invariant forall a, b :: 0 <= a < b < |stack| ==> LevelAt(toc, stack[a]) < LevelAt(toc, stack[b])
      invariant |parents| == i
      invariant forall c :: 0 <= c < i ==> parents[c] == Parent(toc, c)
    {
      var level := toc[i].level;
      var k := PopLevel(toc, stack, level);
      if k == 0 {
        assert stack[0] == -1 && LevelAt(toc, -1) >= level;
        assert toc[i].level <= 0;
        return Fail(IndexError);
      }
      PopToParent(toc, i, stack, k);
      parents := parents + [stack[k - 1]];
      stack := stack[..k] + [i];
      StackLevelsIncrease(toc, i + 1, stack);
      i := i + 1;
    }
    assert parents == Parents(toc);
    return Ok(Cleanup(SubDict(toc, parents, -1)));
  }

  // ---------------------------------------------------------------------
  // Shape of the outline tree

  /** No two rows are equal (as tuples), so no assignment into a
      dictionary overwrites an earlier one. */
  ghost predicate DistinctRows(toc: seq<Section>) {
    forall i, j :: 0 <= i < j < |toc| ==> toc[i] != toc[j]
  }

  /** The entries for rows `c..` whose parent is `p`, in row order. */
  function Entries(toc: seq<Section>, parents: seq<int>, p: int, c: nat): Dict<Section, RawNode>
    requires WellParented(toc, parents) && -1 <= p < |toc| && c <= |toc|
    decreases |toc| - c
  {
    if c == |toc| then []
    else (if parents[c] == p then [(toc[c], RawAt(toc, parents, c))] else []) + Entries(toc, parents, p, c + 1)
  }

  /** With distinct rows every assignment adds a new key at the end. */
  lemma {:induction false} FillAppends(toc: seq<Section>, parents: seq<int>, p: int, c: nat, acc: Dict<Section, RawNode>)
    requires WellParented(toc, parents) && -1 <= p < |toc| && c <= |toc| && DistinctRows(toc)
    requires forall k :: c <= k < |toc| ==> toc[k] !in Keys(acc)
    ensures Fill(toc, parents, p, c, acc) == acc + Entries(toc, parents, p, c)
    decreases |toc| - c, 1
  {
    if c < |toc| {
      if parents[c] == p {
        FillAppendsHit(toc, parents, p, c, acc);
      } else {
        assert Fill(toc, parents, p, c, acc) == Fill(toc, parents, p, c + 1, acc);
        assert Entries(toc, parents, p, c) == Entries(toc, parents, p, c + 1);
        FillAppends(toc, parents, p, c + 1, acc);
      }
    }
  }

  /** The step of `FillAppends` at a row whose parent is `p`. */
  lemma {:induction false} FillAppendsHit(toc: seq<Section>, parents: seq<int>, p: int, c: nat, acc: Dict<Section, RawNode>)
    requires WellParented(toc, parents) && -1 <= p < |toc| && c < |toc| && DistinctRows(toc)
    requires parents[c] == p
    requires forall k :: c <= k < |toc| ==> toc[k] !in Keys(acc)
    ensures Fill(toc, parents, p, c, acc) == acc + Entries(toc, parents, p, c)
    decreases |toc| - c, 0
  {
    var e := (toc[c], RawAt(toc, parents, c));
    var next := Put(acc, toc[c], e.1);
    PutNew(acc, toc[c], e.1);
    forall k | c + 1 <= k < |toc|
      ensures toc[k] !in Keys(next)
    {
      assert toc[c] != toc[k];
    }
    FillAppends(toc, parents, p, c + 1, next);
    var rest := Entries(toc, parents, p, c + 1);
    assert Entries(toc, parents, p, c) == [e] + rest;
    assert acc + [e] + rest == acc + ([e] + rest);
  }

  lemma {:induction false} EntriesHold(toc: seq<Section>, parents: seq<int>, p: int, c: nat, i: nat)
    requires WellParented(toc, parents) && -1 <= p < |toc| && c <= i < |toc|
    ensures (toc[i], RawAt(toc, parents, i)) in Entries(toc, parents, p, c) <== parents[i] == p
    decreases |toc| - c
  {
    if c < i {
      EntriesHold(toc, parents, p, c + 1, i);
    }
  }

  lemma {:induction false} EntriesOnly(toc: seq<Section>, parents: seq<int>, p: int, c: nat)
    requires WellParented(toc, parents) && -1 <= p < |toc| && c <= |toc|
    ensures forall e :: e in Entries(toc, parents, p, c) ==>
      exists k :: c <= k < |toc| && parents[k] == p && e == (toc[k], RawAt(toc, parents, k))
    ensures Entries(toc, parents, p, c) == [] <==> forall k :: c <= k < |toc| ==> parents[k] != p
    decreases |toc| - c
  {
    if c < |toc| {
      EntriesOnly(toc, parents, p, c + 1);
    }
  }

  /** Shape of `toc2dtoc`'s dictionaries, for distinct rows: the
      dictionary of a row (or of the root, `p == -1`) holds exactly the
      rows whose parent it is, in row order; a row's node is cleaned to
      its page range exactly when no row has it as parent. */
  lemma SubDictShape(toc: seq<Section>, parents: seq<int>, p: int)
    requires WellParented(toc, parents) && DistinctRows(toc) && -1 <= p < |toc|
    ensures SubDict(toc, parents, p) == Entries(toc, parents, p, 0)
    ensures forall i :: 0 <= i < |toc| && parents[i] == p ==> (toc[i], RawAt(toc, parents, i)) in SubDict(toc, parents, p)
    ensures forall e :: e in SubDict(toc, parents, p) ==>
      exists k :: 0 <= k < |toc| && parents[k] == p && e == (toc[k], RawAt(toc, parents, k))
  {
    FillAppends(toc, parents, p, 0, []);
    EntriesOnly(toc, parents, p, 0);
    forall i | 0 <= i < |toc| && parents[i] == p
      ensures (toc[i], RawAt(toc, parents, i)) in SubDict(toc, parents, p)
    {
      EntriesHold(toc, parents, p, 0, i);
    }
  }

  lemma LeafIffChildless(toc: seq<Section>, parents: seq<int>, i: nat)
    requires WellParented(toc, parents) && DistinctRows(toc) && i < |toc|
    ensures CleanNode(RawAt(toc, parents, i)) == Pages(toc[i].start, toc[i].end) <==>
      forall c :: 0 <= c < |toc| ==> parents[c] != i
  {
    SubDictShape(toc, parents, i);
    EntriesOnly(toc, parents, i, 0);
  }

  /** In the outline tree every row is stored in the dictionary of its
      `Parent` (the root's when that is -1), and its node is a bare page
      range exactly when no later row has it as parent. */
  lemma TreePlacement(toc: seq<Section>, i: nat)
    requires DistinctRows(toc) && i < |toc|
    ensures WellParented(toc, Parents(toc))
    ensures (toc[i], RawAt(toc, Parents(toc), i)) in SubDict(toc, Parents(toc), Parent(toc, i))
    ensures CleanNode(RawAt(toc, Parents(toc), i)) == Pages(toc[i].start, toc[i].end) <==>
      forall c :: 0 <= c < |toc| ==> Parent(toc, c) != i
  {
    var ps := Parents(toc);
    SubDictShape(toc, ps, Parent(toc, i));
    LeafIffChildless(toc, ps, i);
  }

  // ---------------------------------------------------------------------
  // Forward scans over the flat outline

  /** Index of the first row of exactly level `level`, or `|rest|`. */
  function StopAtEqual(rest: seq<Section>, level: int): (e: nat)
    ensures e <= |rest|
    ensures forall m :: 0 <= m < e ==> rest[m].level != level
    ensures e < |rest| ==> rest[e].level == level
  {
    if rest == [] || rest[0].level == level then 0 else 1 + StopAtEqual(rest[1..], level)
  }

  /** The rows of `xs` deeper than `level`, in order. */
  function Deeper(xs: seq<Section>, level: int): (r: seq<Section>)
    ensures forall x :: x in r ==> x in xs && x.level > level
    ensures forall x :: x in xs && x.level > level ==> x in r
    ensures (forall m :: 0 <= m < |xs| ==> xs[m].level > level) ==> r == xs
  {
    if xs == [] then []
    else
      var rest := Deeper(xs[1..], level);
      assert forall x :: x in xs ==> x == xs[0] || x in xs[1..];
      (if xs[0].level > level then [xs[0]] else []) + rest
  }

  /** The loop of `get_children` over the rows after the section: deeper
      rows are collected, a row of equal level ends the loop, shallower rows
      are passed over. */
  function ScanChildren(rest: seq<Section>, level: int): (r: seq<Section>)
    ensures r == Deeper(rest[..StopAtEqual(rest, level)], level)
  {
    if rest == [] then []
    else if rest[0].level > level then
      var e := StopAtEqual(rest, level);
      assert e == 1 + StopAtEqual(rest[1..], level);
      assert rest[..e][0] == rest[0] && rest[..e][1..] == rest[1..][..e - 1];
      [rest[0]] + ScanChildren(rest[1..], level)
    else if rest[0].level == level then []
    else
      var e := StopAtEqual(rest, level);
      assert e == 1 + StopAtEqual(rest[1..], level);
      assert rest[..e][0] == rest[0] && rest[..e][1..] == rest[1..][..e - 1];
      ScanChildren(rest[1..], level)
  }

  /** `kids` are the children of row `i` at level `level`, stated on the
      positions of the whole outline: the stretch after row `i` runs up to
      the first later row of exactly that level (or the end), and `kids`
      are the rows of that stretch deeper than the level, in order. */
  predicate ChildrenOf(toc: seq<Section>, i: nat, level: int, kids: seq<Section>)
    requires i < |toc|
  {
    var e := StopAtEqual(toc[i + 1..], level);
    && (i + 1 + e < |toc| ==> toc[i + 1 + e].level == level)
    && (forall m :: i < m < i + 1 + e ==> toc[m].level != level)
    && (forall m :: i < m < i + 1 + e && toc[m].level > level ==> toc[m] in kids)
    && kids == Deeper(toc[i + 1..][..e], level)
  }

  /** `get_children`: a `ValueError` when the section is not a row (from
      `list.index`); otherwise the deeper rows after its first occurrence,
      up to the next row of the same level. */
  function Children(toc: seq<Section>, section: Section): (r: Result<seq<Section>>)
    ensures r.Fail? <==> section !in toc
    ensures r.Fail? ==> r.error == ValueError
    ensures r.Ok? ==> forall x :: x in r.value ==> x.level > section.level
    ensures r.Ok? ==> forall x :: x in r.value ==> x in toc[IndexOf(toc, section).value + 1..]
    ensures r.Ok? ==> ChildrenOf(toc, IndexOf(toc, section).value, section.level, r.value)
  {
    var i :- IndexOf(toc, section);
    ChildrenAfter(toc, i, section.level);
    Ok(ScanChildren(toc[i + 1..], section.level))
  }

  /** `ScanChildren` over the rows after row `i` gives its children. */
  lemma ChildrenAfter(toc: seq<Section>, i: nat, level: int)
    requires i < |toc|
    ensures ChildrenOf(toc, i, level, ScanChildren(toc[i + 1..], level))
  {
    var rest := toc[i + 1..];
    var e := StopAtEqual(rest, level);
    forall m | i < m < i + 1 + e
      ensures toc[m] == rest[m - i - 1] && toc[m] == rest[..e][m - i - 1]
    {
    }
  }

  /** A shallower row does not end `get_children`'s scan: the children of
      a level-2 row followed by a level-1 row and a level-3 row include the
      level-3 row. */
  lemma ChildrenSkipShallower(a: Section, b: Section, c: Section)
    requires a.level == 2 && b.level == 1 && c.level == 3 && a != b && a != c
    ensures Children([a, b, c], a) == Ok([c])
  {
    var rest := [a, b, c][1..];
    assert rest == [b, c];
    assert StopAtEqual(rest, 2) == 2;
    assert rest[..2] == [b, c];
    assert Deeper([c], 2) == [c];
    assert Deeper([b, c], 2) == [] + Deeper([c], 2);
  }

  /** The loop of `get_next_section`: the first row at the same or a
      shallower level. */
  function ScanNext(rest: seq<Section>, level: int): (r: Option<Section>)
    ensures r.None? <==> forall m :: 0 <= m < |rest| ==> rest[m].level > level
    ensures r.Some? ==> exists k :: 0 <= k < |rest| && rest[k] == r.value && rest[k].level <= level &&
                                    forall m :: 0 <= m < k ==> rest[m].level > level
  {
    if rest == [] then None
    else if rest[0].level <= level then
      assert rest[0] == rest[0];
      Some(rest[0])
    else
      var r := ScanNext(rest[1..], level);
      if r.Some? then
        var k :| 0 <= k < |rest[1..]| && rest[1..][k] == r.value && rest[1..][k].level <= level &&
          forall m :: 0 <= m < k ==> rest[1..][m].level > level;
        assert rest[k + 1] == r.value && forall m :: 0 <= m < k + 1 ==> rest[m].level > level;
        r
      else r
  }

  /** `get_next_section`: a `ValueError` when the section is not a row,
      otherwise the first later row at the same or a shallower level, or
      `None`. */
  function NextSection(toc: seq<Section>, section: Section): (r: Result<Option<Section>>)
    ensures r.Fail? <==> section !in toc
    ensures r.Fail? ==> r.error == ValueError
    ensures r.Ok? ==> (r.value.None? <==> forall m :: IndexOf(toc, section).value < m < |toc| ==> toc[m].level > section.level)
    ensures r.Ok? && r.value.Some? ==>
      exists k :: IndexOf(toc, section).value < k < |toc| && toc[k] == r.value.value && toc[k].level <= section.level &&
        forall m :: IndexOf(toc, section).value < m < k ==> toc[m].level > section.level
  {
    var i :- IndexOf(toc, section);
    ScanNextAfter(toc, i, section.level);
    Ok(ScanNext(toc[i + 1..], section.level))
  }

  /** `ScanNext` over the rows after row `i`, stated on the positions of
      the whole outline. */
  lemma ScanNextAfter(toc: seq<Section>, i: nat, level: int)
    requires i < |toc|
    ensures ScanNext(toc[i + 1..], level).None? <==> forall m :: i < m < |toc| ==> toc[m].level > level
    ensures ScanNext(toc[i + 1..], level).Some? ==>
      exists k :: i < k < |toc| && toc[k] == ScanNext(toc[i + 1..], level).value && toc[k].level <= level &&
        forall m :: i < m < k ==> toc[m].level > level
  {
    if ScanNext(toc[i + 1..], level).Some? {
      ShiftFirst(toc, toc[i + 1..], i, level, ScanNext(toc[i + 1..], level).value);
    } else {
      var rest := toc[i + 1..];
      forall m | i < m < |toc|
        ensures toc[m].level > level
      {
        assert toc[m] == rest[m - i - 1];
      }
    }
  }

  /** The first row of `rest` not deeper than `level`, counted in
      positions of the whole outline when `rest` are the rows after row
      `i`. */
  lemma ShiftFirst(toc: seq<Section>, rest: seq<Section>, i: nat, level: int, s: Section)
    requires i < |toc| && rest == toc[i + 1..]
    requires exists k :: 0 <= k < |rest| && rest[k] == s && rest[k].level <= level &&
               forall m :: 0 <= m < k ==> rest[m].level > level
    ensures exists k :: i < k < |toc| && toc[k] == s && toc[k].level <= level &&
              forall m :: i < m < k ==> toc[m].level > level
  {
    var k :| 0 <= k < |rest| && rest[k] == s && rest[k].level <= level &&
      forall m :: 0 <= m < k ==> rest[m].level > level;
    var j := k + i + 1;
    assert toc[j] == rest[k];
    forall m | i < m < j
      ensures toc[m].level > level
    {
      assert toc[m] == rest[m - i - 1];
    }
  }

  /** In distinct rows, row `i` is found at index `i`. */
  lemma NextOfRow(secs: seq<Section>, i: nat)
    requires i < |secs| && DistinctRows(secs)
    ensures NextSection(secs, secs[i]) == Ok(ScanNext(secs[i + 1..], secs[i].level))
  {
    var idx := IndexOf(secs, secs[i]);
    assert idx.Ok?;
    assert idx.value <= i;
    assert secs[idx.value] == secs[i];
    assert idx.value == i;
  }

  /** The end page is decided by the first later row at the same or a
      shallower level. */
  lemma EndPageAt(items: seq<TocItem>, pageCount: int, i: nat, k: nat, e: int)
    requires i < k < |items| && items[k].level <= items[i].level
    requires forall m :: i < m < k ==> items[m].level > items[i].level
    requires IsEndPage(items, pageCount, i, e)
    ensures e == items[k].page
  {
    assert !(forall m :: i < m < |items| ==> items[m].level > items[i].level);
    var k2 :| i < k2 < |items| && items[k2].level <= items[i].level && e == items[k2].page &&
      forall m :: i < m < k2 ==> items[m].level > items[i].level;
    assert k <= k2 && k2 <= k;
  }

  /** With no later row at the same or a shallower level the end page is
      the page count. */
  lemma EndPageNone(items: seq<TocItem>, pageCount: int, i: nat, e: int)
    requires i < |items|
    requires forall m :: i < m < |items| ==> items[m].level > items[i].level
    requires IsEndPage(items, pageCount, i, e)
    ensures e == pageCount
  {
    assert !exists k2 :: i < k2 < |items| && items[k2].level <= items[i].level;
  }

  /** The row `ScanNext` finds after row `i` is the row that decides row
      `i`'s end page. */
  lemma ScanNextDecidesEnd(items: seq<TocItem>, secs: seq<Section>, pageCount: int, i: nat)
    requires |secs| == |items| && i < |items|
    requires forall m :: 0 <= m < |items| ==> secs[m].level == items[m].level && secs[m].start == items[m].page
    requires IsEndPage(items, pageCount, i, secs[i].end)
    ensures var r := ScanNext(secs[i + 1..], secs[i].level);
            && (r.None? ==> secs[i].end == pageCount)
            && (r.Some? ==> r.value.start == secs[i].end)
  {
    var rest := secs[i + 1..];
    var r := ScanNext(rest, secs[i].level);
    if r.Some? {
      var k :| 0 <= k < |rest| && rest[k] == r.value && rest[k].level <= secs[i].level &&
        forall m :: 0 <= m < k ==> rest[m].level > secs[i].level;
      assert rest[k] == secs[i + 1 + k];
      forall m | i < m < i + 1 + k
        ensures items[m].level > items[i].level
      {
        assert rest[m - i - 1] == secs[m];
      }
      EndPageAt(items, pageCount, i, i + 1 + k, secs[i].end);
    } else {
      forall m | i < m < |items|
        ensures items[m].level > items[i].level
      {
        assert rest[m - i - 1] == secs[m];
      }
      EndPageNone(items, pageCount, i, secs[i].end);
    }
  }

  /** For distinct rows, the section `get_next_section` returns starts on
      the end page `get_toc` gives the section; with no next section the
      end page is the page count. */
  lemma NextSectionStartsAtEnd(items: seq<TocItem>, pageCount: int, i: nat)
    requires i < |items| && DistinctRows(CleanSections(items, pageCount))
    ensures var secs := CleanSections(items, pageCount);
            var r := NextSection(secs, secs[i]);
            && r.Ok?
            && (r.value.None? ==> secs[i].end == pageCount)
            && (r.value.Some? ==> r.value.value.start == secs[i].end)
  {
    var secs := CleanSections(items, pageCount);
    NextOfRow(secs, i);
    ScanNextDecidesEnd(items, secs, pageCount, i);
  }

  // ---------------------------------------------------------------------
  // Fuzzy comparison of a heading with a section title

  /** The heading side: lower case, stripped, punctuation and spaces
      deleted. */
  function HeadingKey(heading: string): string {
    DeleteChars(Strip(Lower(heading)), Punctuation)
  }

  /** The title side: lower case, punctuation and spaces deleted (the
      title is not stripped). */
  function TitleKey(title: string): string {
    DeleteChars(Lower(title), Punctuation)
  }

  /** The test of app/text_extractor.py:271-274: either normalised string
      occurs in the other. */
  predicate TitlesMatch(heading: string, title: string) {
    IsSubstring(HeadingKey(heading), TitleKey(title)) || IsSubstring(TitleKey(title), HeadingKey(heading))
  }

  /** A heading that normalises to nothing matches every title. */
  lemma EmptyHeadingMatches(heading: string, title: string)
    requires HeadingKey(heading) == []
    ensures TitlesMatch(heading, title)
  {
    EmptyIsSubstring(TitleKey(title));
  }

  /** Lower-casing keeps whitespace where it was. */
  lemma LowerStripped(s: string)
    requires Stripped(s)
    ensures Stripped(Lower(s))
  {
  }

  /** Between texts without surrounding whitespace the comparison is
      symmetric: both sides get the same normalisation. */
  lemma TitlesMatchSymmetric(a: string, b: string)
    requires Stripped(a) && Stripped(b)
    ensures TitlesMatch(a, b) <==> TitlesMatch(b, a)
  {
    LowerStripped(a);
    LowerStripped(b);
    StripOfStripped(Lower(a));
    StripOfStripped(Lower(b));
  }

  /** A heading matches the title it repeats. */
  lemma SameTextMatches(t: string)
    requires Stripped(t)
    ensures TitlesMatch(t, t)
  {
    LowerStripped(t);
    StripOfStripped(Lower(t));
    assert OccursAt(TitleKey(t), HeadingKey(t), 0);
  }

  /** The comparison ignores (ASCII) case on the title side. */
  lemma TitleCaseIgnored(heading: string, title: string)
    ensures TitlesMatch(heading, title) <==> TitlesMatch(heading, Lower(title))
  {
    assert Lower(Lower(title)) == Lower(title);
  }
}

=== FILE: qa.dfy ===
/** The two question-and-answer checks of app/utils.py: whether a question
    asks for a quantity, and whether an answer holds a number.
 */
module Qa {
  import opened Chars

  /** The phrases that mark a question as quantitative. */
  const QuantKeywords: seq<string> := [
    "how many", "how much", "what is the value", "compute", "calculate",
    "determine", "estimate", "give the value", "at what time", "what is the result"
  ]

  /** Whether `p` occurs in `s` at some position from `i` on. */
  function OccursFrom(p: string, s: string, i: nat): (r: bool)
    ensures r <==> exists j :: i <= j <= |s| - |p| && OccursAt(p, s, j)
    decreases |s| - i
  {
    if i + |p| > |s| then false
    else if s[i..i + |p|] == p then assert OccursAt(p, s, i); true
    else OccursFrom(p, s, i + 1)
  }

  /** `p in s`. */
  function Occurs(p: string, s: string): (r: bool)
    ensures r <==> IsSubstring(p, s)
  {
    OccursFrom(p, s, 0)
  }

  /** Some phrase of `ks` occurs in `t`. */
  function AnyOccurs(ks: seq<string>, t: string): (r: bool)
    ensures r <==> exists i :: 0 <= i < |ks| && IsSubstring(ks[i], t)
  {
    if ks == [] then false
    else Occurs(ks[0], t) || AnyOccurs(ks[1..], t)
  }

  /** `is_quantitative_question(q)`: some keyword occurs in the lower-cased
      question. */
  function IsQuantitativeQuestion(q: string): (r: bool)
    ensures r <==> exists i :: 0 <= i < |QuantKeywords| && IsSubstring(QuantKeywords[i], Lower(q))
  {
    AnyOccurs(QuantKeywords, Lower(q))
  }

  /** `answer_contains_number(a)`: `re.search(r"\d", a)` finds a digit. */
  function AnswerContainsNumber(a: string): (r: bool)
    ensures r <==> exists i :: 0 <= i < |a| && IsDigit(a[i])
  {
    if a == [] then false
    else IsDigit(a[0]) || AnswerContainsNumber(a[1..])
  }

  lemma LowerTwice(s: string)
    ensures Lower(Lower(s)) == Lower(s)
  {
  }

  /** The question is read without regard to case. */
  lemma QuestionCaseIgnored(q: string)
    ensures IsQuantitativeQuestion(Lower(q)) == IsQuantitativeQuestion(q)
  {
    LowerTwice(q);
  }

  /** Lower-casing goes character by character, so it commutes with
      concatenation. */
  lemma LowerConcat(a: string, b: string)
    ensures Lower(a + b) == Lower(a) + Lower(b)
  {
  }

  /** An occurrence inside `s` is an occurrence inside any text around it. */
  lemma SubstringGrows(p: string, s: string, a: string, b: string)
    requires IsSubstring(p, s)
    ensures IsSubstring(p, a + s + b)
  {
    var j :| 0 <= j <= |s| - |p| && OccursAt(p, s, j);
    var t := a + s + b;
    assert t[|a| + j..|a| + j + |p|] == s[j..j + |p|];
    assert OccursAt(p, t, |a| + j);
  }

  /** A quantitative question stays one whatever text surrounds it. */
  lemma QuestionGrows(q: string, a: string, b: string)
    requires IsQuantitativeQuestion(q)
    ensures IsQuantitativeQuestion(a + q + b)
  {
    var i :| 0 <= i < |QuantKeywords| && IsSubstring(QuantKeywords[i], Lower(q));
    LowerConcat(a + q, b);
    LowerConcat(a, q);
    SubstringGrows(QuantKeywords[i], Lower(q), Lower(a), Lower(b));
  }

  /** An answer with a number keeps it whatever text surrounds it, and
      text without digits adds none. */
  lemma {:induction false} AnswerConcat(a: string, b: string)
    ensures AnswerContainsNumber(a + b) == (AnswerContainsNumber(a) || AnswerContainsNumber(b))
  {
    if a != [] {
      assert (a + b)[0] == a[0] && (a + b)[1..] == a[1..] + b;
      AnswerConcat(a[1..], b);
    } else {
      assert a + b == b;
    }
  }
}

=== FILE: segmenter.dfy ===
/** `text_extract` of app/utils.py: one pass over every block of every
    page that gathers, for each section title met in the text, the body
    text that follows it, and stores that text cleaned up under the
    lower-cased title.
 */
module Segmenter {
  import opened Base
  import opened Chars
  import opened Subst
  import opened Layout
  import Typography

  /** Blocks this close to the top or the bottom edge are header or footer. */
  const Frame: real := 50.0

  const References: string := "references"

  /** The section whose body may be set one point smaller. */
  const MaterialsAndMethods: string := "materials and methods"

  /** The scan's state: the current key (the section being read), its text
      so far, and the result dictionary `main_text`. */
  datatype Scan = Scan(key: string, value: string, text: Dict<string, string>)

  /** `block["bbox"][1] > pframe and block["bbox"][3] < pheight - pframe` */
  predicate InFrame(b: Block, pheight: real) {
    b.bbox.y0 > Frame && b.bbox.y1 < pheight - Frame
  }

  // ---------------------------------------------------------------------
  // Captions

  /** `(\s)?(\d+)?(\w+)?(\s+)?:` from `p`.  The optional digits and word
      characters together are one run of word characters, and taking the
      optional first whitespace never loses a match. */
  predicate CaptionTail(t: string, p: nat)
    requires p <= |t|
  {
    var q := if p < |t| && IsSpace(t[p]) then p + 1 else p;
    var w := RunEnd(t, q, IsWordChar);
    var e := RunEnd(t, w, IsSpace);
    e < |t| && t[e] == ':'
  }

  /** `re.match(r'Fig(ure)?\.(\s)?(\d+)?(\w+)?(\s+)?:', t)` */
  predicate FigureCaption(t: string) {
    (HasPrefix(t, "Figure.") && CaptionTail(t, 7)) || (HasPrefix(t, "Fig.") && CaptionTail(t, 4))
  }

  /** `re.match(r'Table(\s)?(\d+)?(\w+)?(\s+)?:', t)` */
  predicate TableCaption(t: string) {
    HasPrefix(t, "Table") && CaptionTail(t, 5)
  }

  predicate Caption(t: string) {
    FigureCaption(t) || TableCaption(t)
  }

  // ---------------------------------------------------------------------
  // Gathering span texts

  /** A span that is just one ligature glyph. */
  predicate LigatureText(t: string) {
    t == [LigatureFi] || t == [LigatureFl]
  }

  /** The "repairing lines" test: the text so far (longer than one
      character) ends in '-' or a ligature, or the span is a ligature. */
  predicate JoinsTight(value: string, text: string) {
    (|value| > 1 && (value[|value| - 1] == '-' || IsLigature(value[|value| - 1]))) || LigatureText(text)
  }

  /** Appending a span's text: directly after a hyphen or ligature (the
      hyphen is kept), after one space otherwise. */
  function Join(value: string, text: string): (r: string)
    ensures |r| == |value| + |text| + (if JoinsTight(value, text) then 0 else 1)
    ensures r[..|value|] == value && r[|r| - |text|..] == text
    ensures !JoinsTight(value, text) ==> r[|value|] == ' '
  {
    if JoinsTight(value, text) then value + text else value + " " + text
  }

  /** Whether a span of this size is body text for the key: the main size
      in any section but "materials and methods", the main size or one
      less in that one, nothing while there is no key. */
  predicate Takes(key: string, size: real, main: int) {
    var r := Typography.RoundHalfEven(size);
    (r == main && key != MaterialsAndMethods && key != "") ||
    (main - 1 <= r <= main && key == MaterialsAndMethods)
  }

  /** Some span from `i` on is one the key takes and contains `c`. */
  predicate FromTakenSpan(spans: seq<Span>, key: string, main: int, c: char) {
    exists i :: 0 <= i < |spans| && Takes(key, spans[i].size, main) && c in spans[i].text
  }

  /** The span loop of one line (lines 156-176).  It only appends; with no
      key or no taken span nothing is added; every added character is a
      joining space or comes from a taken span. */
  function Gather(spans: seq<Span>, key: string, value: string, main: int): (r: string)
    ensures |value| <= |r| && r[..|value|] == value
    ensures (forall i :: 0 <= i < |spans| ==> !Takes(key, spans[i].size, main)) ==> r == value
    ensures key == "" ==> r == value
    ensures forall j :: |value| <= j < |r| ==> r[j] == ' ' || FromTakenSpan(spans, key, main, r[j])
  {
    if spans == [] then value
    else
      var s := spans[0];
      var v := if Takes(key, s.size, main) then Join(value, s.text) else value;
      var r := Gather(spans[1..], key, v, main);
      assert r[..|value|] == value by {
        assert r[..|v|][..|value|] == v[..|value|];
      }
      forall j | |value| <= j < |r|
        ensures r[j] == ' ' || FromTakenSpan(spans, key, main, r[j])
      {
        if j >= |v| {
          if r[j] != ' ' {
            var i :| 0 <= i < |spans[1..]| && Takes(key, spans[1..][i].size, main) && r[j] in spans[1..][i].text;
            assert spans[1..][i] == spans[i + 1];
          }
        } else {
          assert r[j] == v[j];
          if r[j] != ' ' {
            JoinAddsText(value, s.text, j);
          }
        }
      }
      r
  }

  lemma JoinAddsText(value: string, text: string, j: nat)
    requires |value| <= j < |Join(value, text)|
    ensures Join(value, text)[j] == ' ' || Join(value, text)[j] in text
  {
    var r := Join(value, text);
    var k := j - (|r| - |text|);
    if 0 <= k {
      assert r[j] == r[|r| - |text|..][k];
    }
  }

  /** The texts of the spans the key takes, in order, run together. */
  function TakenText(spans: seq<Span>, key: string, main: int): string {
    if spans == [] then []
    else (if Takes(key, spans[0].size, main) then spans[0].text else []) + TakenText(spans[1..], key, main)
  }

  /** Apart from the joining space, `Join` adds exactly the span's text. */
  lemma JoinSqueeze(value: string, text: string)
    ensures Squeeze(Join(value, text)) == Squeeze(value) + Squeeze(text)
  {
    if JoinsTight(value, text) {
      SqueezeConcat(value, text);
    } else {
      var u := value + " ";
      assert Join(value, text) == u + text;
      SqueezeConcat(u, text);
      SqueezeSpace(value);
    }
  }

  /** Spaces aside, the span loop appends exactly the texts of the taken
      spans, in their order. */
  lemma {:induction false} GatherText(spans: seq<Span>, key: string, value: string, main: int)
    ensures Squeeze(Gather(spans, key, value, main)) == Squeeze(value) + Squeeze(TakenText(spans, key, main))
    decreases |spans|
  {
    if spans == [] {
      assert Squeeze(TakenText(spans, key, main)) == [];
    } else {
      var s := spans[0];
      var h := if Takes(key, s.size, main) then s.text else [];
      var v := if Takes(key, s.size, main) then Join(value, s.text) else value;
      var rest := TakenText(spans[1..], key, main);
      GatherText(spans[1..], key, v, main);
      GatherHead(spans, key, value, main);
      SqueezeConcat(h, rest);
      Associative(Squeeze(value), Squeeze(h), Squeeze(rest));
    }
  }

  /** One step of the span loop, spaces aside. */
  lemma GatherHead(spans: seq<Span>, key: string, value: string, main: int)
    requires spans != []
    ensures var s := spans[0];
      var v := if Takes(key, s.size, main) then Join(value, s.text) else value;
      && Gather(spans, key, value, main) == Gather(spans[1..], key, v, main)
      && Squeeze(v) == Squeeze(value) + Squeeze(if Takes(key, s.size, main) then s.text else [])
      && TakenText(spans, key, main) == (if Takes(key, s.size, main) then s.text else []) + TakenText(spans[1..], key, main)
  {
    var s := spans[0];
    if Takes(key, s.size, main) {
      JoinSqueeze(value, s.text);
    } else {
      assert Squeeze([]) == [];
    }
  }

  /** Starting from an empty text, the span loop leaves some text exactly
      when it takes some span. */
  lemma {:induction false} GatherFromEmpty(spans: seq<Span>, key: string, main: int)
    ensures Gather(spans, key, "", main) != "" <==>
      exists i :: 0 <= i < |spans| && Takes(key, spans[i].size, main)
    decreases |spans|
  {
    if spans != [] {
      var s := spans[0];
      if Takes(key, s.size, main) {
        var v := Join("", s.text);
        assert |v| >= 1;
        assert Gather(spans, key, "", main) == Gather(spans[1..], key, v, main);
      } else {
        assert Gather(spans, key, "", main) == Gather(spans[1..], key, "", main);
        GatherFromEmpty(spans[1..], key, main);
        if exists i :: 0 <= i < |spans| && Takes(key, spans[i].size, main) {
          var i :| 0 <= i < |spans| && Takes(key, spans[i].size, main);
          assert spans[1..][i - 1] == spans[i];
        }
        if exists i :: 0 <= i < |spans[1..]| && Takes(key, spans[1..][i].size, main) {
          var i :| 0 <= i < |spans[1..]| && Takes(key, spans[1..][i].size, main);
          assert spans[i + 1] == spans[1..][i];
        }
      }
    }
  }

  // ---------------------------------------------------------------------
  // Lines and blocks

  /** What a line leaves behind: the key and the value, and whether the
      rest of the block is still read. */
  datatype Flow = Go(key: string, value: string) | Stop(key: string, value: string)

  /** No entry of `sections` is titled "references" (in any case). */
  predicate NoReferencesSection(keys: seq<string>) {
    forall i :: 0 <= i < |keys| ==> Lower(keys[i]) != References
  }

  /** A line whose first span's text, lower-cased, is a section title, or
      is "references" while no section is called that. */
  predicate TitleLine(line: Line, keys: seq<string>) {
    line.spans != [] &&
    var low := Lower(line.spans[0].text);
    low in keys || (NoReferencesSection(keys) && low == References)
  }

  /** One line (lines 141-176): a section title starts a new key with an
      empty value, a caption stops the block, any other line gathers its
      spans.  `line.get("spans", [])[0]` raises on a line with no span. */
  function LineStep(line: Line, key: string, value: string, keys: seq<string>, main: int): (r: Result<Flow>)
    ensures r.Fail? <==> line.spans == []
    ensures r.Fail? ==> r.error == IndexError
    ensures r.Ok? && TitleLine(line, keys) ==> r.value == Go(Lower(line.spans[0].text), "")
    ensures r.Ok? && !TitleLine(line, keys) ==> r.value.key == key && value <= r.value.value
    ensures r.Ok? && r.value.Stop? ==> r.value == Stop(key, value)
    ensures r.Ok? ==> (r.value.Stop? <==> !TitleLine(line, keys) && Caption(line.spans[0].text))
    ensures r.Ok? && !TitleLine(line, keys) && !Caption(line.spans[0].text) ==>
      Squeeze(r.value.value) == Squeeze(value) + Squeeze(TakenText(line.spans, key, main))
    ensures r.Ok? ==> r.value.key == key || r.value.key in keys || r.value.key == References
  {
    if line.spans == [] then Fail(IndexError)
    else
      var first := line.spans[0].text;
      var low := Lower(first);
      if low in keys then Ok(Go(low, ""))
      else if NoReferencesSection(keys) && low == References then Ok(Go(References, ""))
      else if Caption(first) then Ok(Stop(key, value))
      else
        GatherText(line.spans, key, value, main);
        Ok(Go(key, Gather(line.spans, key, value, main)))
  }

  /** Every line has a span and is neither a title nor a caption: each
      one only gathers. */
  predicate BodyLines(lines: seq<Line>, keys: seq<string>) {
    forall i :: 0 <= i < |lines| ==>
      lines[i].spans != [] && !TitleLine(lines[i], keys) && !Caption(lines[i].spans[0].text)
  }

  /** The texts the key takes from each line in turn, run together. */
  function LinesTaken(lines: seq<Line>, key: string, main: int): string {
    if lines == [] then [] else TakenText(lines[0].spans, key, main) + LinesTaken(lines[1..], key, main)
  }

  /** The lines of one block, up to a caption.  When every line only
      gathers, the key is kept and, spaces aside, the value grows by
      exactly the texts taken from the lines. */
  function LinesStep(lines: seq<Line>, key: string, value: string, keys: seq<string>, main: int): (r: Result<(string, string)>)
    ensures r.Fail? ==> r.error == IndexError
    ensures lines != [] && lines[0].spans == [] ==> r.Fail?
    ensures r.Ok? ==> r.value.0 == key || r.value.0 in keys || r.value.0 == References
    ensures BodyLines(lines, keys) ==>
      && r.Ok? && r.value.0 == key
      && Squeeze(r.value.1) == Squeeze(value) + Squeeze(LinesTaken(lines, key, main))
  {
    if lines == [] then Ok((key, value))
    else
      var f :- LineStep(lines[0], key, value, keys, main);
      match f
      case Stop(k, v) => Ok((k, v))
      case Go(k, v) =>
        if BodyLines(lines, keys) then
          assert BodyLines(lines[1..], keys) by {
            assert forall i :: 0 <= i < |lines| - 1 ==> lines[1..][i] == lines[i + 1];
          }
          var t, rest := TakenText(lines[0].spans, key, main), LinesTaken(lines[1..], key, main);
          SqueezeConcat(t, rest);
          Associative(Squeeze(value), Squeeze(t), Squeeze(rest));
          LinesStep(lines[1..], k, v, keys, main)
        else LinesStep(lines[1..], k, v, keys, main)
  }

  /** The clean-up of lines 180-191, each substitution on the stripped
      result of the one before: citations, the space around ',' '.' '('
      ')', whitespace runs, ligatures.  A text already settled comes back
      with only its ligatures spelt out, and a settled, cleaned text comes
      back unchanged. */
  function CleanValue(v: string): (r: string)
    ensures Cleaned(r)
    ensures Settled(v) ==> r == ExpandLigatures(v)
    ensures Settled(v) && Cleaned(v) ==> r == v
  {
    var w := CleanSpacing(v);
    LigatureSteps(w);
    if Settled(v) && Cleaned(v) then
      ExpandNoLigatures(v);
      SubAll(Strip(SubAll(w, [Is(LigatureFi)], "fi")), [Is(LigatureFl)], "fl")
    else SubAll(Strip(SubAll(w, [Is(LigatureFi)], "fi")), [Is(LigatureFl)], "fl")
  }

  /** The last two substitutions (lines 190-191) spell out the ligatures
      of a stripped, single-spaced text and keep it so. */
  lemma LigatureSteps(w: string)
    requires Stripped(w) && SingleSpaced(w)
    ensures var r := SubAll(Strip(SubAll(w, [Is(LigatureFi)], "fi")), [Is(LigatureFl)], "fl");
      Cleaned(r) && r == ExpandLigatures(w)
  {
    StripOfStripped(w);
    var w1 := SubAll(w, [Is(LigatureFi)], "fi");
    SubCharKeepsLayout(w, LigatureFi, "fi");
    SubAllRemoves(w, LigatureFi, "fi");
    StripOfStripped(w1);
    SubCharKeepsLayout(w1, LigatureFl, "fl");
    SubAllRemoves(w1, LigatureFl, "fl");
    LigaturesSpelt(w);
  }

  /** The first seven substitutions of the clean-up (lines 180-189). */
  function CleanSpacing(v: string): (r: string)
    ensures Stripped(r) && SingleSpaced(r)
    ensures Settled(v) ==> r == v
  {
    var v1 := DropCitations(Strip(v), DigitList);
    var v2 := DropCitations(Strip(v1), DigitRange);
    var v3 := SubAll(Strip(v2), [Space, Is(','), Space], ", ");
    var v4 := SubAll(Strip(v3), [Space, Is('.'), Space], ". ");
    var v5 := SubAll(Strip(v4), [Is('('), Space], "(");
    var v6 := SubAll(Strip(v5), [Space, Is(')')], ")");
    SettledSpacing(v);
    CollapseSpaces(Strip(v6))
  }

  /** A text already in the shape the clean-up gives, but for ligatures:
      no whitespace at either end or in a run of two, no '[', and no space
      on the wrong side of ',' '.' '(' ')'. */
  predicate Settled(v: string) {
    && Stripped(v) && SingleSpaced(v) && '[' !in v
    && !Contains(v, [Space, Is(','), Space]) && !Contains(v, [Space, Is('.'), Space])
    && !Contains(v, [Is('('), Space]) && !Contains(v, [Space, Is(')')])
  }

  /** None of the first seven substitutions finds anything in a settled
      text. */
  lemma SettledSpacing(v: string)
    ensures Settled(v) ==>
      CollapseSpaces(Strip(SubAll(Strip(SubAll(Strip(SubAll(Strip(SubAll(Strip(
        DropCitations(Strip(DropCitations(Strip(v), DigitList)), DigitRange)),
        [Space, Is(','), Space], ", ")), [Space, Is('.'), Space], ". ")), [Is('('), Space], "(")), [Space, Is(')')], ")"))) == v
  {
    if Settled(v) {
      StripOfStripped(v);
      assert DropCitations(v, DigitList) == v;
      assert DropCitations(v, DigitRange) == v;
      assert SubAll(v, [Space, Is(','), Space], ", ") == v;
      assert SubAll(v, [Space, Is('.'), Space], ". ") == v;
      assert SubAll(v, [Is('('), Space], "(") == v;
      assert SubAll(v, [Space, Is(')')], ")") == v;
      CollapseSingleSpaced(v);
    }
  }

  /** A stored text: no whitespace at either end, no whitespace but single
      spaces, no ligature glyphs. */
  predicate Cleaned(v: string) {
    Stripped(v) && SingleSpaced(v) && LigatureFi !in v && LigatureFl !in v
  }

  /** The end of a block (lines 178-192): when there is a key and some
      text, the text is cleaned and stored under the key, and the scan
      goes on from the cleaned text. */
  function Store(k: string, v: string, text: Dict<string, string>): (r: Scan)
    ensures r.key == k
    ensures k != "" && v != "" ==>
      r.value == CleanValue(v) && r.text == Put(text, k, r.value) && Get(r.text, k) == Some(r.value)
    ensures k == "" || v == "" ==> r == Scan(k, v, text)
  {
    if k != "" && v != "" then
      var c := CleanValue(v);
      GetPut(text, k, c, k);
      Scan(k, c, Put(text, k, c))
    else Scan(k, v, text)
  }

  /** One block: its lines when it lies inside the frame, then the store
      step. */
  function BlockStep(st: Scan, b: Block, pheight: real, keys: seq<string>, main: int): (r: Result<Scan>)
    ensures r.Fail? ==> r.error == IndexError && InFrame(b, pheight)
    ensures InFrame(b, pheight) && b.lines != [] && b.lines[0].spans == [] ==> r.Fail?
    ensures r.Ok? && r.value.key != "" && r.value.value != "" ==>
      Cleaned(r.value.value) && Get(r.value.text, r.value.key) == Some(r.value.value)
    ensures r.Ok? ==> r.value.key == st.key || r.value.key in keys || r.value.key == References
    ensures r.Ok? ==>
      || r.value.text == st.text
      || (r.value.key != "" && Cleaned(r.value.value) && r.value.text == Put(st.text, r.value.key, r.value.value))
    ensures InFrame(b, pheight) && BodyLines(b.lines, keys) ==>
      && r.Ok? && r.value.key == st.key
      && exists v :: Squeeze(v) == Squeeze(st.value) + Squeeze(LinesTaken(b.lines, st.key, main)) &&
           r.value == Store(st.key, v, st.text)
  {
    var kv :- if InFrame(b, pheight) then LinesStep(b.lines, st.key, st.value, keys, main) else Ok((st.key, st.value));
    Ok(Store(kv.0, kv.1, st.text))
  }

  /** What holds of the scan at every block boundary: the key is empty, a
      section title or "references"; the dictionary has distinct keys
      drawn from the same, and cleaned texts. */
  ghost predicate Sound(st: Scan, keys: seq<string>) {
    && (st.key == "" || st.key in keys || st.key == References)
    && DistinctKeys(st.text)
    && SoundEntries(st.text, keys)
  }

  /** The dictionary part of `Sound`: every entry is a title (or
      "references") with a cleaned text. */
  ghost predicate SoundEntries(text: Dict<string, string>, keys: seq<string>) {
    forall i :: 0 <= i < |text| ==> (text[i].0 in keys || text[i].0 == References) && Cleaned(text[i].1)
  }

  /** Storing a cleaned text under a title keeps the dictionary sound. */
  lemma StoreSound(text: Dict<string, string>, k: string, c: string, keys: seq<string>)
    requires DistinctKeys(text) && SoundEntries(text, keys)
    requires k in keys || k == References
    requires Cleaned(c)
    ensures DistinctKeys(Put(text, k, c)) && SoundEntries(Put(text, k, c), keys)
  {
    var r := Put(text, k, c);
    if k in Keys(text) {
      forall i | 0 <= i < |r|
        ensures (r[i].0 in keys || r[i].0 == References) && Cleaned(r[i].1)
      {
        assert r[i] == (if text[i].0 == k then (k, c) else text[i]);
      }
    } else {
      PutNew(text, k, c);
      forall i | 0 <= i < |r|
        ensures (r[i].0 in keys || r[i].0 == References) && Cleaned(r[i].1)
      {
        if i < |text| {
          assert r[i] == text[i];
        }
      }
    }
  }

  lemma BlockStepSound(st: Scan, b: Block, pheight: real, keys: seq<string>, main: int)
    requires Sound(st, keys)
    ensures BlockStep(st, b, pheight, keys, main).Ok? ==> Sound(BlockStep(st, b, pheight, keys, main).value, keys)
  {
    var r := BlockStep(st, b, pheight, keys, main);
    if r.Ok? && r.value.text != st.text {
      StoreSound(st.text, r.value.key, r.value.value, keys);
    }
  }

  /** The blocks of every page, in order. */
  function AllBlocks(doc: Document): seq<Block> {
    if doc == [] then [] else doc[0].blocks + AllBlocks(doc[1..])
  }

  /** The scan over a sequence of blocks; an error stops it. */
  function ScanBlocks(blocks: seq<Block>, st: Scan, pheight: real, keys: seq<string>, main: int): (r: Result<Scan>)
    ensures r.Fail? ==> r.error == IndexError
  {
    if blocks == [] then Ok(st)
    else
      var next :- BlockStep(st, blocks[0], pheight, keys, main);
      ScanBlocks(blocks[1..], next, pheight, keys, main)
  }

  /** Soundness holds at every block boundary, hence at the end. */
  lemma {:induction false} ScanBlocksSound(blocks: seq<Block>, st: Scan, pheight: real, keys: seq<string>, main: int)
    requires Sound(st, keys)
    ensures ScanBlocks(blocks, st, pheight, keys, main).Ok? ==> Sound(ScanBlocks(blocks, st, pheight, keys, main).value, keys)
  {
    if blocks != [] {
      var next := BlockStep(st, blocks[0], pheight, keys, main);
      if next.Ok? {
        BlockStepSound(st, blocks[0], pheight, keys, main);
        ScanBlocksSound(blocks[1..], next.value, pheight, keys, main);
      }
    }
  }

  /** `text_extract(doc, sections)`, with `keys` the first components of
      `sections`: the first page's height frames every page, the main size
      is `get_main_font`'s.  The keys of the result are section titles or
      "references", each once, and every stored text is cleaned. */
  function TextExtract(doc: Document, keys: seq<string>): (r: Result<Dict<string, string>>)
    ensures r.Fail? ==> r.error == IndexError
    ensures doc == [] ==> r.Fail?
    ensures |Typography.Distinct(Typography.Sizes(DocSpans(doc)))| < 2 ==> r.Fail?
    ensures (doc != [] && AllBlocks(doc) != [] && InFrame(AllBlocks(doc)[0], doc[0].height) &&
             AllBlocks(doc)[0].lines != [] && AllBlocks(doc)[0].lines[0].spans == []) ==> r.Fail?
    ensures r.Ok? ==> DistinctKeys(r.value)
    ensures r.Ok? ==> forall i :: 0 <= i < |r.value| ==>
      (r.value[i].0 in keys || r.value[i].0 == References) && Cleaned(r.value[i].1)
  {
    if doc == [] then Fail(IndexError)
    else
      var main :- Typography.UtilsMainFont(doc);
      var st0 := Scan("", "", []);
      ScanBlocksSound(AllBlocks(doc), st0, doc[0].height, keys, main);
      var st :- ScanBlocks(AllBlocks(doc), st0, doc[0].height, keys, main);
      Ok(st.text)
  }

  // ---------------------------------------------------------------------
  // Properties of the scan

  /** Blocks outside the frame are not read: their lines make no
      difference. */
  lemma OutOfFrameIgnored(st: Scan, b: Block, pheight: real, keys: seq<string>, main: int)
    requires !InFrame(b, pheight)
    ensures BlockStep(st, b, pheight, keys, main) == BlockStep(st, b.(lines := []), pheight, keys, main)
  {
  }

  /** A caption line ends the block: the lines after it are not read. */
  lemma CaptionEndsBlock(line: Line, rest: seq<Line>, key: string, value: string, keys: seq<string>, main: int)
    requires line.spans != []
    requires Lower(line.spans[0].text) !in keys && Lower(line.spans[0].text) != References
    requires Caption(line.spans[0].text)
    ensures LinesStep([line] + rest, key, value, keys, main) == Ok((key, value))
  {
    assert ([line] + rest)[0] == line;
  }

  /** A section title line starts its section afresh, whatever came
      before, and contributes no text. */
  lemma TitleStartsSection(line: Line, rest: seq<Line>, key: string, value: string, keys: seq<string>, main: int)
    requires line.spans != [] && Lower(line.spans[0].text) in keys
    ensures LinesStep([line] + rest, key, value, keys, main) ==
      LinesStep(rest, Lower(line.spans[0].text), "", keys, main)
  {
    assert ([line] + rest)[0] == line && ([line] + rest)[1..] == rest;
  }

  /** "references" starts a section of its own only when no section of the
      outline is called that. */
  lemma ReferencesNeedsNoSuchSection(line: Line, rest: seq<Line>, key: string, value: string, keys: seq<string>, main: int)
    requires line.spans != [] && Lower(line.spans[0].text) == References && References !in keys
    ensures NoReferencesSection(keys) ==>
      LinesStep([line] + rest, key, value, keys, main) == LinesStep(rest, References, "", keys, main)
    ensures !NoReferencesSection(keys) && !Caption(line.spans[0].text) ==>
      LinesStep([line] + rest, key, value, keys, main) ==
      LinesStep(rest, key, Gather(line.spans, key, value, main), keys, main)
  {
    assert ([line] + rest)[0] == line && ([line] + rest)[1..] == rest;
  }

  /** A block inside the frame that holds a section title line and then a
      line of body text ends with the title as the key and, when the
      section takes some span of the second line, with the cleaned-up
      text of those spans (their texts in order, spaces aside) stored
      under it; otherwise nothing is stored. */
  lemma SectionStored(st: Scan, b: Block, pheight: real, keys: seq<string>, main: int)
    requires InFrame(b, pheight) && |b.lines| == 2
    requires b.lines[0].spans != [] && Lower(b.lines[0].spans[0].text) in keys
    requires b.lines[1].spans != [] && !TitleLine(b.lines[1], keys) && !Caption(b.lines[1].spans[0].text)
    ensures var k := Lower(b.lines[0].spans[0].text);
      (exists i :: 0 <= i < |b.lines[1].spans| && Takes(k, b.lines[1].spans[i].size, main)) ==>
      exists v :: Squeeze(v) == Squeeze(TakenText(b.lines[1].spans, k, main)) &&
        BlockStep(st, b, pheight, keys, main) == Ok(Scan(k, CleanValue(v), Put(st.text, k, CleanValue(v)))) &&
        Get(Put(st.text, k, CleanValue(v)), k) == Some(CleanValue(v))
    ensures var k := Lower(b.lines[0].spans[0].text);
      (forall i :: 0 <= i < |b.lines[1].spans| ==> !Takes(k, b.lines[1].spans[i].size, main)) ==>
      BlockStep(st, b, pheight, keys, main) == Ok(Scan(k, "", st.text))
  {
    var title := b.lines[0];
    var body := b.lines[1];
    var k := Lower(title.spans[0].text);
    var v := Gather(body.spans, k, "", main);
    var tail := b.lines[1..];
    assert LineStep(title, st.key, st.value, keys, main) == Ok(Go(k, ""));
    assert LinesStep(b.lines, st.key, st.value, keys, main) == LinesStep(tail, k, "", keys, main);
    assert tail[0] == body && tail[1..] == [];
    assert LineStep(body, k, "", keys, main) == Ok(Go(k, v));
    assert LinesStep(tail, k, "", keys, main) == LinesStep([], k, v, keys, main);
    BlockStepOf(st, b, pheight, keys, main, k, v);
    GatherFromEmpty(body.spans, k, main);
    if v != "" {
      GatherText(body.spans, k, "", main);
      var i :| 0 <= i < |body.spans| && Takes(k, body.spans[i].size, main);
      assert k != "";
      assert Squeeze(v) == Squeeze(TakenText(body.spans, k, main));
    }
  }

  /** The block step once its lines are read. */
  lemma BlockStepOf(st: Scan, b: Block, pheight: real, keys: seq<string>, main: int, k: string, v: string)
    requires InFrame(b, pheight) && LinesStep(b.lines, st.key, st.value, keys, main) == Ok((k, v))
    ensures BlockStep(st, b, pheight, keys, main) == Ok(Store(k, v, st.text))
  {
  }
  /** A document of one page holding one such block, whose body line has
      spans of the main size: `text_extract` maps the title to the
      cleaned-up text of those spans. */
  lemma SingleSectionDocument(doc: Document, keys: seq<string>)
    requires OneSectionPage(doc, keys) && Typography.UtilsMainFont(doc).Ok?
    requires var b := doc[0].blocks[0];
      exists i :: 0 <= i < |b.lines[1].spans| &&
        Takes(Lower(b.lines[0].spans[0].text), b.lines[1].spans[i].size, Typography.UtilsMainFont(doc).value)
    ensures var b := doc[0].blocks[0];
      var k, main := Lower(b.lines[0].spans[0].text), Typography.UtilsMainFont(doc).value;
      exists v :: Squeeze(v) == Squeeze(TakenText(b.lines[1].spans, k, main)) &&
        TextExtract(doc, keys) == Ok([(k, CleanValue(v))])
  {
    var b := doc[0].blocks[0];
    var k, main := Lower(b.lines[0].spans[0].text), Typography.UtilsMainFont(doc).value;
    OnePageBlocks(doc);
    assert AllBlocks(doc) == [b];
    OneBlockScan(b, doc[0].height, keys, main);
    var v :| Squeeze(v) == Squeeze(TakenText(b.lines[1].spans, k, main)) &&
      ScanBlocks([b], Scan("", "", []), doc[0].height, keys, main) == Ok(Scan(k, CleanValue(v), [(k, CleanValue(v))]));
    TextExtractScan(doc, keys, Scan(k, CleanValue(v), [(k, CleanValue(v))]));
  }

  /** The same document whose body line has no span of the main size:
      `text_extract` returns an empty dictionary. */
  lemma EmptySectionDocument(doc: Document, keys: seq<string>)
    requires OneSectionPage(doc, keys) && Typography.UtilsMainFont(doc).Ok?
    requires var b := doc[0].blocks[0];
      forall i :: 0 <= i < |b.lines[1].spans| ==>
        !Takes(Lower(b.lines[0].spans[0].text), b.lines[1].spans[i].size, Typography.UtilsMainFont(doc).value)
    ensures TextExtract(doc, keys) == Ok([])
  {
    var b := doc[0].blocks[0];
    var k, main := Lower(b.lines[0].spans[0].text), Typography.UtilsMainFont(doc).value;
    OnePageBlocks(doc);
    assert AllBlocks(doc) == [b];
    OneBlockScan(b, doc[0].height, keys, main);
    TextExtractScan(doc, keys, Scan(k, "", []));
  }

  /** One page holding one block inside the frame: a section title line,
      then a line of body text. */
  predicate OneSectionPage(doc: Document, keys: seq<string>) {
    && |doc| == 1 && |doc[0].blocks| == 1
    && var b := doc[0].blocks[0];
      && InFrame(b, doc[0].height) && |b.lines| == 2
      && b.lines[0].spans != [] && Lower(b.lines[0].spans[0].text) in keys
      && b.lines[1].spans != [] && !TitleLine(b.lines[1], keys) && !Caption(b.lines[1].spans[0].text)
  }

  lemma OnePageBlocks(doc: Document)
    requires |doc| == 1 && |doc[0].blocks| == 1
    ensures AllBlocks(doc) == [doc[0].blocks[0]]
  {
    assert doc[1..] == [];
    assert doc[0].blocks == [doc[0].blocks[0]];
  }

  /** The scan of that one block, from the empty start. */
  lemma OneBlockScan(b: Block, pheight: real, keys: seq<string>, main: int)
    requires InFrame(b, pheight) && |b.lines| == 2
    requires b.lines[0].spans != [] && Lower(b.lines[0].spans[0].text) in keys
    requires b.lines[1].spans != [] && !TitleLine(b.lines[1], keys) && !Caption(b.lines[1].spans[0].text)
    ensures var k := Lower(b.lines[0].spans[0].text);
      (exists i :: 0 <= i < |b.lines[1].spans| && Takes(k, b.lines[1].spans[i].size, main)) ==>
      exists v :: Squeeze(v) == Squeeze(TakenText(b.lines[1].spans, k, main)) &&
        ScanBlocks([b], Scan("", "", []), pheight, keys, main) == Ok(Scan(k, CleanValue(v), [(k, CleanValue(v))]))
    ensures var k := Lower(b.lines[0].spans[0].text);
      (forall i :: 0 <= i < |b.lines[1].spans| ==> !Takes(k, b.lines[1].spans[i].size, main)) ==>
      ScanBlocks([b], Scan("", "", []), pheight, keys, main) == Ok(Scan(k, "", []))
  {
    var k := Lower(b.lines[0].spans[0].text);
    var st0 := Scan("", "", []);
    SectionStored(st0, b, pheight, keys, main);
    ScanOne(b, st0, pheight, keys, main);
    if exists i :: 0 <= i < |b.lines[1].spans| && Takes(k, b.lines[1].spans[i].size, main) {
      var v :| Squeeze(v) == Squeeze(TakenText(b.lines[1].spans, k, main)) &&
        BlockStep(st0, b, pheight, keys, main) == Ok(Scan(k, CleanValue(v), Put([], k, CleanValue(v))));
      assert Put([], k, CleanValue(v)) == [(k, CleanValue(v))];
    }
  }

  /** The scan of a single block is its block step. */
  lemma ScanOne(b: Block, st: Scan, pheight: real, keys: seq<string>, main: int)
    ensures ScanBlocks([b], st, pheight, keys, main) == BlockStep(st, b, pheight, keys, main)
  {
    assert [b][1..] == [];
  }

  /** `text_extract` returns the dictionary the scan of all blocks ends
      with. */
  lemma TextExtractScan(doc: Document, keys: seq<string>, st: Scan)
    requires doc != [] && Typography.UtilsMainFont(doc).Ok?
    requires ScanBlocks(AllBlocks(doc), Scan("", "", []), doc[0].height, keys, Typography.UtilsMainFont(doc).value) == Ok(st)
    ensures TextExtract(doc, keys) == Ok(st.text)
  {
  }
}

=== FILE: spans.dfy ===
/** `get_span` of app/text_extractor.py: the spans of one line merged left
    to right into runs of the same style, then each run's text cleaned.
 */
module Spans {
  import opened Base
  import opened Chars
  import opened Subst
  import opened Layout

  /** A merged span: the dictionary `{'text', 'font', 'size'}`. */
  datatype Run = Run(text: string, font: string, size: real)

  // ---------------------------------------------------------------------
  // Reading one span

  /** The escape text `\xad` or `\xa0` (a backslash and three letters, as
      it appears in the extracted text). */
  const XaEscape: seq<Cls> := [Is('\\'), Is('x'), Is('a'), OneOf("d0")]

  /** The escape text `\u2000` .. `\u2009`, `\u200a` (a backslash, a `u`
      and four hex digits, as it appears in the extracted text). */
  const U200Escape: seq<Cls> := [Is('\\'), Is('u'), Is('2'), Is('0'), Is('0'), OneOf("0123456789a")]

  /** `re.match(r'[\s\t]+$', t)`: a non-empty text of whitespace only (a
      final newline is whitespace as well). */
  predicate Blank(t: string) {
    t != [] && forall i :: 0 <= i < |t| ==> IsSpace(t[i])
  }

  /** The two line substitutions applied to a span's text: a line holding
      an `\xa?` escape is deleted, then a line holding a `\u200?` escape
      becomes one space. */
  function EscapeLines(t: string): (r: string)
    ensures !Contains(t, XaEscape) && !Contains(t, U200Escape) ==> r == t
  {
    ReplaceLines(ReplaceLines(t, XaEscape, ""), U200Escape, " ")
  }

  /** A span as the loop reads it: the font cut at its first '+' (the
      subset prefix), the text with its escapes replaced. */
  function Prepare(s: Span): (r: Run)
    ensures '+' !in r.font
    ensures '\n' !in s.font ==> r.font == s.font[..FindFrom(s.font, '+', 0)]
    ensures !Contains(s.text, XaEscape) && !Contains(s.text, U200Escape) ==> r.text == s.text
    ensures r.size == s.size
  {
    Run(EscapeLines(s.text), CutAtPlus(s.font), s.size)
  }

  // ---------------------------------------------------------------------
  // The patterns of the merge rules

  /** `([A-Z]+\s)+` matched against the whole of `w`: runs of capitals,
      each followed by exactly one whitespace character. */
  predicate CapGroups(w: string)
    decreases |w|
  {
    var k := UpperEnd(w, 0);
    k >= 1 && k < |w| && IsSpace(w[k]) && (k + 1 == |w| || CapGroups(w[k + 1..]))
  }

  /** `(([A-Z]+\s)+)?[A-Z]` matched against the whole of `v`. */
  predicate AbbreviationBody(v: string) {
    |v| >= 1 && IsUpper(v[|v| - 1]) && (|v| == 1 || CapGroups(v[..|v| - 1]))
  }

  /** `re.match(r"(([A-Z]+\s)+)?[A-Z]$", u)`: `$` also matches before a
      final newline. */
  predicate IsAbbreviation(u: string) {
    AbbreviationBody(u) || (|u| >= 1 && u[|u| - 1] == '\n' && AbbreviationBody(u[..|u| - 1]))
  }

  predicate AllUpper(v: string) {
    |v| >= 1 && forall i :: 0 <= i < |v| ==> IsUpper(v[i])
  }

  /** `re.match(r"[A-Z]+$", t)`. */
  predicate IsCapitals(t: string) {
    AllUpper(t) || (|t| >= 1 && t[|t| - 1] == '\n' && AllUpper(t[..|t| - 1]))
  }

  /** The glyphs `ﬁ`, `ﬂ` and the em dash, which join without a space. */
  predicate IsJoinGlyph(c: char) {
    c == LigatureFi || c == LigatureFl || c == '\U{2014}'
  }

  /** A join glyph at `i`, then an optional whitespace, then `$`. */
  predicate GlyphEndsAt(t: string, i: nat) {
    i < |t| && IsJoinGlyph(t[i]) &&
    (AtEnd(t, i + 1) || (i + 1 < |t| && IsSpace(t[i + 1]) && AtEnd(t, i + 2)))
  }

  /** `re.match(r"(\s)?[ﬁﬂ—](\s)?$", t)`. */
  predicate GlyphOnly(t: string) {
    GlyphEndsAt(t, 0) || (|t| >= 1 && IsSpace(t[0]) && GlyphEndsAt(t, 1))
  }

  /** `len(t) > 1 and re.match(r"^\s[A-Z]$", t[-2:])`. */
  predicate EndsSpaceCapital(t: string) {
    |t| > 1 && IsSpace(t[|t| - 2]) && IsUpper(t[|t| - 1])
  }

  // ---------------------------------------------------------------------
  // The merge

  /** What happens to the running span when the next span arrives. */
  datatype Step = Extend(run: Run) | Break

  /** One iteration of the merge loop, its branches in the code's order:
      1. the running text, stripped of `[ ,.:?!]`, is an abbreviation:
         append the next text with no space and take its font and size;
      2. the style changes: a text of capitals is appended after a space,
         anything else starts a new run;
      3. the next text is a lone join glyph, or the running text ends in
         one: append with no space (`span["text"][-1]` raises on an empty
         running text);
      4. same style: no space when the next text starts with a space, the
         running text ends with one, or it ends in whitespace and a
         capital; otherwise one space (`s["text"][0]` raises on an empty
         next text). */
  function Merge(acc: Run, next: Run): (r: Result<Step>)
    ensures r.Fail? ==> r.error == IndexError
    ensures r.Fail? ==> acc.text == [] || next.text == []
    ensures r.Ok? && r.value.Extend? ==>
      r.value.run.text == acc.text + next.text || r.value.run.text == acc.text + " " + next.text
    ensures r.Ok? && r.value.Extend? ==>
      (r.value.run.font, r.value.run.size) in {(acc.font, acc.size), (next.font, next.size)}
    ensures r.Ok? && r.value.Break? ==> acc.font != next.font || acc.size != next.size
  {
    if IsAbbreviation(StripChars(acc.text, Punctuation)) then
      Ok(Extend(Run(acc.text + next.text, next.font, next.size)))
    else if acc.font != next.font || acc.size != next.size then
      if IsCapitals(next.text) then Ok(Extend(acc.(text := acc.text + " " + next.text)))
      else Ok(Break)
    else if GlyphOnly(next.text) then Ok(Extend(acc.(text := acc.text + next.text)))
    else if acc.text == [] then Fail(IndexError)
    else if IsJoinGlyph(acc.text[|acc.text| - 1]) then Ok(Extend(acc.(text := acc.text + next.text)))
    else if next.text == [] then Fail(IndexError)
    else if next.text[0] == ' ' || acc.text[|acc.text| - 1] == ' ' || EndsSpaceCapital(acc.text) then
      Ok(Extend(acc.(text := acc.text + next.text)))
    else Ok(Extend(acc.(text := acc.text + " " + next.text)))
  }

  /** The spans the loop does not skip. */
  function NonBlank(spans: seq<Span>): (r: seq<Span>)
    ensures forall s :: s in r <==> s in spans && !Blank(s.text)
    ensures |r| <= |spans|
  {
    if spans == [] then []
    else (if Blank(spans[0].text) then [] else [spans[0]]) + NonBlank(spans[1..])
  }

  /** All texts of some runs, one after the other. */
  function Concat(runs: seq<Run>): string {
    if runs == [] then [] else runs[0].text + Concat(runs[1..])
  }

  /** All prepared texts of the spans that are not skipped. */
  function InputText(spans: seq<Span>): string {
    if spans == [] then []
    else (if Blank(spans[0].text) then [] else Prepare(spans[0]).text) + InputText(spans[1..])
  }

  function AccText(acc: Option<Run>): string {
    if acc.Some? then acc.value.text else []
  }

  /** The merge loop from the running span `acc` on, with the final
      `spans.append(span)`; blank spans are skipped. */
  function Fold(spans: seq<Span>, acc: Option<Run>): (r: Result<seq<Run>>)
    ensures r.Fail? ==> r.error == IndexError
  {
    if spans == [] then
      Ok(if acc.Some? then [acc.value] else [])
    else if Blank(spans[0].text) then
      Fold(spans[1..], acc)
    else
      var next := Prepare(spans[0]);
      match acc
      case None =>
        Fold(spans[1..], Some(next))
      case Some(a) =>
        var step :- Merge(a, next);
        match step
        case Extend(run) =>
          Fold(spans[1..], Some(run))
        case Break =>
          var rest :- Fold(spans[1..], Some(next));
          Ok([a] + rest)
  }

  /** The runs' texts hold the input texts in order, with only spaces
      added between them. */
  lemma {:induction false} FoldText(spans: seq<Span>, acc: Option<Run>)
    ensures Fold(spans, acc).Ok? ==>
      Squeeze(Concat(Fold(spans, acc).value)) == Squeeze(AccText(acc) + InputText(spans))
  {
    if spans == [] {
      if acc.Some? {
        assert Concat([acc.value]) == acc.value.text + Concat([]);
      }
    } else if Blank(spans[0].text) {
      assert Fold(spans, acc) == Fold(spans[1..], acc);
      assert InputText(spans) == InputText(spans[1..]);
      FoldText(spans[1..], acc);
    } else {
      var next := Prepare(spans[0]);
      var tail := InputText(spans[1..]);
      assert InputText(spans) == next.text + tail;
      match acc
      case None =>
        FoldText(spans[1..], Some(next));
        assert AccText(acc) + InputText(spans) == next.text + tail;
      case Some(a) =>
        assert AccText(acc) + InputText(spans) == a.text + (next.text + tail);
        var step := Merge(a, next);
        if step.Ok? {
          match step.value
          case Extend(run) =>
            assert Fold(spans, acc) == Fold(spans[1..], Some(run));
            FoldText(spans[1..], Some(run));
            ExtendSqueeze(a.text, next.text, run.text, tail);
          case Break =>
            FoldText(spans[1..], Some(next));
            var rest := Fold(spans[1..], Some(next));
            if rest.Ok? {
              assert Fold(spans, acc) == Ok([a] + rest.value);
              BreakSqueeze(a, rest.value, next.text, tail);
            }
        }
    }
  }

  /** Every font of a run comes from a prepared span, so none holds '+'. */
  lemma {:induction false} FoldFonts(spans: seq<Span>, acc: Option<Run>)
    requires acc.Some? ==> '+' !in acc.value.font
    ensures Fold(spans, acc).Ok? ==>
      forall k :: 0 <= k < |Fold(spans, acc).value| ==> '+' !in Fold(spans, acc).value[k].font
  {
    if spans != [] {
      if Blank(spans[0].text) {
        FoldFonts(spans[1..], acc);
      } else {
        var next := Prepare(spans[0]);
        match acc
        case None =>
          FoldFonts(spans[1..], Some(next));
        case Some(a) =>
          var step := Merge(a, next);
          if step.Ok? {
            match step.value
            case Extend(run) =>
              FoldFonts(spans[1..], Some(run));
            case Break =>
              FoldFonts(spans[1..], Some(next));
          }
      }
    }
  }

  /** The loop yields no run exactly when it never had a span to start one. */
  lemma {:induction false} FoldEmpty(spans: seq<Span>, acc: Option<Run>)
    ensures Fold(spans, acc).Ok? ==>
      (Fold(spans, acc).value == [] <==> acc.None? && NonBlank(spans) == [])
  {
    if spans != [] {
      if Blank(spans[0].text) {
        FoldEmpty(spans[1..], acc);
      } else {
        var next := Prepare(spans[0]);
        assert spans[0] in NonBlank(spans);
        match acc
        case None =>
          FoldEmpty(spans[1..], Some(next));
        case Some(a) =>
          var step := Merge(a, next);
          if step.Ok? {
            match step.value
            case Extend(run) =>
              FoldEmpty(spans[1..], Some(run));
            case Break =>
          }
      }
    }
  }

  /** Extending the running text keeps the squeezed text. */
  lemma ExtendSqueeze(a: string, n: string, t: string, tail: string)
    requires t == a + n || t == a + " " + n
    ensures Squeeze(t + tail) == Squeeze(a + (n + tail))
  {
    if t == a + n {
      assert t + tail == a + (n + tail);
    } else {
      SpaceSqueeze(a, n, tail);
    }
  }

  /** A space put between two texts disappears in the squeezed text. */
  lemma SpaceSqueeze(a: string, n: string, tail: string)
    ensures Squeeze(a + " " + n + tail) == Squeeze(a + (n + tail))
  {
    var u := n + tail;
    assert a + " " + n + tail == a + (" " + u);
    assert (" " + u)[1..] == u;
    assert Squeeze(" " + u) == Squeeze(u);
    SqueezeConcat(a, " " + u);
    SqueezeConcat(a, u);
  }

  /** Closing a run puts its text in front of the later runs' texts. */
  lemma BreakSqueeze(a: Run, rest: seq<Run>, n: string, tail: string)
    requires Squeeze(Concat(rest)) == Squeeze(n + tail)
    ensures Squeeze(Concat([a] + rest)) == Squeeze(a.text + (n + tail))
  {
    assert Concat([a] + rest) == a.text + Concat(rest) by {
      assert ([a] + rest)[1..] == rest;
    }
    SqueezeConcat(a.text, Concat(rest));
    SqueezeConcat(a.text, n + tail);
  }

  /** Blank spans make no difference: the loop over all spans is the loop
      over the spans it does not skip. */
  lemma {:induction false} FoldSkipsBlank(spans: seq<Span>, acc: Option<Run>)
    ensures Fold(spans, acc) == Fold(NonBlank(spans), acc)
  {
    if spans != [] {
      var rest := NonBlank(spans[1..]);
      FoldSkipsBlank(spans[1..], acc);
      if Blank(spans[0].text) {
        assert NonBlank(spans) == rest;
      } else {
        assert NonBlank(spans) == [spans[0]] + rest;
        assert NonBlank(spans)[1..] == rest;
        match acc
        case None =>
          FoldSkipsBlank(spans[1..], Some(Prepare(spans[0])));
        case Some(a) =>
          var step := Merge(a, Prepare(spans[0]));
          if step.Ok? {
            match step.value
            case Extend(run) =>
              FoldSkipsBlank(spans[1..], Some(run));
            case Break =>
              FoldSkipsBlank(spans[1..], Some(Prepare(spans[0])));
          }
      }
    }
  }

  /** Every span that is not skipped keeps some text after its escapes
      are replaced. */
  predicate Readable(spans: seq<Span>) {
    forall i :: 0 <= i < |spans| && !Blank(spans[i].text) ==> Prepare(spans[i]).text != []
  }

  /** The `IndexError`s need an empty text: with a non-empty running text
      and readable spans the loop always succeeds. */
  lemma {:induction false} FoldSucceeds(spans: seq<Span>, acc: Option<Run>)
    requires acc.Some? ==> acc.value.text != []
    requires Readable(spans)
    ensures Fold(spans, acc).Ok?
  {
    if spans != [] {
      assert Readable(spans[1..]) by {
        forall i | 0 <= i < |spans[1..]| && !Blank(spans[1..][i].text)
          ensures Prepare(spans[1..][i]).text != []
        {
          assert spans[1..][i] == spans[i + 1];
        }
      }
      if Blank(spans[0].text) {
        FoldSucceeds(spans[1..], acc);
      } else {
        var next := Prepare(spans[0]);
        assert next.text != [];
        match acc
        case None =>
          FoldSucceeds(spans[1..], Some(next));
        case Some(a) =>
          var step := Merge(a, next);
          assert step.Ok?;
          match step.value
          case Extend(run) =>
            FoldSucceeds(spans[1..], Some(run));
          case Break =>
            FoldSucceeds(spans[1..], Some(next));
      }
    }
  }

  /** Spans of the running span's font and size: every prepared span has
      it and some text. */
  predicate SameStyle(spans: seq<Span>, font: string, size: real) {
    forall i :: 0 <= i < |spans| && !Blank(spans[i].text) ==>
      Prepare(spans[i]).font == font && Prepare(spans[i]).size == size && Prepare(spans[i]).text != []
  }

  /** A new run starts only at a change of style: spans that all share the
      running span's style end up in that single run. */
  lemma {:induction false} SameStyleOneRun(spans: seq<Span>, acc: Run)
    requires acc.text != []
    requires SameStyle(spans, acc.font, acc.size)
    ensures Fold(spans, Some(acc)).Ok?
    ensures |Fold(spans, Some(acc)).value| == 1
    ensures Fold(spans, Some(acc)).value[0].font == acc.font
    ensures Fold(spans, Some(acc)).value[0].size == acc.size
  {
    if spans != [] {
      assert SameStyle(spans[1..], acc.font, acc.size) by {
        forall i | 0 <= i < |spans[1..]| && !Blank(spans[1..][i].text)
          ensures Prepare(spans[1..][i]).font == acc.font && Prepare(spans[1..][i]).size == acc.size
          ensures Prepare(spans[1..][i]).text != []
        {
          assert spans[1..][i] == spans[i + 1];
        }
      }
      if Blank(spans[0].text) {
        SameStyleOneRun(spans[1..], acc);
      } else {
        var next := Prepare(spans[0]);
        var step := Merge(acc, next);
        assert step.Ok? && step.value.Extend?;
        SameStyleOneRun(spans[1..], step.value.run);
      }
    }
  }

  /** An abbreviation such as "U.S." (a capital after stripping `[ ,.:?!]`)
      is glued to the next span with no space, which lends it its font
      and size; the glued text is then cleaned. */
  lemma AbbreviationJoins(s1: Span, s2: Span)
    requires !Blank(s1.text) && !Blank(s2.text)
    requires IsAbbreviation(StripChars(Prepare(s1).text, Punctuation))
    ensures GetSpan(Line([s1, s2])) ==
      Ok([Run(Tidy(Prepare(s1).text + Prepare(s2).text), Prepare(s2).font, s2.size)])
  {
    var p1, p2 := Prepare(s1), Prepare(s2);
    var run := Run(p1.text + p2.text, p2.font, p2.size);
    AbbreviationFold(s1, s2);
    GetSpanOneRun(Line([s1, s2]), run);
  }

  /** The loop over an abbreviation span and one more span makes one run. */
  lemma AbbreviationFold(s1: Span, s2: Span)
    requires !Blank(s1.text) && !Blank(s2.text)
    requires IsAbbreviation(StripChars(Prepare(s1).text, Punctuation))
    ensures Fold([s1, s2], None) == Ok([Run(Prepare(s1).text + Prepare(s2).text, Prepare(s2).font, Prepare(s2).size)])
  {
    var p1, p2 := Prepare(s1), Prepare(s2);
    var run := Run(p1.text + p2.text, p2.font, p2.size);
    assert Merge(p1, p2) == Ok(Extend(run));
    assert [s1, s2][1..] == [s2];
    assert [s2][1..] == [];
    assert Fold([s1, s2], None) == Fold([s2], Some(p1));
    assert Fold([s2], Some(p1)) == Fold([], Some(run));
  }

  /** A line whose loop makes one run yields that run, tidied. */
  lemma GetSpanOneRun(line: Line, run: Run)
    requires Fold(line.spans, None) == Ok([run])
    ensures GetSpan(line) == Ok([run.(text := Tidy(run.text))])
  {
    TidyOneRun(run);
  }

  lemma TidyOneRun(run: Run)
    ensures TidyRuns([run]) == [run.(text := Tidy(run.text))]
  {
    assert [run][1..] == [];
  }

  /** A span without escapes and with a plain font name is read as it is. */
  lemma PlainSpan(s: Span)
    requires '\\' !in s.text && '+' !in s.font && '\n' !in s.font
    ensures Prepare(s) == Run(s.text, s.font, s.size)
  {
    AbsentNoMatch(s.text, XaEscape, 0);
    AbsentNoMatch(s.text, U200Escape, 0);
    var k := FindFrom(s.font, '+', 0);
    forall i | 0 <= i < |s.font|
      ensures s.font[i] != '+'
    {
      assert s.font[i] in s.font;
    }
    assert s.font[..k] == s.font;
  }

  /** Two runs of one style can sit side by side, although the comment on
      `get_span` (line 151) says every run differs from the others in font,
      size or both: a span that changes style ends the run before it, and
      an abbreviation-like text (such as "B.") then absorbs the next span
      and takes its style, the style of that earlier run. */
  lemma StylesMayRepeat(a: string, b: string, w: string, f1: string, f2: string, z: real, box: Rect)
    requires f1 != f2 && '+' !in f1 + f2 && '\n' !in f1 + f2
    requires PlainText(a) && PlainText(b) && PlainText(w)
    requires !IsAbbreviation(StripChars(a, Punctuation)) && !IsCapitals(b)
    requires IsAbbreviation(StripChars(b, Punctuation))
    ensures GetSpan(Line([Span(a, f1, z, 0, box), Span(b, f2, z, 0, box), Span(w, f1, z, 0, box)]))
      == Ok([Run(a, f1, z), Run(b + w, f1, z)])
  {
    var s1, s2, s3 := Span(a, f1, z, 0, box), Span(b, f2, z, 0, box), Span(w, f1, z, 0, box);
    var spans := [s1, s2, s3];
    PlainSpan(s1);
    PlainSpan(s2);
    PlainSpan(s3);
    var p1, p2, p3 := Prepare(s1), Prepare(s2), Prepare(s3);
    assert !Blank(a) && !Blank(b) && !Blank(w) by {
      assert !IsSpace(a[0]) && !IsSpace(b[0]) && !IsSpace(w[0]);
    }
    var run := Run(b + w, f1, z);
    MergeStyleBreak(p1, p2);
    MergeAbbreviation(p2, p3);
    FoldThree(s1, s2, s3, run);
    PlainConcat(b, w);
    PlainTidy(a);
    PlainTidy(b + w);
    GetSpanTwoRuns(Line(spans), p1, run);
  }

  lemma MergeStyleBreak(acc: Run, next: Run)
    requires !IsAbbreviation(StripChars(acc.text, Punctuation))
    requires acc.font != next.font || acc.size != next.size
    requires !IsCapitals(next.text)
    ensures Merge(acc, next) == Ok(Break)
  {
  }

  lemma MergeAbbreviation(acc: Run, next: Run)
    requires IsAbbreviation(StripChars(acc.text, Punctuation))
    ensures Merge(acc, next) == Ok(Extend(Run(acc.text + next.text, next.font, next.size)))
  {
  }

  lemma FoldThree(s1: Span, s2: Span, s3: Span, run: Run)
    requires !Blank(s1.text) && !Blank(s2.text) && !Blank(s3.text)
    requires Merge(Prepare(s1), Prepare(s2)) == Ok(Break)
    requires Merge(Prepare(s2), Prepare(s3)) == Ok(Extend(run))
    ensures Fold([s1, s2, s3], None) == Ok([Prepare(s1), run])
  {
    var spans := [s1, s2, s3];
    assert spans[1..] == [s2, s3];
    FoldLast(s3, Prepare(s2), run);
    FoldBreakLast(s2, s3, Prepare(s1), run);
    FoldFirst(spans);
  }

  lemma FoldBreakLast(s2: Span, s3: Span, acc: Run, run: Run)
    requires !Blank(s2.text) && Merge(acc, Prepare(s2)) == Ok(Break)
    requires Fold([s3], Some(Prepare(s2))) == Ok([run])
    ensures Fold([s2, s3], Some(acc)) == Ok([acc, run])
  {
    assert [s2, s3][1..] == [s3];
    assert [acc] + [run] == [acc, run];
  }

  lemma FoldFirst(spans: seq<Span>)
    requires spans != [] && !Blank(spans[0].text)
    ensures Fold(spans, None) == Fold(spans[1..], Some(Prepare(spans[0])))
  {
  }

  lemma FoldLast(s: Span, acc: Run, run: Run)
    requires !Blank(s.text) && Merge(acc, Prepare(s)) == Ok(Extend(run))
    ensures Fold([s], Some(acc)) == Ok([run])
  {
    assert [s][1..] == [];
  }

  lemma GetSpanTwoRuns(line: Line, r1: Run, r2: Run)
    requires Fold(line.spans, None) == Ok([r1, r2])
    ensures GetSpan(line) == Ok([r1.(text := Tidy(r1.text)), r2.(text := Tidy(r2.text))])
  {
    TidyTwoRuns(r1, r2);
  }

  lemma TidyTwoRuns(r1: Run, r2: Run)
    ensures TidyRuns([r1, r2]) == [r1.(text := Tidy(r1.text)), r2.(text := Tidy(r2.text))]
  {
    assert [r1, r2][1..] == [r2] && [r2][1..] == [];
  }

  /** The texts "hello", "B." and "world" meet the conditions above: the
      three are plain, */
  lemma StylesMayRepeatPlain()
    ensures PlainText("hello") && PlainText("B.") && PlainText("world")
  {
  }

  /** "hello" is not an abbreviation and "B." is not in capitals, */
  lemma StylesMayRepeatBreak()
    ensures !IsAbbreviation(StripChars("hello", Punctuation)) && !IsCapitals("B.")
  {
    assert StripChars("hello", Punctuation) == "hello" by {
      assert LeadLen("hello", c => c in Punctuation) == 0;
      assert TrailLen("hello", c => c in Punctuation) == 0;
    }
    var u := "hello";
    assert u[|u| - 1] == 'o' && !IsUpper('o');
    assert !AbbreviationBody(u);
    assert !IsAbbreviation(u);
    var b := "B.";
    assert b[1] == '.' && !IsUpper('.') && !AllUpper(b);
  }

  /** and "B." is an abbreviation. */
  lemma StylesMayRepeatAbbreviation()
    ensures IsAbbreviation(StripChars("B.", Punctuation))
  {
    assert StripChars("B.", Punctuation) == "B" by {
      assert TrailLen("B.", c => c in Punctuation) == 1;
    }
  }

  /** A non-empty text with no whitespace, backslash, bracket, parenthesis
      or ligature. */
  predicate PlainText(t: string) {
    t != [] && forall c :: c in t ==> !IsSpace(c) && c !in "\\[()" && !IsLigature(c)
  }

  lemma PlainConcat(a: string, b: string)
    requires PlainText(a) && PlainText(b)
    ensures PlainText(a + b)
  {
    forall c | c in a + b
      ensures !IsSpace(c) && c !in "\\[()" && !IsLigature(c)
    {
      assert c in a || c in b;
    }
  }

  /** A plain text comes out of the clean-up unchanged. */
  lemma PlainTidy(t: string)
    requires PlainText(t)
    ensures Tidy(t) == t
  {
    AbsentNoMatch(t, U200Escape, 0);
    AbsentNoMatch(t, [Is('('), Space], 0);
    AbsentNoMatch(t, [Space, Is(')')], 1);
    assert t[0] in t && t[|t| - 1] in t;
    assert Stripped(t);
    assert SingleSpaced(t) by {
      forall i | 0 <= i < |t|
        ensures !IsSpace(t[i])
      {
        assert t[i] in t;
      }
    }
    assert SettledRun(t);
    assert LigatureFi !in t && LigatureFl !in t;
  }

  // ---------------------------------------------------------------------
  // Cleaning a run's text

  /** The clean-up applied to every run's text: strip; runs of `\u200?`
      escapes become one space; both citation forms are deleted; the
      space after '(' and before ')' is dropped; whitespace runs become
      one space; the ligatures are spelt out.  A settled text comes back
      with only its ligatures spelt out. */
  function Tidy(t: string): (r: string)
    ensures LigatureFi !in r && LigatureFl !in r
    ensures SingleSpaced(r)
    ensures SettledRun(t) ==> r == ExpandLigatures(t)
    ensures SettledRun(t) && LigatureFi !in t && LigatureFl !in t ==> r == t
  {
    var f := TidySpacing(t);
    SpellLigatures(f);
    if SettledRun(t) && LigatureFi !in t && LigatureFl !in t then
      ExpandNoLigatures(t);
      SubAll(SubAll(f, [Is(LigatureFi)], "fi"), [Is(LigatureFl)], "fl")
    else SubAll(SubAll(f, [Is(LigatureFi)], "fi"), [Is(LigatureFl)], "fl")
  }

  /** The two ligature substitutions of lines 207-208 keep a text single
      spaced and spell out its ligatures. */
  lemma SpellLigatures(f: string)
    requires SingleSpaced(f)
    ensures var r := SubAll(SubAll(f, [Is(LigatureFi)], "fi"), [Is(LigatureFl)], "fl");
      LigatureFi !in r && LigatureFl !in r && SingleSpaced(r) && r == ExpandLigatures(f)
  {
    var g := SubAll(f, [Is(LigatureFi)], "fi");
    SubAllRemoves(f, LigatureFi, "fi");
    SubCharSingleSpaced(f, LigatureFi, "fi");
    SubAllRemoves(g, LigatureFl, "fl");
    SubCharSingleSpaced(g, LigatureFl, "fl");
    LigaturesSpelt(f);
  }

  /** The clean-up up to the ligatures (lines 196-205). */
  function TidySpacing(t: string): (r: string)
    ensures SingleSpaced(r)
    ensures SettledRun(t) ==> r == t
  {
    var a := Strip(t);
    var b := SubRuns(a, U200Escape, " ");
    var c := DropCitations(DropCitations(b, DigitList), DigitRange);
    var d := SubAll(c, [Is('('), Space], "(");
    var e := SubAll(d, [Space, Is(')')], ")");
    SettledRunSpacing(t);
    CollapseSpaces(e)
  }

  /** A run text that the clean-up only has ligatures to repair: no
      whitespace at either end or in a run of two, no escape, no '[', and
      no space after '(' or before ')'. */
  predicate SettledRun(t: string) {
    && Stripped(t) && SingleSpaced(t) && '[' !in t
    && !Contains(t, U200Escape) && !Contains(t, [Is('('), Space]) && !Contains(t, [Space, Is(')')])
  }

  /** None of the substitutions before the ligatures finds anything in a
      settled text. */
  lemma SettledRunSpacing(t: string)
    ensures SettledRun(t) ==>
      CollapseSpaces(SubAll(SubAll(DropCitations(DropCitations(SubRuns(Strip(t), U200Escape, " "),
        DigitList), DigitRange), [Is('('), Space], "("), [Space, Is(')')], ")")) == t
  {
    if SettledRun(t) {
      StripOfStripped(t);
      assert SubRuns(t, U200Escape, " ") == t;
      assert DropCitations(t, DigitList) == t;
      assert DropCitations(t, DigitRange) == t;
      assert SubAll(t, [Is('('), Space], "(") == t;
      assert SubAll(t, [Space, Is(')')], ")") == t;
      CollapseSingleSpaced(t);
    }
  }

  /** `get_span`: the merged runs of a line with cleaned texts, or the
      `IndexError` an empty text can raise. */
  function GetSpan(line: Line): (r: Result<seq<Run>>)
    ensures r.Fail? ==> r.error == IndexError
    ensures r.Ok? ==> |r.value| <= |NonBlank(line.spans)|
    ensures r.Ok? ==> (r.value == [] <==> NonBlank(line.spans) == [])
    ensures r.Ok? ==> forall k :: 0 <= k < |r.value| ==>
      && LigatureFi !in r.value[k].text && LigatureFl !in r.value[k].text
      && SingleSpaced(r.value[k].text)
      && '+' !in r.value[k].font
    ensures r.Ok? ==> Fold(line.spans, None).Ok? && |r.value| == |Fold(line.spans, None).value|
    ensures r.Ok? ==> forall k :: 0 <= k < |r.value| ==>
      var run := Fold(line.spans, None).value[k];
      && r.value[k].font == run.font && r.value[k].size == run.size
      && (SettledRun(run.text) ==> r.value[k].text == ExpandLigatures(run.text))
  {
    var runs :- Fold(line.spans, None);
    RunCount(line.spans, None);
    FoldFonts(line.spans, None);
    FoldEmpty(line.spans, None);
    Ok(TidyRuns(runs))
  }

  /** Each run with its text cleaned up. */
  function TidyRuns(runs: seq<Run>): (r: seq<Run>)
    ensures |r| == |runs|
    ensures forall k :: 0 <= k < |r| ==> r[k] == Run(Tidy(runs[k].text), runs[k].font, runs[k].size)
  {
    MapTexts(runs, Tidy)
  }

  /** Each run with `f` applied to its text, font and size kept. */
  function MapTexts(runs: seq<Run>, f: string -> string): (r: seq<Run>)
    ensures |r| == |runs|
    ensures forall k :: 0 <= k < |r| ==> r[k] == Run(f(runs[k].text), runs[k].font, runs[k].size)
  {
    if runs == [] then [] else [Run(f(runs[0].text), runs[0].font, runs[0].size)] + MapTexts(runs[1..], f)
  }

  /** Every run holds at least one span, so there are no more runs than
      spans that are not skipped. */
  lemma {:induction false} RunCount(spans: seq<Span>, acc: Option<Run>)
    ensures Fold(spans, acc).Ok? ==> |Fold(spans, acc).value| <= |NonBlank(spans)| + (if acc.Some? then 1 else 0)
  {
    if spans != [] {
      if Blank(spans[0].text) {
        RunCount(spans[1..], acc);
      } else {
        var next := Prepare(spans[0]);
        match acc
        case None =>
          RunCount(spans[1..], Some(next));
        case Some(a) =>
          var step := Merge(a, next);
          if step.Ok? {
            match step.value
            case Extend(run) =>
              RunCount(spans[1..], Some(run));
            case Break =>
              RunCount(spans[1..], Some(next));
          }
      }
    }
  }
}

=== FILE: subst.dfy ===
/** The `re.sub` calls of the Python code, each written out for its own
    pattern.  `re.sub` scans left to right and replaces non-overlapping
    matches; every function here follows that scan.
 */
module Subst {
  import opened Base
  import opened Chars

  /** One position of a fixed-width pattern. */
  datatype Cls = Is(c: char) | Space | OneOf(cs: string)

  predicate InCls(c: char, k: Cls) {
    match k
    case Is(d) => c == d
    case Space => IsSpace(c)
    case OneOf(cs) => c in cs
  }

  /** The fixed-width pattern `p` matches `s` at position `i`. */
  predicate MatchAt(s: string, i: nat, p: seq<Cls>) {
    i + |p| <= |s| && forall j :: 0 <= j < |p| ==> InCls(s[i + j], p[j])
  }

  predicate Contains(s: string, p: seq<Cls>) {
    exists i: nat :: i <= |s| && MatchAt(s, i, p)
  }

  /** A match in the tail of `s` is a match in `s`. */
  lemma ContainsFromTail(s: string, p: seq<Cls>)
    requires s != []
    ensures Contains(s[1..], p) ==> Contains(s, p)
  {
    if Contains(s[1..], p) {
      var i: nat :| i <= |s[1..]| && MatchAt(s[1..], i, p);
      assert MatchAt(s, i + 1, p);
    }
  }

  /** `re.sub(p, repl, s)` for a fixed-width pattern `p`. */
  function SubAll(s: string, p: seq<Cls>, repl: string): (r: string)
    requires |p| > 0
    ensures forall c :: c in r ==> c in s || c in repl
    ensures !Contains(s, p) ==> r == s
    decreases |s|
  {
    if s == [] then []
    else if MatchAt(s, 0, p) then repl + SubAll(s[|p|..], p, repl)
    else
      ContainsFromTail(s, p);
      [s[0]] + SubAll(s[1..], p, repl)
  }

  /** Length of the run of back-to-back matches of `p` that starts `s`. */
  function RunLen(s: string, p: seq<Cls>): (n: nat)
    requires |p| > 0
    ensures n <= |s|
    ensures n == 0 <==> !MatchAt(s, 0, p)
    ensures !MatchAt(s[n..], 0, p)
    decreases |s|
  {
    if MatchAt(s, 0, p) then
      var n := |p| + RunLen(s[|p|..], p);
      assert s[n..] == s[|p|..][n - |p|..];
      n
    else 0
  }

  /** `re.sub('(p)+', repl, s)`: each maximal run of matches replaced once. */
  function SubRuns(s: string, p: seq<Cls>, repl: string): (r: string)
    requires |p| > 0
    ensures forall c :: c in r ==> c in s || c in repl
    ensures !Contains(s, p) ==> r == s
    decreases |s|
  {
    if s == [] then []
    else
      var n := RunLen(s, p);
      if n > 0 then repl + SubRuns(s[n..], p, repl)
      else
        ContainsFromTail(s, p);
        [s[0]] + SubRuns(s[1..], p, repl)
  }

  /** Every whitespace character is a plain space and none follows another:
      the text `re.sub(r'\s+', ' ', s)` returns. */
  predicate SingleSpaced(s: string) {
    forall i :: 0 <= i < |s| && IsSpace(s[i]) ==> s[i] == ' ' && (i + 1 < |s| ==> !IsSpace(s[i + 1]))
  }

  lemma SingleSpacedConcat(a: string, b: string)
    requires SingleSpaced(a) && SingleSpaced(b)
    requires a != [] && b != [] ==> !IsSpace(a[|a| - 1]) || !IsSpace(b[0])
    ensures SingleSpaced(a + b)
  {
    var ab := a + b;
    forall i | 0 <= i < |ab| && IsSpace(ab[i])
      ensures ab[i] == ' ' && (i + 1 < |ab| ==> !IsSpace(ab[i + 1]))
    {
      if i < |a| {
        assert ab[i] == a[i];
        if i + 1 < |a| {
          assert ab[i + 1] == a[i + 1];
        } else if i + 1 < |ab| {
          assert ab[i + 1] == b[0];
        }
      } else {
        assert ab[i] == b[i - |a|];
        if i + 1 < |ab| {
          assert ab[i + 1] == b[i + 1 - |a|];
        }
      }
    }
  }

  /** `re.sub(r'\s+', ' ', s)`. */
  function CollapseSpaces(s: string): (r: string)
    ensures SingleSpaced(r)
    ensures |s| > 0 && !IsSpace(s[0]) ==> |r| > 0 && r[0] == s[0]
    ensures |s| > 0 && !IsSpace(s[|s| - 1]) ==> |r| > 0 && r[|r| - 1] == s[|s| - 1]
    ensures Stripped(s) ==> Stripped(r)
    ensures forall c :: c in r ==> c in s || c == ' '
    decreases |s|
  {
    if s == [] then []
    else
      var n := LeadLen(s, IsSpace);
      if n > 0 then
        var rest := CollapseSpaces(s[n..]);
        assert SingleSpaced(" ");
        SingleSpacedConcat(" ", rest);
        assert n < |s| ==> s[n..][|s[n..]| - 1] == s[|s| - 1];
        " " + rest
      else
        var rest := CollapseSpaces(s[1..]);
        assert SingleSpaced([s[0]]);
        SingleSpacedConcat([s[0]], rest);
        assert |s| > 1 ==> s[1..][|s[1..]| - 1] == s[|s| - 1];
        [s[0]] + rest
  }

  lemma SubCharUnfold(s: string, c: char, repl: string)
    requires s != []
    ensures SubAll(s, [Is(c)], repl) == (if s[0] == c then repl else [s[0]]) + SubAll(s[1..], [Is(c)], repl)
  {
    var p := [Is(c)];
    if s[0] == c {
      assert forall j :: 0 <= j < |p| ==> j == 0 && InCls(s[0 + j], p[j]);
      assert MatchAt(s, 0, p);
    } else {
      assert !InCls(s[0 + 0], p[0]);
      assert !MatchAt(s, 0, p);
    }
  }

  lemma SingleSpacedTail(s: string)
    requires s != [] && SingleSpaced(s)
    ensures SingleSpaced(s[1..])
  {
    forall i | 0 <= i < |s[1..]| && IsSpace(s[1..][i])
      ensures s[1..][i] == ' ' && (i + 1 < |s[1..]| ==> !IsSpace(s[1..][i + 1]))
    {
      assert s[1..][i] == s[i + 1];
    }
  }

  /** Replacing a non-space character by a non-empty, space-free text puts
      a space at either end of the result exactly where `s` has one. */
  lemma SubCharEnds(s: string, c: char, repl: string)
    requires !IsSpace(c) && repl != []
    requires forall x :: x in repl ==> !IsSpace(x)
    ensures var r := SubAll(s, [Is(c)], repl);
      && (|s| > 0 ==> |r| > 0 && (IsSpace(r[0]) <==> IsSpace(s[0])))
      && (|s| > 0 ==> (IsSpace(r[|r| - 1]) <==> IsSpace(s[|s| - 1])))
    decreases |s|
  {
    if s != [] {
      SubCharUnfold(s, c, repl);
      SubCharEnds(s[1..], c, repl);
      if |s| > 1 {
        assert s[1..][|s[1..]| - 1] == s[|s| - 1];
      }
    }
  }

  lemma SubCharSingleSpaced(s: string, c: char, repl: string)
    requires !IsSpace(c) && repl != []
    requires forall x :: x in repl ==> !IsSpace(x)
    requires SingleSpaced(s)
    ensures SingleSpaced(SubAll(s, [Is(c)], repl))
    decreases |s|
  {
    if s != [] {
      SubCharUnfold(s, c, repl);
      SingleSpacedTail(s);
      SubCharSingleSpaced(s[1..], c, repl);
      SubCharEnds(s[1..], c, repl);
      var head := if s[0] == c then repl else [s[0]];
      assert SingleSpaced(head);
      SingleSpacedConcat(head, SubAll(s[1..], [Is(c)], repl));
    }
  }

  /** Replacing a non-space character by a non-empty, space-free text
      keeps a stripped, single-spaced text stripped and single-spaced. */
  lemma SubCharKeepsLayout(s: string, c: char, repl: string)
    requires !IsSpace(c) && repl != []
    requires forall x :: x in repl ==> !IsSpace(x)
    requires Stripped(s) && SingleSpaced(s)
    ensures Stripped(SubAll(s, [Is(c)], repl)) && SingleSpaced(SubAll(s, [Is(c)], repl))
  {
    SubCharEnds(s, c, repl);
    SubCharSingleSpaced(s, c, repl);
  }

  lemma SubAllRemoves(s: string, c: char, repl: string)
    requires c !in repl
    ensures c !in SubAll(s, [Is(c)], repl)
    decreases |s|
  {
    if s != [] {
      SubAllRemoves(s[1..], c, repl);
    }
  }

  /** A pattern that asks, at some position, for a character the text
      does not hold has no match. */
  lemma AbsentNoMatch(s: string, p: seq<Cls>, j: nat)
    requires j < |p| && p[j].Is? && p[j].c !in s
    ensures !Contains(s, p)
  {
    forall i: nat | i + |p| <= |s|
      ensures !MatchAt(s, i, p)
    {
      assert s[i + j] in s;
    }
  }

  /** Replacing one character splits over a concatenation. */
  lemma {:induction false} SubCharConcat(a: string, b: string, c: char, repl: string)
    ensures SubAll(a + b, [Is(c)], repl) == SubAll(a, [Is(c)], repl) + SubAll(b, [Is(c)], repl)
    decreases |a|
  {
    if a == [] {
      assert a + b == b;
    } else {
      var ab := a + b;
      var h := if a[0] == c then repl else [a[0]];
      assert ab[0] == a[0] && ab[1..] == a[1..] + b;
      SubCharUnfold(ab, c, repl);
      SubCharUnfold(a, c, repl);
      SubCharConcat(a[1..], b, c, repl);
      Associative(h, SubAll(a[1..], [Is(c)], repl), SubAll(b, [Is(c)], repl));
    }
  }

  /** `re.sub(r'\s+', ' ', s)` leaves a single-spaced text as it is. */
  lemma {:induction false} CollapseSingleSpaced(s: string)
    requires SingleSpaced(s)
    ensures CollapseSpaces(s) == s
    decreases |s|
  {
    if s != [] {
      SingleSpacedTail(s);
      CollapseSingleSpaced(s[1..]);
      if IsSpace(s[0]) {
        assert LeadLen(s, IsSpace) == 1 by {
          assert |s| > 1 ==> !IsSpace(s[1]);
          assert |s| > 1 ==> s[1..][0] == s[1];
        }
        assert s == " " + s[1..];
      } else {
        assert s == [s[0]] + s[1..];
      }
    }
  }

  /** Each ligature glyph spelt out as its two letters, every other
      character kept. */
  function ExpandLigatures(s: string): (r: string)
    ensures LigatureFi !in r && LigatureFl !in r
  {
    if s == [] then []
    else (if s[0] == LigatureFi then "fi" else if s[0] == LigatureFl then "fl" else [s[0]]) + ExpandLigatures(s[1..])
  }

  /** A text without ligatures is its own spelling. */
  lemma {:induction false} ExpandNoLigatures(s: string)
    requires LigatureFi !in s && LigatureFl !in s
    ensures ExpandLigatures(s) == s
    decreases |s|
  {
    if s != [] {
      assert s[0] in s;
      forall c | c in s[1..]
        ensures c in s
      {
        var i :| 0 <= i < |s[1..]| && s[1..][i] == c;
        assert s[i + 1] == c;
      }
      ExpandNoLigatures(s[1..]);
      assert s == [s[0]] + s[1..];
    }
  }

  /** The two ligature substitutions, one after the other, spell out every
      ligature. */
  lemma {:induction false} LigaturesSpelt(s: string)
    ensures SubAll(SubAll(s, [Is(LigatureFi)], "fi"), [Is(LigatureFl)], "fl") == ExpandLigatures(s)
    decreases |s|
  {
    if s != [] {
      var fl := [Is(LigatureFl)];
      var h := if s[0] == LigatureFi then "fi" else [s[0]];
      var rest := SubAll(s[1..], [Is(LigatureFi)], "fi");
      SubCharUnfold(s, LigatureFi, "fi");
      SubCharConcat(h, rest, LigatureFl, "fl");
      LigaturesSpelt(s[1..]);
      if s[0] == LigatureFi {
        AbsentNoMatch("fi", fl, 0);
      } else {
        SubCharUnfold(h, LigatureFl, "fl");
        assert h[1..] == [];
      }
    }
  }

  /** `re.sub(r'.*(P)+.*', repl, t)` for a fixed-width `P`: `.` does not
      match a newline, so every line of `t` that contains `P` is replaced,
      as a whole, by `repl`, and the other lines are kept. */
  function ReplaceLines(t: string, p: seq<Cls>, repl: string): (r: string)
    ensures !Contains(t, p) ==> r == t
    ensures '\n' !in t ==> r == (if Contains(t, p) then repl else t)
    decreases |t|
  {
    var k := FindFrom(t, '\n', 0);
    var line := t[..k];
    assert Contains(line, p) ==> Contains(t, p) by {
      if Contains(line, p) {
        var i: nat :| i <= |line| && MatchAt(line, i, p);
        assert MatchAt(t, i, p);
      }
    }
    var head := if Contains(line, p) then repl else line;
    if k == |t| then
      assert line == t;
      head
    else
      assert Contains(t[k + 1..], p) ==> Contains(t, p) by {
        if Contains(t[k + 1..], p) {
          var i: nat :| i <= |t[k + 1..]| && MatchAt(t[k + 1..], i, p);
          assert MatchAt(t, i + k + 1, p);
        }
      }
      assert t == line + "\n" + t[k + 1..];
      head + "\n" + ReplaceLines(t[k + 1..], p, repl)
  }

  /** `re.sub(r'\+.*', '', f)`: from each '+' to the end of its line. */
  function CutAtPlus(f: string): (r: string)
    ensures '+' !in r
    ensures '\n' !in f ==> r == f[..FindFrom(f, '+', 0)]
    decreases |f|
  {
    if f == [] then []
    else if f[0] == '+' then
      var k := FindFrom(f, '\n', 0);
      assert '\n' !in f ==> k == |f|;
      CutAtPlus(f[k..])
    else
      assert FindFrom(f, '+', 0) == 1 + FindFrom(f[1..], '+', 0) by {
        FindShift(f, '+');
      }
      [f[0]] + CutAtPlus(f[1..])
  }

  lemma FindShift(s: string, c: char)
    requires s != [] && s[0] != c
    ensures FindFrom(s, c, 0) == 1 + FindFrom(s[1..], c, 0)
  {
    FindShiftFrom(s, c, 0);
  }

  lemma FindShiftFrom(s: string, c: char, i: nat)
    requires i < |s|
    ensures FindFrom(s, c, i + 1) == 1 + FindFrom(s[1..], c, i)
    decreases |s| - i
  {
    if i + 1 < |s| && s[i + 1] != c {
      assert s[1..][i] == s[i + 1];
      FindShiftFrom(s, c, i + 1);
    }
  }

  // ---------------------------------------------------------------------
  // Citation brackets

  /** The two citation patterns of the code: a list of single digits
      `[ 1 , 2 ]` and a range `[ 12 – 15 ]`, each optionally preceded by
      "; " (a semicolon and one whitespace character). */
  datatype CiteForm = DigitList | DigitRange

  /** `(\d(\s,\s+)?)+`, matched against the whole of `v`. */
  predicate DigitItems(v: string)
    decreases |v|, 0
  {
    |v| >= 1 && IsDigit(v[0]) && DigitItemsTail(v[1..])
  }

  /** What may follow a digit inside `(\d(\s,\s+)?)+`. */
  predicate DigitItemsTail(r: string)
    decreases |r|, 1
  {
    || r == []
    || DigitItems(r)
    || (|r| >= 3 && IsSpace(r[0]) && r[1] == ',' && AfterComma(r[2..]))
  }

  /** The `\s+` after a comma, then the end or the next item. */
  predicate AfterComma(q: string)
    decreases |q|, 2
  {
    |q| >= 1 && IsSpace(q[0]) && (q[1..] == [] || DigitItems(q[1..]) || AfterComma(q[1..]))
  }

  /** The text strictly between '[' and ']' of a citation. */
  predicate CiteInner(form: CiteForm, u: string) {
    match form
    case DigitList =>
      |u| >= 3 && IsSpace(u[0]) && IsSpace(u[|u| - 1]) && DigitItems(u[1..|u| - 1])
    case DigitRange =>
      |u| >= 1 && IsSpace(u[0]) &&
      var a := DigitsEnd(u, 1);
      a > 1 && a + 3 <= |u| && IsSpace(u[a]) && u[a + 1] == '\U{2013}' && IsSpace(u[a + 2]) &&
      var b := DigitsEnd(u, a + 3);
      b > a + 3 && b + 1 == |u| && IsSpace(u[b])
  }

  /** End of the bracket citation that opens at `j`, if one does.  The
      inner text holds no ']', so the match closes at the first ']'. */
  function BracketAt(s: string, j: nat, form: CiteForm): (e: Option<nat>)
    ensures e.Some? ==> j < e.value <= |s|
  {
    if j < |s| && s[j] == '[' then
      var k := FindFrom(s, ']', j + 1);
      if k < |s| && CiteInner(form, s[j + 1..k]) then Some(k + 1) else None
    else None
  }

  /** End of the citation match at position 0, if any. */
  function CiteAt(s: string, form: CiteForm): (e: Option<nat>)
    ensures e.Some? ==> 0 < e.value <= |s|
  {
    if 2 <= |s| && s[0] == ';' && IsSpace(s[1]) && BracketAt(s, 2, form).Some? then BracketAt(s, 2, form)
    else BracketAt(s, 0, form)
  }

  /** `re.sub(citation pattern, '', s)`. */
  function DropCitations(s: string, form: CiteForm): (r: string)
    ensures forall c :: c in r ==> c in s
    ensures '[' !in s ==> r == s
    ensures |r| <= |s|
    decreases |s|
  {
    if s == [] then []
    else
      match CiteAt(s, form)
      case Some(e) => DropCitations(s[e..], form)
      case None => [s[0]] + DropCitations(s[1..], form)
  }
}

=== FILE: typography.dfy ===
/** The dominant-typography estimators: the body text's font size and font
    name, found by counting over all spans of the document
    (`get_main_size`, `get_main_font` in app/text_extractor.py and
    `get_main_font` in app/utils.py).
 */
module Typography {
  import opened Base
  import opened Chars
  import opened Layout

  /** Python's `round(x)` for a float: the nearest integer, ties to the
      even one. */
  function RoundHalfEven(x: real): (r: int)
    ensures x - 0.5 <= r as real <= x + 0.5
    ensures (r as real - x == 0.5 || x - r as real == 0.5) ==> r % 2 == 0
  {
    var f := x.Floor;
    var d := x - f as real;
    if d < 0.5 then f
    else if d > 0.5 then f + 1
    else if f % 2 == 0 then f
    else f + 1
  }

  // ---------------------------------------------------------------------
  // `collections.Counter`

  /** Number of occurrences of `x`. */
  function Count<T(==)>(xs: seq<T>, x: T): (n: nat)
    ensures n <= |xs|
    ensures n > 0 <==> x in xs
  {
    if xs == [] then 0
    else Count(xs[..|xs| - 1], x) + (if xs[|xs| - 1] == x then 1 else 0)
  }

  /** Position of the first occurrence of `x`. */
  function FirstIndex<T(==)>(xs: seq<T>, x: T): (k: nat)
    requires x in xs
    ensures k < |xs| && xs[k] == x
  {
    if xs[0] == x then 0 else 1 + FirstIndex(xs[1..], x)
  }

  /** No occurrence of `x` comes before `FirstIndex(xs, x)`. */
  lemma {:induction false} FirstIndexIsFirst<T>(xs: seq<T>, x: T, j: nat)
    requires x in xs && j < FirstIndex(xs, x)
    ensures xs[j] != x
  {
    if j > 0 {
      FirstIndexIsFirst(xs[1..], x, j - 1);
    }
  }

  lemma {:induction false} FirstIndexPrefix<T>(xs: seq<T>, n: nat, x: T)
    requires n <= |xs| && x in xs[..n]
    ensures FirstIndex(xs, x) == FirstIndex(xs[..n], x)
  {
    if xs[0] != x {
      assert xs[..n][1..] == xs[1..][..n - 1];
      FirstIndexPrefix(xs[1..], n - 1, x);
    }
  }

  /** `d` lists the values of `xs` once each, in order of first occurrence. */
  ghost predicate DistinctOf<T>(xs: seq<T>, d: seq<T>) {
    && (forall i :: 0 <= i < |d| ==> d[i] in xs)
    && (forall i :: 0 <= i < |xs| ==> xs[i] in d)
    && (forall i, j :: 0 <= i < j < |d| ==> d[i] != d[j])
    && (forall i, j :: 0 <= i < j < |d| ==> FirstIndex(xs, d[i]) < FirstIndex(xs, d[j]))
  }

  /** The distinct values in order of first occurrence: the key order of a
      `Counter`. */
  function Distinct<T(==)>(xs: seq<T>): (d: seq<T>)
    ensures forall i :: 0 <= i < |d| ==> d[i] in xs
    ensures forall i :: 0 <= i < |xs| ==> xs[i] in d
    ensures forall i, j :: 0 <= i < j < |d| ==> d[i] != d[j]
    ensures forall i, j :: 0 <= i < j < |d| ==> FirstIndex(xs, d[i]) < FirstIndex(xs, d[j])
  {
    if xs == [] then []
    else
      var n := |xs| - 1;
      var p := xs[..n];
      var d := Distinct(p);
      assert xs == p + [xs[n]];
      DistinctSnoc(p, xs[n], d);
      if xs[n] in d then d else d + [xs[n]]
  }

  /** Appending a value leaves the first occurrences of earlier values
      where they were, and puts that of a new value last. */
  lemma FirstIndexSnoc<T>(p: seq<T>, x: T)
    ensures forall y :: y in p ==> FirstIndex(p + [x], y) == FirstIndex(p, y)
    ensures x !in p ==> FirstIndex(p + [x], x) == |p|
  {
    var xs := p + [x];
    assert xs[..|p|] == p;
    forall y | y in p
      ensures FirstIndex(xs, y) == FirstIndex(p, y)
    {
      FirstIndexPrefix(xs, |p|, y);
    }
  }

  /** One more value at the end: a value already seen changes nothing, a
      new one is listed last. */
  lemma DistinctSnoc<T>(p: seq<T>, x: T, d: seq<T>)
    requires DistinctOf(p, d)
    ensures DistinctOf(p + [x], if x in d then d else d + [x])
  {
    var xs := p + [x];
    var d2 := if x in d then d else d + [x];
    FirstIndexSnoc(p, x);
    assert forall i :: 0 <= i < |d| ==> d[i] in p;
    forall i | 0 <= i < |d2|
      ensures d2[i] in xs
    {
      if i < |d| {
        assert d2[i] == d[i];
      }
    }
    forall i | 0 <= i < |xs|
      ensures xs[i] in d2
    {
      if i < |p| {
        assert xs[i] == p[i];
      }
    }
    forall i, j | 0 <= i < j < |d2|
      ensures d2[i] != d2[j]
    {
      assert d2[i] == d[i];
      if |d| <= j {
        assert d[i] in d;
      }
    }
    forall i, j | 0 <= i < j < |d2|
      ensures FirstIndex(xs, d2[i]) < FirstIndex(xs, d2[j])
    {
      assert d2[i] == d[i] && d[i] in p;
      if j < |d| {
        assert d2[j] == d[j] && d[j] in p;
      } else {
        assert x !in p && d2[j] == x;
      }
    }
  }

  /** `Distinct` of a list with one more value at the end. */
  lemma DistinctUnfold<T>(p: seq<T>, x: T)
    ensures Distinct(p + [x]) == if x in Distinct(p) then Distinct(p) else Distinct(p) + [x]
  {
    assert (p + [x])[..|p|] == p;
  }

  /** Index in `ds` of the first value with the highest count in `xs`. */
  function Best<T(==)>(ds: seq<T>, xs: seq<T>): (i: nat)
    requires |ds| > 0
    ensures i < |ds|
    ensures forall j :: 0 <= j < |ds| ==> Count(xs, ds[j]) <= Count(xs, ds[i])
    ensures forall j :: 0 <= j < i ==> Count(xs, ds[j]) < Count(xs, ds[i])
  {
    if |ds| == 1 then 0
    else
      var i := Best(ds[..|ds| - 1], xs);
      if Count(xs, ds[|ds| - 1]) > Count(xs, ds[i]) then |ds| - 1 else i
  }

  /** The first two entries of `Counter(xs).most_common(2)`. */
  datatype Ranked<T> = Ranked(first: T, firstCount: nat, second: T, secondCount: nat)

  /** `x` has the highest count among the values of `xs` that `allowed`
      admits, and comes first among those with that count. */
  ghost predicate Leads<T>(xs: seq<T>, x: T, allowed: T -> bool) {
    && x in xs && allowed(x)
    && forall y :: y in xs && allowed(y) ==>
         Count(xs, y) <= Count(xs, x) && (Count(xs, y) == Count(xs, x) ==> FirstIndex(xs, x) <= FirstIndex(xs, y))
  }

  /** What `most_common(2)` promises: the most frequent value, then the most
      frequent other value, ties going to the value seen first. */
  ghost predicate IsRanked<T>(xs: seq<T>, r: Ranked<T>) {
    && Leads(xs, r.first, _ => true)
    && Leads(xs, r.second, y => y != r.first)
    && r.firstCount == Count(xs, r.first)
    && r.secondCount == Count(xs, r.second)
  }

  /** The value `Best` picks leads the values it was chosen from. */
  lemma BestLeads<T>(ds: seq<T>, xs: seq<T>, allowed: T -> bool)
    requires |ds| > 0
    requires forall k :: 0 <= k < |ds| ==> ds[k] in xs && allowed(ds[k])
    requires forall i, j :: 0 <= i < j < |ds| ==> FirstIndex(xs, ds[i]) < FirstIndex(xs, ds[j])
    requires forall y :: y in xs && allowed(y) ==> y in ds
    ensures Leads(xs, ds[Best(ds, xs)], allowed)
  {
    var i := Best(ds, xs);
    forall y | y in xs && allowed(y)
      ensures Count(xs, y) <= Count(xs, ds[i])
      ensures Count(xs, y) == Count(xs, ds[i]) ==> FirstIndex(xs, ds[i]) <= FirstIndex(xs, y)
    {
      var j :| 0 <= j < |ds| && ds[j] == y;
      if Count(xs, y) == Count(xs, ds[i]) {
        assert i <= j;
      }
    }
  }

  /** `ds` without its entry at index `i`. */
  function Without<T>(ds: seq<T>, i: nat): (rest: seq<T>)
    requires i < |ds|
    ensures |rest| == |ds| - 1
    ensures forall k :: 0 <= k < i ==> rest[k] == ds[k]
    ensures forall k :: i <= k < |rest| ==> rest[k] == ds[k + 1]
  {
    ds[..i] + ds[i + 1..]
  }

  /** Removing the entry at `i` from distinct values leaves exactly the
      other values. */
  lemma WithoutMembers<T>(xs: seq<T>, ds: seq<T>, i: nat)
    requires i < |ds|
    requires forall k :: 0 <= k < |ds| ==> ds[k] in xs
    requires forall k :: 0 <= k < |xs| ==> xs[k] in ds
    requires forall a, b :: 0 <= a < b < |ds| ==> ds[a] != ds[b]
    ensures forall k :: 0 <= k < |Without(ds, i)| ==> Without(ds, i)[k] in xs && Without(ds, i)[k] != ds[i]
    ensures forall y :: y in xs && y != ds[i] ==> y in Without(ds, i)
  {
    var rest := Without(ds, i);
    forall k | 0 <= k < |rest|
      ensures rest[k] in xs && rest[k] != ds[i]
    {
      if k < i {
        assert rest[k] == ds[k];
      } else {
        assert rest[k] == ds[k + 1];
      }
    }
    forall y | y in xs && y != ds[i]
      ensures y in rest
    {
      var m :| 0 <= m < |ds| && ds[m] == y;
      if m < i {
        assert rest[m] == y;
      } else {
        assert rest[m - 1] == y;
      }
    }
  }

  /** Removing an entry keeps the order of first occurrence. */
  lemma WithoutOrdered<T>(xs: seq<T>, ds: seq<T>, i: nat)
    requires i < |ds|
    requires forall k :: 0 <= k < |ds| ==> ds[k] in xs
    requires forall a, b :: 0 <= a < b < |ds| ==> FirstIndex(xs, ds[a]) < FirstIndex(xs, ds[b])
    ensures forall k :: 0 <= k < |Without(ds, i)| ==> Without(ds, i)[k] in xs
    ensures forall a, b :: 0 <= a < b < |Without(ds, i)| ==> FirstIndex(xs, Without(ds, i)[a]) < FirstIndex(xs, Without(ds, i)[b])
  {
    var rest := Without(ds, i);
    forall a, b | 0 <= a < b < |rest|
      ensures FirstIndex(xs, rest[a]) < FirstIndex(xs, rest[b])
    {
      var a' := if a < i then a else a + 1;
      var b' := if b < i then b else b + 1;
      assert rest[a] == ds[a'] && rest[b] == ds[b'];
    }
  }

  /** `Counter(xs).most_common(2)` read at indexes 0 and 1: an
      `IndexError` when there are fewer than two distinct values. */
  function MostCommon2<T(==)>(xs: seq<T>): (r: Result<Ranked<T>>)
    ensures r.Fail? <==> |Distinct(xs)| < 2
    ensures r.Fail? ==> r.error == IndexError
    ensures r.Ok? ==> IsRanked(xs, r.value)
  {
    var ds := Distinct(xs);
    if |ds| < 2 then Fail(IndexError)
    else
      var i := Best(ds, xs);
      var rest := Without(ds, i);
      var j := Best(rest, xs);
      RankedByBest(xs, ds, i, rest, j);
      Ok(Ranked(ds[i], Count(xs, ds[i]), rest[j], Count(xs, rest[j])))
  }

  /** At most one value leads: ties go to the one seen first. */
  lemma LeaderUnique<T>(xs: seq<T>, x: T, y: T, allowed: T -> bool)
    requires Leads(xs, x, allowed) && Leads(xs, y, allowed)
    ensures x == y
  {
    assert FirstIndex(xs, x) == FirstIndex(xs, y);
  }

  /** `most_common(2)` is determined: two rankings of one list agree, so
      the rules stated over "some ranking" pin their result. */
  lemma RankedUnique<T>(xs: seq<T>, a: Ranked<T>, b: Ranked<T>)
    requires IsRanked(xs, a) && IsRanked(xs, b)
    ensures a == b
  {
    LeaderUnique(xs, a.first, b.first, _ => true);
    LeaderUnique(xs, a.second, b.second, y => y != a.first);
  }

  /** The best of the distinct values leads, and the best of the others
      leads among the others. */
  lemma RankedByBest<T>(xs: seq<T>, ds: seq<T>, i: nat, rest: seq<T>, j: nat)
    requires ds == Distinct(xs) && |ds| >= 2
    requires i == Best(ds, xs) && rest == Without(ds, i) && j == Best(rest, xs)
    ensures IsRanked(xs, Ranked(ds[i], Count(xs, ds[i]), rest[j], Count(xs, rest[j])))
  {
    BestLeads(ds, xs, _ => true);
    RunnerUpLeads(xs, ds, i, rest, j);
  }

  lemma RunnerUpLeads<T>(xs: seq<T>, ds: seq<T>, i: nat, rest: seq<T>, j: nat)
    requires ds == Distinct(xs) && |ds| >= 2
    requires i < |ds| && rest == Without(ds, i) && j == Best(rest, xs)
    ensures Leads(xs, rest[j], y => y != ds[i])
  {
    WithoutMembers(xs, ds, i);
    WithoutOrdered(xs, ds, i);
    BestLeads(rest, xs, y => y != ds[i]);
  }

  // ---------------------------------------------------------------------
  // The estimators

  /** A span counts for the text_extractor estimators unless its text
      starts with whitespace (`re.match(r'[\s\t]+', text)` fails). */
  predicate CountsForStyle(s: Span) {
    s.text == [] || !IsSpace(s.text[0])
  }

  function StyleSpans(spans: seq<Span>): (r: seq<Span>)
    ensures forall s :: s in r <==> s in spans && CountsForStyle(s)
    ensures |r| <= |spans|
  {
    if spans == [] then []
    else (if CountsForStyle(spans[0]) then [spans[0]] else []) + StyleSpans(spans[1..])
  }

  /** The list `font_sizes` of `get_main_size`: rounded sizes of the
      counted spans, in reading order. */
  function RoundedSizes(spans: seq<Span>): (r: seq<int>)
    ensures |r| == |spans|
    ensures forall i :: 0 <= i < |spans| ==> r[i] == RoundHalfEven(spans[i].size)
  {
    seq(|spans|, i requires 0 <= i < |spans| => RoundHalfEven(spans[i].size))
  }

  /** The runner-up rule on integer sizes: the second most common size wins
      when it is larger than the most common one and its COUNT exceeds half
      the most common SIZE; otherwise the most common size stands. */
  function SizeRule(rk: Ranked<int>): int {
    if rk.second > rk.first && 2 * rk.secondCount > rk.first then rk.second else rk.first
  }

  function MainSizeOf(sizes: seq<int>): (r: Result<int>)
    ensures r.Fail? <==> |Distinct(sizes)| < 2
    ensures r.Fail? ==> r.error == IndexError
    ensures r.Ok? ==> r.value in sizes
    ensures r.Ok? ==> exists rk :: IsRanked(sizes, rk) && r.value == SizeRule(rk)
  {
    var m := MostCommon2(sizes);
    if m.Fail? then Fail(m.error)
    else
      var rk := m.value;
      assert IsRanked(sizes, rk);
      Ok(SizeRule(rk))
  }

  /** `get_main_size` of app/text_extractor.py: the runner-up rule over
      the rounded sizes of the counted spans. */
  function MainSize(doc: Document): (r: Result<int>)
    ensures r.Fail? <==> |Distinct(RoundedSizes(StyleSpans(DocSpans(doc))))| < 2
    ensures r.Fail? ==> r.error == IndexError
    ensures r.Ok? ==> exists s :: s in DocSpans(doc) && CountsForStyle(s) && r.value == RoundHalfEven(s.size)
    ensures r.Ok? ==> exists rk :: IsRanked(RoundedSizes(StyleSpans(DocSpans(doc))), rk) && r.value == SizeRule(rk)
  {
    var spans := StyleSpans(DocSpans(doc));
    var r := MainSizeOf(RoundedSizes(spans));
    if r.Ok? then
      var k :| 0 <= k < |spans| && RoundedSizes(spans)[k] == r.value;
      assert spans[k] in spans;
      r
    else r
  }

  /** The font names of some spans, in order. */
  function Fonts(spans: seq<Span>): (r: seq<string>)
    ensures |r| == |spans|
    ensures forall i :: 0 <= i < |spans| ==> r[i] == spans[i].font
  {
    seq(|spans|, i requires 0 <= i < |spans| => spans[i].font)
  }

  /** The most common font name in `fonts`, the first seen among equally
      common ones; an `IndexError` for an empty list. */
  function MostCommonFont(fonts: seq<string>): (r: Result<string>)
    ensures r.Fail? <==> fonts == []
    ensures r.Fail? ==> r.error == IndexError
    ensures r.Ok? ==> Leads(fonts, r.value, _ => true)
  {
    if fonts == [] then Fail(IndexError)
    else
      var ds := Distinct(fonts);
      assert fonts[0] in ds;
      BestLeads(ds, fonts, _ => true);
      Ok(ds[Best(ds, fonts)])
  }

  /** `get_main_font` of app/text_extractor.py: the most common font name
      of the counted spans. */
  function MainFont(doc: Document): (r: Result<string>)
    ensures r.Fail? <==> forall s :: s in DocSpans(doc) ==> !CountsForStyle(s)
    ensures r.Fail? ==> r.error == IndexError
    ensures r.Ok? ==> Leads(Fonts(StyleSpans(DocSpans(doc))), r.value, _ => true)
  {
    var spans := StyleSpans(DocSpans(doc));
    assert spans == [] <==> forall s :: s in DocSpans(doc) ==> !CountsForStyle(s) by {
      if spans != [] {
        assert spans[0] in spans;
      }
    }
    MostCommonFont(Fonts(spans))
  }

  /** The runner-up rule of `get_main_font` in app/utils.py, on raw sizes:
      the chosen size is rounded at the end. */
  function FontSizeRule(rk: Ranked<real>): int {
    RoundHalfEven(if rk.second > rk.first && rk.secondCount as real > rk.first / 2.0 then rk.second else rk.first)
  }

  function MainFontSizeOf(sizes: seq<real>): (r: Result<int>)
    ensures r.Fail? <==> |Distinct(sizes)| < 2
    ensures r.Fail? ==> r.error == IndexError
    ensures r.Ok? ==> exists s :: s in sizes && r.value == RoundHalfEven(s)
    ensures r.Ok? ==> exists rk :: IsRanked(sizes, rk) && r.value == FontSizeRule(rk)
  {
    var m := MostCommon2(sizes);
    if m.Fail? then Fail(m.error)
    else
      var rk := m.value;
      FontSizeRuleCounted(sizes, rk);
      Ok(FontSizeRule(rk))
  }

  /** The rule picks one of the two leading sizes, so its result is the
      rounding of a counted size. */
  lemma FontSizeRuleCounted(sizes: seq<real>, rk: Ranked<real>)
    requires IsRanked(sizes, rk)
    ensures exists s :: s in sizes && FontSizeRule(rk) == RoundHalfEven(s)
  {
    if FontSizeRule(rk) == RoundHalfEven(rk.second) {
      assert rk.second in sizes;
    } else {
      assert rk.first in sizes;
    }
  }

  /** The raw sizes of some spans, in order. */
  function Sizes(spans: seq<Span>): (r: seq<real>)
    ensures |r| == |spans|
    ensures forall i :: 0 <= i < |spans| ==> r[i] == spans[i].size
  {
    seq(|spans|, i requires 0 <= i < |spans| => spans[i].size)
  }

  /** `get_main_font` of app/utils.py: every span counts, whatever its
      text. */
  function UtilsMainFont(doc: Document): (r: Result<int>)
    ensures r.Fail? <==> |Distinct(Sizes(DocSpans(doc)))| < 2
    ensures r.Fail? ==> r.error == IndexError
    ensures r.Ok? ==> exists s :: s in DocSpans(doc) && r.value == RoundHalfEven(s.size)
    ensures r.Ok? ==> exists rk :: IsRanked(Sizes(DocSpans(doc)), rk) && r.value == FontSizeRule(rk)
  {
    var spans := DocSpans(doc);
    var sizes := Sizes(spans);
    var r := MainFontSizeOf(sizes);
    if r.Ok? then
      var x :| x in sizes && r.value == RoundHalfEven(x);
      var k :| 0 <= k < |sizes| && sizes[k] == x;
      assert spans[k] in spans;
      r
    else r
  }

  // ---------------------------------------------------------------------
  // Two sizes

  /** `[x] * n`. */
  function Repeat<T>(x: T, n: nat): (r: seq<T>)
    ensures |r| == n
    ensures n > 0 ==> r[n - 1] == x
  {
    if n == 0 then [] else Repeat(x, n - 1) + [x]
  }

  lemma {:induction false} CountConcat<T>(p: seq<T>, q: seq<T>, x: T)
    ensures Count(p + q, x) == Count(p, x) + Count(q, x)
    decreases |q|
  {
    if q != [] {
      assert (p + q)[..|p + q| - 1] == p + q[..|q| - 1];
      CountConcat(p, q[..|q| - 1], x);
    } else {
      assert p + q == p;
    }
  }

  lemma {:induction false} CountRepeat<T>(a: T, n: nat, x: T)
    ensures Count(Repeat(a, n), x) == if x == a then n else 0
  {
    if n > 0 {
      assert Repeat(a, n)[..n - 1] == Repeat(a, n - 1);
      CountRepeat(a, n - 1, x);
    }
  }

  lemma {:induction false} DistinctRepeat<T>(a: T, n: nat)
    requires n >= 1
    ensures Distinct(Repeat(a, n)) == [a]
  {
    if n > 1 {
      DistinctRepeat(a, n - 1);
      DistinctUnfold(Repeat(a, n - 1), a);
    } else {
      assert Repeat(a, n) == [] + [a];
      DistinctUnfold([], a);
    }
  }

  /** `n` copies of `a` followed by `m` copies of `b`. */
  function Two<T>(a: T, n: nat, b: T, m: nat): (r: seq<T>)
    ensures |r| == n + m
  {
    Repeat(a, n) + Repeat(b, m)
  }

  lemma TwoSnoc<T>(a: T, n: nat, b: T, m: nat)
    requires m >= 1
    ensures Two(a, n, b, m) == Two(a, n, b, m - 1) + [b]
  {
  }

  /** Appending a value already listed leaves `Distinct` unchanged. */
  lemma DistinctSnocSeen<T>(p: seq<T>, x: T, q: seq<T>)
    requires q == p + [x] && x in Distinct(p)
    ensures Distinct(q) == Distinct(p)
  {
    DistinctUnfold(p, x);
  }

  lemma DistinctTwoOne<T>(a: T, n: nat, b: T)
    requires n >= 1 && a != b
    ensures Distinct(Two(a, n, b, 1)) == [a, b]
  {
    var p := Repeat(a, n);
    assert Repeat(b, 1) == [b];
    assert Two(a, n, b, 1) == p + [b];
    DistinctRepeat(a, n);
    assert b !in Distinct(p);
    DistinctUnfold(p, b);
    PairSnoc(a, b);
  }

  lemma PairSnoc<T>(a: T, b: T)
    ensures [a] + [b] == [a, b]
  {
  }

  lemma {:induction false} DistinctTwo<T>(a: T, n: nat, b: T, m: nat)
    requires n >= 1 && m >= 1 && a != b
    ensures Distinct(Two(a, n, b, m)) == [a, b]
  {
    if m > 1 {
      TwoSnoc(a, n, b, m);
      DistinctTwo(a, n, b, m - 1);
      assert b == [a, b][1];
      DistinctSnocSeen(Two(a, n, b, m - 1), b, Two(a, n, b, m));
    } else {
      DistinctTwoOne(a, n, b);
    }
  }

  lemma CountTwo<T>(a: T, n: nat, b: T, m: nat)
    requires a != b
    ensures Count(Two(a, n, b, m), a) == n && Count(Two(a, n, b, m), b) == m
  {
    CountConcat(Repeat(a, n), Repeat(b, m), a);
    CountConcat(Repeat(a, n), Repeat(b, m), b);
    CountRepeat(a, n, a);
    CountRepeat(a, n, b);
    CountRepeat(b, m, a);
    CountRepeat(b, m, b);
  }

  /** `most_common(2)` of a list with exactly two values, the first seen
      at least as often as the second. */
  lemma MostCommonOfTwoValues<T>(xs: seq<T>, a: T, b: T)
    requires Distinct(xs) == [a, b] && Count(xs, a) >= Count(xs, b)
    ensures MostCommon2(xs) == Ok(Ranked(a, Count(xs, a), b, Count(xs, b)))
  {
    assert [a, b][..1] == [a];
    assert Best([a, b], xs) == 0;
    assert Without([a, b], 0) == [b];
    assert Best([b], xs) == 0;
  }

  /** `most_common(2)` of a list made of `n` copies of `a` followed by `m`
      copies of `b`, with `n >= m`: `a` comes first, also on a tie. */
  lemma MostCommonTwo<T>(a: T, n: nat, b: T, m: nat)
    requires n >= m >= 1 && a != b
    ensures MostCommon2(Two(a, n, b, m)) == Ok(Ranked(a, n, b, m))
  {
    DistinctTwo(a, n, b, m);
    CountTwo(a, n, b, m);
    MostCommonOfTwoValues(Two(a, n, b, m), a, b);
  }

  /** The runner-up rule on a body size `a` seen `n` times and another size
      `b` seen `m <= n` times: `b` wins exactly when it is larger and
      `2 * m > a`. */
  lemma MainSizeOfTwo(a: int, n: nat, b: int, m: nat)
    requires n >= m >= 1 && a != b
    ensures MainSizeOf(Two(a, n, b, m)) == Ok(if b > a && 2 * m > a then b else a)
  {
    MostCommonTwo(a, n, b, m);
  }

  /** As written, the rule compares a count with a size: 100 spans of body
      text at 12pt and 7 headings at 14pt make 14 the main size, because
      7 > 12 / 2. */
  lemma RunnerUpCountAgainstSize()
    ensures MainSizeOf(Two(12, 100, 14, 7)) == Ok(14)
  {
    MainSizeOfTwo(12, 100, 14, 7);
  }

  /** With 5 headings at 14pt the body size 12 stays the main size. */
  lemma FewHeadingsKeepBodySize()
    ensures MainSizeOf(Two(12, 100, 14, 5)) == Ok(12)
  {
    MainSizeOfTwo(12, 100, 14, 5);
  }
}
